=== FILE: README.md ===
# QR attendance: a Dafny model

This project models the core of *qrasistencia*, a back end for taking attendance in laboratory and classroom sessions by scanning QR codes. It covers three groups of behaviour.

The protocol:
- A host books a session in a room (an *environment*). The booking is refused when it overlaps another active session of that room.
- The session's QR code rotates every `qrRotationMinutes`. Each issued code is kept in a history, together with the window it was issued for.
- A scan is checked in a fixed order: the code exists, the session is active, the code's own window holds, the code is still the session's current one, and the time lies within the session's schedule. Only then does the scan create the user's attendance row (check-in) or fill in its check-out.
- A scan is flagged as suspicious when more than two rows came from the same IP within the last minute.
- Closing a session checks out every open row. Deleting a session deactivates it when it has attendance, and removes it otherwise.
- An environment-level QR keeps exactly one active code per room, each valid for 60 seconds.

The validators and helpers around it:
- the request schemas of the session and attendance routes;
- the role and level guards;
- the error handler;
- password-strength scoring;
- bearer-token parsing and token-expiry arithmetic;
- the CORS origin decisions;
- the last-administrator guards of user administration.

How it is modelled:
- Time is an integer number of milliseconds, passed in as `now`.
- Freshly generated codes and ids are parameters, and each must not already be in the store.
- The database is the class `Store.Database`. It holds environments, sessions by id, QR history records by code, attendances by `(sessionId, userId)`, and notifications. The user table is `UserController.UserTable`, and the environment QR table is `QrController.EnvironmentQRTable`.

Each handler that writes has two parts:
- a pure function `…OutcomeOf` that gives the answer and the new state, and states the properties as its postconditions;
- a method on the store class that performs the writes one at a time. It is proved to produce exactly that outcome.

The request schemas are predicates on the request as sent. A field is absent, null, malformed or given. The validation middleware only accepts or refuses a request: it does not write Joi's converted values or defaults back into the request. So the handlers see the fields as sent and apply their own defaults (`qrRotationMinutes || 3`, `allowExternals || false`), and the model does the same.

## Model

| member | source | states |
|---|---|---|
| Strings.Split | src/utils/jwt.ts:147 | `split` on one character: at least one piece; `JoinSplit`/`SplitJoin` make it the inverse of joining pieces free of the separator |
| Strings.Trim | src/config/cors.ts:6 | `trim`: the result is the slice of the input between two runs of white space, with no white space at either end; it is empty exactly when the input is all white space, and an already-trimmed string is unchanged |
| DateHelpers.AddMinutes | src/utils/dateHelpers.ts:54-56 | the result lies exactly `minutes` minutes of milliseconds after the date |
| DateHelpers.AddHours | src/utils/dateHelpers.ts:59-61 | the result lies `hours` hours after the date, the same as adding 60·hours minutes |
| DateHelpers.DifferenceInMinutes | src/utils/dateHelpers.ts:86-88 | the whole minutes between two dates, rounded down: `r` minutes ≤ difference < `r+1` minutes |
| DateHelpers.DifferenceInHours | src/utils/dateHelpers.ts:91-93 | the whole hours between two dates, rounded down, bounded the same way |
| DateHelpers.GetNextQRRotation | src/utils/dateHelpers.ts:150-152 | the next rotation lies exactly `rotationMinutes` minutes after the last one, and measuring the difference in minutes from the last rotation gives the interval back |
| DateHelpers.IsBetween | src/utils/dateHelpers.ts:71-73 | inclusive at both ends: a date equal to the start or the end of a non-empty window is inside it, a date before the start or after the end is not, and an inverted window holds nothing; with `IsBetweenConvex`, every date from the start to the end is inside |
| DateHelpers.IsBetweenConvex | src/utils/dateHelpers.ts:71-73 | a date between two dates a window holds is held too, so no date strictly inside the window is left out |
| DateHelpers.HasScheduleConflict | src/utils/dateHelpers.ts:140-147 | windows that only touch, in either order, do not conflict; a window that starts inside another conflicts with it |
| DateHelpers.IsBusinessHours | src/utils/dateHelpers.ts:155-162 | the opening hour is a business hour; no hour before the opening or from the closing on is one; no hour is one when the opening is not before the closing; with `BusinessHoursConvex`, every hour from the opening up to the closing is one |
| DateHelpers.BusinessHoursConvex | src/utils/dateHelpers.ts:155-162 | an hour between two business hours is a business hour, for any opening and closing |
| DateHelpers.DifferenceOfAddedMinutes | src/utils/dateHelpers.ts:54-88 | adding minutes and taking the difference in minutes gives the minutes back |
| DateHelpers.DifferenceOfAddedHours | src/utils/dateHelpers.ts:59-93 | the same round trip for hours |
| DateHelpers.ScheduleConflictSymmetric | src/utils/dateHelpers.ts:140-147 | a conflict between two windows does not depend on their order |
| DateHelpers.BackToBackNoConflict | src/utils/dateHelpers.ts:140-147 | a window that ends when the next starts does not conflict with it |
| DateHelpers.BusinessHoursDefaults | src/utils/dateHelpers.ts:155-162 | with the default bounds an hour is a business hour exactly when it lies in [7, 22) |
| AttendanceQueries.DurationMinutes | src/controllers/session.controller.ts:836-838 | a duration exists exactly for rows with a check-out, and is the whole minutes between check-in and check-out |
| AttendanceQueries.CheckInBucket | src/controllers/attendance.controller.ts:933-936 | the 5-minute slot of a check-in: a multiple of 5 whose slot contains the minutes elapsed since the start |
| AttendanceQueries.Count | src/controllers/attendance.controller.ts:913-916 | a filter's count never exceeds the number of rows |
| AttendanceQueries.OnTimeAndLatePartition | src/controllers/attendance.controller.ts:463-470 | every row is either on time (at most 15 minutes after the start) or late, so the two counts add up to the total |
| AttendanceQueries.StudentsAndExternalsPartition | src/controllers/attendance.controller.ts:476-482 | every row is either a student's or an external's, so the two counts add up to the total |
| SessionController.FailureStatus | src/controllers/session.controller.ts:156-174 | an unknown session is answered 404, a caller who is neither host nor ADMIN 403, every other refusal 400 |
| SessionController.HostOrAdmin | src/controllers/session.controller.ts:597 | an ADMIN may act on every session; anyone else exactly on the sessions they host |
| SessionController.BookingClash | src/controllers/session.controller.ts:33-58 | for well-formed windows, the three-clause availability query is exactly an active session of the same room whose window overlaps the requested one |
| SessionController.UpdateClash | src/controllers/session.controller.ts:181-201 | the two-clause update query only finds overlapping sessions other than the one being updated, and finds every such one that does not strictly contain the new window |
| SessionController.RotationMinutesOrDefault | src/controllers/session.controller.ts:82 | the rotation interval sent, or 3 when it is missing or 0 |
| SessionController.CreateOutcomeOf | src/controllers/session.controller.ts:15-107 | a missing or inactive room and a taken window are refused (in that order) with no write, and there is no other refusal; otherwise exactly one new active session is added, with the room, name, type and times sent, hosted by the caller, holding the fresh code as current, plus one history record valid from now until the end of the session; nothing else changes |
| SessionController.CreateKeepsRoomsFree | src/controllers/session.controller.ts:33-66 | booking preserves the invariant that no two active sessions of a room overlap |
| SessionController.CreateSession | src/controllers/session.controller.ts:15-107 | the writes leave the store in exactly the state `CreateOutcomeOf` describes and keep it well formed |
| SessionController.RotationDue | src/controllers/session.controller.ts:616-621 | a forced request and a session without a current code always rotate; otherwise the code rotates exactly when the rotation interval has elapsed since the last rotation |
| SessionController.RotationOutcomeOf | src/controllers/session.controller.ts:584-671 | refusals in the order 404, 403, 400 (inactive) with no write, and no other refusal; a rotation when forced, when there is no current code, or when the interval has elapsed, which makes the fresh code current and records it with validity `now + interval` (not clamped to the session's end); otherwise the current code is returned and nothing is written |
| SessionController.RotationKeepsHistory | src/controllers/session.controller.ts:635-642 | a rotation never removes or alters an earlier history record, and adds at most the fresh one |
| SessionController.RepeatedRequestsWithinInterval | src/controllers/session.controller.ts:615-621 | an unforced second request inside the same interval returns the same code and writes nothing |
| SessionController.GenerateQRCode | src/controllers/session.controller.ts:578-678 | the writes leave the store in exactly the state `RotationOutcomeOf` describes |
| SessionController.AutoCheckout | src/controllers/session.controller.ts:726-734 | only an open row of the closed session gets `now` as its check-out; every other row is unchanged |
| SessionController.CloseOutcomeOf | src/controllers/session.controller.ts:690-734 | 404 and 403 refusals with no write, and no other refusal; otherwise the session becomes inactive, ends now, and every open row of it is checked out; the keys of the attendance table do not change |
| SessionController.CloseSession | src/controllers/session.controller.ts:690-734 | the writes leave the store in exactly the state `CloseOutcomeOf` describes |
| SessionController.HistoryWithout | src/controllers/session.controller.ts:310-312 | the history keeps exactly the records of the other sessions, unchanged |
| SessionController.DeleteOutcomeOf | src/controllers/session.controller.ts:261-312 | 404 and 403 refusals with no write; it succeeds exactly for a known session and its host or an ADMIN; a session with attendance is only deactivated; one without attendance is removed together with its history records; attendance rows are never touched |
| SessionController.DeleteSession | src/controllers/session.controller.ts:261-312 | the writes leave the store in exactly the state `DeleteOutcomeOf` describes |
| SessionController.Patched | src/controllers/session.controller.ts:213-219 | each of name, type, externals, host name, times, rotation interval and active flag is the value sent or else the stored one; id, room, host and current code are kept; an empty update changes nothing |
| SessionController.UpdateOutcomeOf | src/controllers/session.controller.ts:145-230 | 404 and 403 refusals, and no other refusal than a conflict; the conflict refusal comes exactly when the caller may edit, a time is sent, and the two-clause query finds another session for the resulting window; otherwise exactly the patched session is stored |
| SessionController.UpdateMissesEnclosingSession | src/controllers/session.controller.ts:181-201 | the update query lets through a new window strictly inside an existing active session of the same room, although the windows overlap |
| SessionController.UpdateSession | src/controllers/session.controller.ts:145-230 | the writes leave the store in exactly the state `UpdateOutcomeOf` describes |
| SessionController.SessionAttendanceStats | src/controllers/session.controller.ts:812-818 | the counts of `getSessionAttendance`: each of students, externals, suspicious and still present is the count of its own filter; students plus externals equal the total, and every count is bounded by it |
| AttendanceController.RejectionMessage | src/controllers/attendance.controller.ts:28-112 | every refusal has a non-empty message |
| AttendanceController.RejectionMessagesDiffer | src/controllers/attendance.controller.ts:28-112 | two refusals share a message exactly when they are the same refusal |
| AttendanceController.Screen | src/controllers/attendance.controller.ts:36-73 | for a known code: refused as inactive exactly when the session is inactive; as expired exactly when active but outside the code's inclusive window; as no longer current exactly when all that holds but the code is not the session's current one; as out of schedule exactly when all that holds but `now` is outside the inclusive schedule |
| AttendanceController.RecentFromIp | src/controllers/attendance.controller.ts:120-128 | the rows of the session from the same IP checked in during the last 60 s, never more than the rows of that session |
| AttendanceController.NewRow | src/controllers/attendance.controller.ts:142-151 | the new row belongs to the session and the user, checks in at `now`, has no check-out, stores the scanning IP address and device, and carries the same-IP reason exactly when flagged |
| AttendanceController.CheckInCountedFromItsAddress | src/controllers/attendance.controller.ts:119-151 | after a check-in, the count of the session's rows from the scanning address during the last minute is one more than before |
| AttendanceController.MarkOutcomeOf | src/controllers/attendance.controller.ts:11-207 | an unknown code is refused as invalid; every refusal leaves the store unchanged and is an invalid code, a completed row, or the refusal of the four checks; a user with a completed row is refused; a first scan adds exactly one row (flagged when more than 2 recent rows share the IP) and, when flagged and the session has a host, one notification; a second scan only fills in the check-out |
| AttendanceController.PassingScanIsAccepted | src/controllers/attendance.controller.ts:76-112 | a known code that passes the four checks is accepted: a check-in for a user without a row, a check-out for a user whose row is still open |
| AttendanceController.MarkKeepsRows | src/controllers/attendance.controller.ts:76-159 | a scan never removes a row, and never rewrites a row that is already checked out |
| AttendanceController.CheckInOutcome | src/controllers/attendance.controller.ts:116-159 | the check-in writes keep the store well formed |
| AttendanceController.HostAlert | src/controllers/attendance.controller.ts:183-197 | a notification is sent exactly when the row is flagged and the session has a host |
| AttendanceController.ScreenScan | src/controllers/attendance.controller.ts:17-73 | the lookup and the four checks, without writing, give the same refusal as `Screen` |
| AttendanceController.MarkAttendance | src/controllers/attendance.controller.ts:11-207 | the writes leave the store in exactly the state `MarkOutcomeOf` describes |
| AttendanceController.CheckIn | src/controllers/attendance.controller.ts:116-197 | the check-in writes, one at a time, produce exactly the check-in outcome |
| AttendanceController.CheckInThenCheckOutThenRefused | src/controllers/attendance.controller.ts:76-112 | three accepted scans of a current code by one user check in, then check out, then are refused as already completed |
| AttendanceController.ScreenKeepsAcrossScans | src/controllers/attendance.controller.ts:36-73 | the checks depend only on the session and the code's record, so attendance writes do not change them |
| AttendanceController.RotatedCodeRefused | src/controllers/attendance.controller.ts:58-64 | after a rotation, every earlier code of that session is refused |
| AttendanceController.VerifyQRCode | src/controllers/attendance.controller.ts:219-285 | each flag is its check evaluated on its own, `valid` is their conjunction, and the message names the first failure in the order active, current, in schedule, in window |
| AttendanceController.VerifyAgreesWithMark | src/controllers/attendance.controller.ts:253-258 | a code is reported valid exactly when a scan of it passes the checks |
| AttendanceController.ReasonOrderDiffers | src/controllers/attendance.controller.ts:279-284 | a rotated code whose window has also passed is reported as rotated by verification but as expired by a scan |
| AttendanceController.ReportAccess | src/controllers/attendance.controller.ts:404-430 | the report is refused 404 for an unknown session and 403 unless the caller is the host, an ADMIN or a JEFE_LAB |
| AttendanceController.SummarizeSession | src/controllers/attendance.controller.ts:451-483 | the summary's counts equal the filter counts; on time plus late equals the total, and so do students plus externals |
| AttendanceController.OnTimeVisits | src/controllers/attendance.controller.ts:621-628 | a student's on-time visits, each measured against its own session's start, never more than the visits |
| AttendanceController.CheckedOutVisits | src/controllers/attendance.controller.ts:630-634 | the visits with a check-out, never more than the visits |
| AttendanceController.TotalDurationMs | src/controllers/attendance.controller.ts:618-636 | the summed stay is 0 when no visit has a check-out, and never negative when no check-out precedes its check-in |
| AttendanceController.SummarizeStudent | src/controllers/attendance.controller.ts:608-639 | on time plus late equals the visits; the average duration is the total divided by the checked-out visits in whole minutes, rounded down (0 when none); total hours is rounded down |
| AttendanceController.CheckInDistribution | src/controllers/attendance.controller.ts:930-939 | a slot appears exactly when some row falls in it, and holds the number of rows in that slot |
| QrController.FailureStatus | src/controllers/qr.controller.ts:13-16 | an unknown room is answered 404 and a server error 500 |
| QrController.DeactivateIn | src/controllers/qr.controller.ts:19-27 | every active code of the room is deactivated, nothing else changes, and none of the room's codes stays active |
| QrController.DeactivateUnknownRoom | src/controllers/qr.controller.ts:78-86 | deactivating for a room that has no code changes nothing |
| QrController.WithFreshCode | src/controllers/qr.controller.ts:18-39 | afterwards the new code, valid for 60 s, is the room's only active code, and other rooms' codes are unchanged |
| QrController.WithFreshCodeKeepsTable | src/controllers/qr.controller.ts:18-39 | issuing a code not yet in the table keeps the invariant: every row belongs to a known room, each room has at most one active code, and no two rows share a code |
| QrController.Live | src/controllers/qr.controller.ts:67-73 | a live code is an active code of the room, and a code that expires at or before now is not live |
| QrController.GenerarOutcome | src/controllers/qr.controller.ts:8-50 | it succeeds exactly for a known room; an unknown room is refused 404 with no write; otherwise the fresh code is issued and returned |
| QrController.FirstLive | src/controllers/qr.controller.ts:67-73 | the first active, unexpired code of the room (expiry strictly after now), or none exists |
| QrController.GetActivoOutcome | src/controllers/qr.controller.ts:60-99 | a live code is returned with no write; otherwise a fresh code is issued for a known room; an unknown room fails with 500 and no change; what is returned is always live |
| QrController.LiveCodeIsUnique | src/controllers/qr.controller.ts:67-73 | under the invariant, a live code is the only active code of its room |
| QrController.GetActivoAfterGenerar | src/controllers/qr.controller.ts:60-99 | within 60 s of issuing, asking for the active code returns the issued code without writing |
| QrController.EnvironmentQRTable.GenerarQR | src/controllers/qr.controller.ts:8-50 | the table ends in exactly the state `GenerarOutcome` describes |
| QrController.EnvironmentQRTable.GetQRActivo | src/controllers/qr.controller.ts:60-110 | the table ends in exactly the state `GetActivoOutcome` describes |
| FieldRules.IntegerOr | src/validations/session.validation.ts:188-198 | the value of an integer field, or its default when absent |
| FieldRules.Pagination | src/validations/session.validation.ts:188-198 | accepted exactly for an integer page ≥ 1 and an integer limit in 1..100, each optional, and the values are those sent or the defaults 1 and 20 |
| SessionValidation.TypeName | src/validations/session.validation.ts:21-23 | each session type's name is an accepted name |
| SessionValidation.ParseType | src/validations/session.validation.ts:21-23 | a name is read as a type exactly when it is one of the four accepted names, and the type's name is that name |
| SessionValidation.ParseTypeName | src/validations/session.validation.ts:21-23 | reading a type's name gives the type back |
| SessionValidation.CreateSessionValid | src/validations/session.validation.ts:5-66 | an accepted booking names a room, has a name of 3 to 200 characters, a start strictly before its end, a rotation of 1 to 30 minutes when sent, and a host name only when externals are allowed |
| SessionValidation.AsCreateRequest | src/validations/session.validation.ts:5-66 | an accepted booking has a start before its end, a name of 3 to 200 characters, a rotation of 1 to 30 minutes when sent, and a host name only when externals are allowed |
| SessionValidation.AcceptedBookingIsWellFormed | src/validations/session.validation.ts:28-60 | a session booked from an accepted body has a well-formed window, a rotation of 1 to 30 minutes (3 when none was sent), and a host name only with externals allowed |
| SessionValidation.UpdateSessionValid | src/validations/session.validation.ts:69-128 | an accepted update names the session, sends some field, sends the end whenever it sends the start, and keeps names in 3..200 characters and rotation in 1..30 |
| SessionValidation.AsSessionUpdate | src/validations/session.validation.ts:69-128 | an accepted update sends some field, sends the end whenever it sends the start, keeps rotation in 1..30 and names in 3..200 characters, and a null host name clears it |
| SessionValidation.UpdateAcceptsInvertedWindow | src/validations/session.validation.ts:97-109 | the update schema accepts an end before the start |
| SessionValidation.GenerateQRRequest | src/validations/session.validation.ts:142-158 | accepted exactly with a non-empty session id and `forceNew` absent, a boolean, or the text `true` or `false` in any letter case; a rotation is forced exactly when `forceNew` is the boolean true or any text, since the handler reads the raw body |
| SessionValidation.TextFalseForcesRotation | src/controllers/session.controller.ts:580-621 | `forceNew` sent as the text `false` or `FALSE` passes the schema and forces a rotation; the boolean false does not |
| SessionValidation.SessionQueryPaging | src/validations/session.validation.ts:161-203 | accepted exactly when page is an integer ≥ 1 and limit an integer in 1..100 (each optional), the end is strictly after the start, the type is valid and the search is a string; the page and limit are those of `Pagination`, the values sent or 1 and 20 |
| SessionValidation.EmptySearchAccepted | src/validations/session.validation.ts:199-201 | an empty search string is accepted |
| AttendanceValidation.ScannedCode | src/validations/attendance.validation.ts:5-42 | the scanned code is accepted exactly when it is a non-empty string |
| AttendanceValidation.AttendanceQueryPaging | src/validations/attendance.validation.ts:45-93 | accepted exactly when page and limit are in range (each optional), the end is strictly after the start and the status is present, late or absent; the page and limit are those of `Pagination` |
| AttendanceValidation.AttendanceUpdateValid | src/validations/attendance.validation.ts:96-125 | an accepted update names the row, sends some field, and a row marked suspicious comes with a non-empty reason |
| AttendanceValidation.ParseStatsKind | src/validations/attendance.validation.ts:130-132 | a statistics kind is read exactly for the four accepted names |
| AttendanceValidation.StatsRequestOf | src/validations/attendance.validation.ts:128-168 | accepted exactly when the kind is one of the four names, an entity is sent for every kind but `general`, the dates form a range and the grouping, when sent, is one of the five names; the entity and grouping are those sent (`day` when none) |
| AttendanceValidation.GeneralStatsNeedNoEntity | src/validations/attendance.validation.ts:137-142 | general statistics are accepted without an entity, student statistics are not |
| AttendanceValidation.AttendanceIdValid | src/validations/attendance.validation.ts:171-180 | an accepted id path names at least one record by a non-empty id, and sends no null id |
| AttendanceValidation.ExportRequestOf | src/validations/attendance.validation.ts:183-208 | accepted exactly with one of the three formats, a session or a career, and valid dates; the session and career are those sent; `includeDetails` is absent or the text `true` or `false` in any letter case; details are included exactly when it is the text `true`, since the handler compares the query text with the string `'true'` (src/controllers/attendance.controller.ts:1147, :1151) |
| AttendanceValidation.UpperCaseTrueGivesNoDetails | src/controllers/attendance.controller.ts:1142-1153 | `includeDetails=TRUE` passes the schema and gives a report without details, while `true` gives one with them |
| UserController.ActiveAdmins | src/controllers/user.controller.ts:284-289 | exactly the active users whose role is ADMIN |
| UserController.RefusalStatus | src/controllers/user.controller.ts:265-297 | an unknown user is answered 404, the own account and the last administrator 400, a server error 500 |
| UserController.Deactivated | src/controllers/user.controller.ts:302-305 | only the user's active flag is cleared |
| UserController.DeleteOutcomeOf | src/controllers/user.controller.ts:255-305 | refusals in the order unknown, own account, last active ADMIN, with no change, and no other refusal; otherwise the user is deactivated and kept |
| UserController.ToggleOutcomeOf | src/controllers/user.controller.ts:337-385 | refusals in the order unknown, own account, last active ADMIN being deactivated, with no change, and no other refusal; otherwise only the user's active flag flips |
| UserController.DeactivatedActiveAdmins | src/controllers/user.controller.ts:283-305 | deactivating a user removes exactly that user from the active administrators |
| UserController.DeleteKeepsAnAdmin | src/controllers/user.controller.ts:283-298 | if there is an active administrator before a delete, there is one after it |
| UserController.ToggleKeepsAnAdmin | src/controllers/user.controller.ts:364-379 | if there is an active administrator before a toggle, there is one after it |
| UserController.UpdatedProfile | src/controllers/user.controller.ts:206-216 | a student profile is rewritten only when some profile field is truthy; then name and career change only when truthy, the phone whenever sent |
| UserController.WithUserFields | src/controllers/user.controller.ts:186-203 | the first write of an update: name, e-mail, active flag and role are those sent or else the stored ones; id, username and profile are kept |
| UserController.UpdateOutcomeOf | src/controllers/user.controller.ts:158-216 | an unknown user is refused 404 with no change; an unknown role fails with 500 and no change; an unknown career on a student's profile fails with 500 after the user row has been written; no other failure; otherwise exactly the fields sent are written |
| UserController.UpdateCanRemoveLastAdmin | src/controllers/user.controller.ts:188-191 | an update can deactivate the last active administrator, because this path has no guard |
| UserController.UserTable.DeleteUser | src/controllers/user.controller.ts:255-305 | the table ends in exactly the state `DeleteOutcomeOf` describes |
| UserController.UserTable.ToggleUserStatus | src/controllers/user.controller.ts:337-385 | the table ends in exactly the state `ToggleOutcomeOf` describes |
| UserController.UserTable.UpdateUser | src/controllers/user.controller.ts:158-216 | the table ends in exactly the state `UpdateOutcomeOf` describes |
| UserController.Skip | src/controllers/user.controller.ts:21-23 | the rows skipped before a page are never negative |
| UserController.TotalPages | src/controllers/user.controller.ts:86 | the fewest pages of `limit` rows that hold all the rows |
| UserController.PagesCoverListing | src/controllers/user.controller.ts:21-86 | a page up to the page count starts inside the listing, and a later page starts past its end |
| UserController.InactiveUsers | src/controllers/user.controller.ts:528 | total minus active users is the number of inactive users |
| Authorize.DecisionStatus | src/middlewares/authorize.middleware.ts:11-28 | a missing user is answered 401, a refusal 403, and passing on sends nothing |
| Authorize.DecisionMessage | src/middlewares/authorize.middleware.ts:11-58 | every answer has a message, and passing on has none |
| Authorize.AuthorizeRoles | src/middlewares/authorize.middleware.ts:8-31 | 401 exactly without a user; the request passes exactly when the user's role is listed; otherwise 403 carrying the listed roles and the user's role |
| Authorize.AuthorizeLevel | src/middlewares/authorize.middleware.ts:38-61 | 401 exactly without a user; the request passes exactly when the role level reaches the minimum; otherwise 403 carrying both levels |
| Authorize.AuthorizeLevelMonotone | src/middlewares/authorize.middleware.ts:50-58 | lowering the minimum level never turns a pass into a refusal |
| Authorize.AuthorizeRolesMonotone | src/middlewares/authorize.middleware.ts:20-28 | listing more roles never turns a pass into a refusal |
| ErrorMiddleware.ClassStatus | src/middlewares/error.middleware.ts:29-63 | every error class has a client-error status |
| ErrorMiddleware.ClassStatusIdentifiesClass | src/middlewares/error.middleware.ts:29-63 | no two classes share a status or a code |
| ErrorMiddleware.Raise | src/middlewares/error.middleware.ts:18-63 | a class's constructor stores the class name, its status, its code, and the message and details given |
| ErrorMiddleware.NotFoundError | src/middlewares/error.middleware.ts:47-51 | 404 NOT_FOUND, with a message that starts with the resource's name |
| ErrorMiddleware.ConflictField | src/middlewares/error.middleware.ts:77 | the first target field when there is a non-empty one, and `campo` in every other case; never empty |
| ErrorMiddleware.HandlePrismaError | src/middlewares/error.middleware.ts:73-95 | P2002 gives 409 naming the field; P2003 and P2016 give 400; P2025 gives 404; any other code gives 500 DATABASE_ERROR; each of these statuses comes from exactly those codes |
| ErrorMiddleware.ConflictMessageNamesField | src/middlewares/error.middleware.ts:75-78 | the field can be read back from the duplicate-value message |
| ErrorMiddleware.HandleJWTError | src/middlewares/error.middleware.ts:98-109 | every token error gives 401 AUTHENTICATION_ERROR; the message says invalid or expired exactly for those two names |
| ErrorMiddleware.Classify | src/middlewares/error.middleware.ts:118-135 | first match wins: database errors, then token errors, then Joi errors with details, then every other non-application error becomes 500 INTERNAL_SERVER_ERROR; an application error passes unchanged unless it is named ValidationError |
| ErrorMiddleware.StatusOrDefault | src/middlewares/error.middleware.ts:138 | the error's status, or 500 when it is 0 |
| ErrorMiddleware.ErrorHandler | src/middlewares/error.middleware.ts:112-175 | the answer carries the classified error's message and code and the defaulted status; it is logged as an error exactly when the status is at least 500; details are shown only in development |
| ErrorMiddleware.UnknownErrorsAreHidden | src/middlewares/error.middleware.ts:128-135 | an unrecognised error is answered with a generic 500 that does not repeat its message |
| ErrorMiddleware.ForeignErrorsGetAStatus | src/middlewares/error.middleware.ts:121-175 | every non-application error gets a status from 400 to 500 and a code, and is logged as a warning exactly when its status is below 500 |
| ErrorMiddleware.AppErrorsPassThrough | src/middlewares/error.middleware.ts:118-138 | an application error not named ValidationError keeps its message and code, and its status unless that is 0 |
| ErrorMiddleware.ThrownValidationErrorLosesMessage | src/middlewares/error.middleware.ts:125-127 | a ValidationError thrown with its own message is answered with the generic validation message |
| ErrorMiddleware.NotFoundRoute | src/middlewares/error.middleware.ts:178-181 | an unknown route becomes a 404 that names its path |
| Bcrypt.PasswordErrors | src/utils/bcrypt.ts:43-84 | each complaint is present exactly when its rule fails, every complaint is one of the five, there are at most five, and the length complaint comes first when there is one |
| Bcrypt.PasswordErrorsInOrder | src/utils/bcrypt.ts:43-84 | the complaints come in the order length, upper case, lower case, digit, special character, each at most once |
| Bcrypt.Score | src/utils/bcrypt.ts:45-84 | the score is at most 6, and at most 4 below 8 characters |
| Bcrypt.StrengthOf | src/utils/bcrypt.ts:86-93 | weak exactly up to 2, medium exactly for 3 and 4, strong exactly from 5 |
| Bcrypt.ValidatePasswordStrength | src/utils/bcrypt.ts:38-100 | the password is valid exactly when there is no complaint; the complaints and the rating are those of the rules |
| Bcrypt.AcceptedPasswords | src/utils/bcrypt.ts:48-84 | a password is accepted exactly when it has 6 characters and all four character classes |
| Bcrypt.AcceptedPasswordStrength | src/utils/bcrypt.ts:48-93 | an accepted password is medium below 8 characters and strong otherwise |
| Bcrypt.HashPasswordGuard | src/utils/bcrypt.ts:8-11 | hashing is refused exactly for passwords shorter than 6 characters |
| Bcrypt.AcceptedPasswordsCanBeHashed | src/utils/bcrypt.ts:9-11 | every password the strength rules accept passes the hashing guard |
| Bcrypt.ComparePassword | src/utils/bcrypt.ts:17-23 | an empty password or hash never matches; otherwise the answer is the library's |
| Jwt.BearerSplit | src/utils/jwt.ts:147-150 | splitting on spaces gives exactly `Bearer` and one more part precisely for headers of the form `Bearer <token>` with no further space |
| Jwt.ExtractTokenFromHeader | src/utils/jwt.ts:144-153 | a token is found exactly for such headers, and the header is `Bearer ` followed by it |
| Jwt.ExtractBearerRoundTrip | src/utils/jwt.ts:147-152 | any token without a space reads back from the header built for it |
| Jwt.GetExpirationTime | src/utils/jwt.ts:180-194 | a token without an object payload and one without a numeric `exp` fail with their messages; otherwise the seconds left are the milliseconds left, rounded up |
| Jwt.IsTokenExpiringSoon | src/utils/jwt.ts:197-204 | true whenever the expiry cannot be read, and otherwise exactly when at most the threshold (300 s by default) is left |
| Jwt.ExpiringSoonInMilliseconds | src/utils/jwt.ts:192-200 | a token expires soon exactly when at most the threshold is left, counted to the millisecond |
| Jwt.ExpiringSoonStays | src/utils/jwt.ts:197-204 | once a token expires soon, it stays so as time passes |
| Cors.ConfiguredOrigins | src/config/cors.ts:6 | no origins exactly when the variable is unset; otherwise one entry per comma-separated piece, each the trimmed piece |
| Cors.ConfiguredOriginsRoundTrip | src/config/cors.ts:6 | a list of trimmed origins without commas, joined by commas, reads back as the same list |
| Cors.GetAllowedOrigins | src/config/cors.ts:5-23 | the configured origins come first, and the seven development origins follow only in development |
| Cors.DefaultOriginCheck | src/config/cors.ts:28-47 | allows a missing origin or a listed one; any other origin is allowed with a warning in development and refused otherwise |
| Cors.DefaultCheckAdmitsAllInDevelopment | src/config/cors.ts:39-42 | in development the default check refuses nothing |
| Cors.ProductionOriginCheck | src/config/cors.ts:99-107 | allows exactly a missing origin or a configured one |
| Cors.GetCorsConfig | src/config/cors.ts:111-120 | the development options exactly in development, the production ones exactly in production, the default otherwise |
| Cors.ServedOriginCheck | src/config/cors.ts:88-120 | under the options chosen by the environment, development allows everything, any other environment allows exactly a missing or configured origin, and the warning branch is never reached |
| Cors.DefaultAgreesWithProduction | src/config/cors.ts:26-108 | outside development the default and the production checks admit the same origins |
| Cors.IsWhitelistedBy | src/config/cors.ts:130-137 | a path equal to one of the patterns is always whitelisted |
| Cors.IsWhitelisted | src/config/cors.ts:123-137 | with the shipped list, exactly `/api/health`, `/api/metrics` and the paths under `/api/internal/` |
| Cors.WhitelistExamples | src/config/cors.ts:123-137 | `/api/internal/anything` is whitelisted, `/api/healthz` and `/api/internal` are not |

## Left out

- Code and id generation (`generateUniqueQRCode`, `uuidv4`, `generateRandomPassword`): these use randomness. Fresh codes and ids are parameters that must not already be in the store.
- The QR image, the report exports (CSV, PDF, Excel), audit-log rows, console and logger output, and the `timestamp` of error answers: these are I/O.
- The wording and payload of notifications: only which notifications are created is modelled.
- Concurrency: two requests racing between a read and a write are not modelled, and each handler runs as one sequence of writes.
- Floating-point results: the session duration in hours, the `getMyAttendance` average and the `attendanceRate` are left out. So are the location latitude and longitude in the scan schema.
- Calendar helpers of `dateHelpers.ts` (start and end of day, week and month, `addDays`, `isToday`, formatting, Spanish names, `parseISO`, `isValidDate`): these depend on the local time zone. `isBusinessHours` takes the hour as input.
- `updateAttendanceStatus`, the remaining list and detail handlers, and the career, environment and authentication controllers: these are not part of the modelled core.
- Per-career counts (`byCareer`) are left out. The check-in distribution is modelled as a map from slot start to count, without its string keys and its sort.
- Joi details: unknown keys, type conversion of query strings and of request bodies, and message texts are not modelled. String lengths are counted in characters, not in UTF-16 code units.
- Text-valued booleans and numbers in request bodies: the application also parses form-encoded bodies (src/app.ts:38), where every value is text. `Joi.boolean()` and `Joi.number()` admit texts such as `false` and `5`, and the validation middleware passes the raw body on. The handlers then write the text as sent, and the database refuses the mistyped column with a 500. The model types these fields as booleans and numbers, so this failure is missing from the three members below.
- SessionController.CreateOutcomeOf: `allowExternals` and `qrRotationMinutes` sent as text are not modelled. The source answers 500 where the model books the session, and `allowExternals` sent as the text `false` would also keep the host name, because the text is truthy. Its "no other refusal" clause holds only for typed bodies.
- SessionController.UpdateOutcomeOf: `allowExternals`, `qrRotationMinutes` and `isActive` sent as text are not modelled. The source answers 500 where the model stores the patched session. Its "no other refusal" clause holds only for typed bodies.
- UserController.UpdateOutcomeOf: `isActive` sent as text is not modelled. The source answers 500 where the model writes the user. Its list of failures holds only for typed bodies.
- Bcrypt.ValidatePasswordStrength: the character classes are checked on characters, not on UTF-16 code units.
- UserController.TotalPages: requires a limit of at least 1. On the listing route, `userQuerySchema` (src/validations/user.validation.ts:21-22, applied at src/routes/user.routes.ts:37-41) admits only an integer limit in 1..100 when one is sent, and the handler's default is 20. So every limit that reaches the handler meets this precondition.
- UserController.Skip: requires a page and a limit of at least 1. The same schema admits only an integer page of at least 1, and the handler's default is 1.
- SessionController.DeleteOutcomeOf: the database schema is not part of this model. Deleting a session is assumed to delete its QR history records by cascade, and never its attendance rows (the session is only deleted when it has none).
- QrController.GetActivoOutcome: `getQRActivo` does not look the room up. For an unknown room the insert fails on the foreign key and the handler answers 500; this is modelled as a failure with no change.
- ErrorMiddleware.ErrorHandler: the stack trace is not modelled. A status that is `NaN` or `undefined`, which `|| 500` also replaces, is not modelled either.
- ErrorMiddleware.ConflictField: `meta.target` is modelled as a list of field names. A target given as a single string, whose first character the source would use, is not modelled.
- Jwt.GetExpirationTime: `exp` is an integer number of seconds. A fractional `exp` is not modelled.
- SessionController.Patched and SessionController.UpdateOutcomeOf: the handler tests the new times by truthiness (src/controllers/session.controller.ts:177-179, :216-217). `Joi.date()` also accepts a number of milliseconds, so a JSON body with `startTime` or `endTime` equal to the number 0 counts as not sent: the stored time is kept, takes its place in the conflict test, and when no other time is sent the test is skipped. The model treats every sent time as sent, so it stores 0 and tests the conflict with it. The ISO text of the same instant is truthy, and the model, which sees both as the instant 0, cannot tell the two apart.
- SessionController.Patched: the handler spreads the raw request body into the update, so a body could also carry keys the update schema does not list (`environmentId`, `hostId` and others). The model carries only the fields of the schema, so such writes are not modelled.
- UserController.UpdateOutcomeOf: a new e-mail that another user already has fails on the unique constraint before any write. This failure is not modelled.
- Signing, verifying and decoding tokens, hashing and comparing passwords: these are calls into external libraries, and their results are parameters.

=== FILE: attendance_controller.dfy ===
/** `src/controllers/attendance.controller.ts`: scanning a session's QR code
    (`markAttendance`), checking a code without scanning it (`verifyQRCode`)
    and the integer summaries of the attendance reports. */
module AttendanceController {
  import opened Wrappers
  import opened Store
  import opened AttendanceQueries
  import SessionController
  import Sets

  /** Why a scan is refused. */
  datatype Rejection =
    | InvalidCode
    | SessionInactive
    | CodeExpired
    | CodeNotCurrent
    | OutsideSchedule
    | AlreadyCompleted

  /** The message each refusal is answered with (all with status 400). */
  function RejectionMessage(r: Rejection): (m: string)
    ensures m != ""
  {
    match r
    case InvalidCode => "Código QR inválido"
    case SessionInactive => "La sesión no está activa"
    case CodeExpired => "El código QR ha expirado"
    case CodeNotCurrent => "El código QR ya no es válido"
    case OutsideSchedule => "Fuera del horario de la sesión"
    case AlreadyCompleted => "Ya has registrado entrada y salida para esta sesión"
  }

  /** No two refusals share a message, so the message tells the client
      which check failed. */
  lemma RejectionMessagesDiffer(r1: Rejection, r2: Rejection)
    ensures RejectionMessage(r1) == RejectionMessage(r2) <==> r1 == r2
  {
  }

  /** The reason stored on a row flagged as suspicious. */
  const MultipleFromSameIp: string := "Múltiples registros desde la misma IP"

  /** A scan: the code read, the authenticated user, `req.ip` and the
      `user-agent` header. */
  datatype ScanRequest = ScanRequest(code: string, userId: string, ipAddress: string, deviceInfo: string)

  /** The answer to a scan: a refusal, a new row (201, with the anomaly
      warning if any) or the row checked out (200). */
  datatype MarkResult =
    | Rejected(reason: Rejection)
    | CheckedIn(attendance: Attendance, warning: Option<string>)
    | CheckedOut(attendance: Attendance)

  /** The window a QR record was issued for holds at `now` (both ends included). */
  predicate InCodeWindow(qr: QRCodeRecord, now: int) {
    qr.validFrom <= now <= qr.validUntil
  }

  /** `now` lies within the session's schedule (both ends included). */
  predicate InSchedule(s: Session, now: int) {
    s.startTime <= now <= s.endTime
  }

  /** The session a known code belongs to. */
  function SessionOf(st: Tables, code: string): (s: Session)
    requires WellFormed(st) && code in st.qrCodes
    ensures s.id == st.qrCodes[code].sessionId
  {
    st.sessions[st.qrCodes[code].sessionId]
  }

  /** The four checks a known code goes through, in the order the scan runs
      them; the first one that fails is reported. */
  function Screen(st: Tables, code: string, now: int): (r: Option<Rejection>)
    requires WellFormed(st) && code in st.qrCodes
    ensures r == Some(SessionInactive) <==> !SessionOf(st, code).isActive
    ensures r == Some(CodeExpired) <==>
      SessionOf(st, code).isActive && !InCodeWindow(st.qrCodes[code], now)
    ensures r == Some(CodeNotCurrent) <==>
      SessionOf(st, code).isActive && InCodeWindow(st.qrCodes[code], now)
      && SessionOf(st, code).currentQRCode != Some(code)
    ensures r == Some(OutsideSchedule) <==>
      SessionOf(st, code).isActive && InCodeWindow(st.qrCodes[code], now)
      && SessionOf(st, code).currentQRCode == Some(code) && !InSchedule(SessionOf(st, code), now)
    ensures r.None? <==>
      SessionOf(st, code).isActive && InCodeWindow(st.qrCodes[code], now)
      && SessionOf(st, code).currentQRCode == Some(code) && InSchedule(SessionOf(st, code), now)
  {
    var s := SessionOf(st, code);
    if !s.isActive then Some(SessionInactive)
    else if !InCodeWindow(st.qrCodes[code], now) then Some(CodeExpired)
    else if s.currentQRCode != Some(code) then Some(CodeNotCurrent)
    else if !InSchedule(s, now) then Some(OutsideSchedule)
    else None
  }

  /** The rows of a session checked in from `ip` during the last minute
      (`checkInTime >= now - 60000`). */
  function RecentFromIp(st: Tables, sessionId: string, ip: string, now: int): (n: nat)
    ensures n <= |SessionRows(st, sessionId)|
  {
    var recent := set k | k in st.attendances && k.0 == sessionId
                          && st.attendances[k].ipAddress == ip
                          && st.attendances[k].checkInTime >= now - 60000;
    Sets.SubsetCardinality(recent, SessionRows(st, sessionId));
    |recent|
  }

  /** The keys of a session's attendance rows. */
  function SessionRows(st: Tables, sessionId: string): set<AttendanceKey> {
    set k | k in st.attendances && k.0 == sessionId
  }

  /** A scan that passed the checks and finds no row for the user creates
      this one. */
  function NewRow(sessionId: string, req: ScanRequest, suspicious: bool, now: int): (a: Attendance)
    ensures a.sessionId == sessionId && a.attendee == Student(req.userId)
    ensures a.checkInTime == now && a.checkOutTime.None?
    ensures a.isSuspicious == suspicious
    ensures suspicious ==> a.suspiciousReason == Some(MultipleFromSameIp)
    ensures !suspicious ==> a.suspiciousReason.None?
    // the stored address is the one later same-address counts compare with
    ensures a.ipAddress == req.ipAddress && a.deviceInfo == req.deviceInfo
  {
    Attendance(sessionId, Student(req.userId), now, None, suspicious,
               if suspicious then Some(MultipleFromSameIp) else None,
               req.ipAddress, req.deviceInfo)
  }

  datatype MarkOutcome = MarkOutcome(result: MarkResult, post: Tables)

  /** What `markAttendance` answers and writes. */
  function MarkOutcomeOf(st: Tables, req: ScanRequest, now: int): (o: MarkOutcome)
    requires WellFormed(st)
    ensures WellFormed(o.post)
    // every refusal leaves the store as it was
    ensures o.result.Rejected? ==> o.post == st
    ensures o.result == Rejected(InvalidCode) <==> req.code !in st.qrCodes
    ensures req.code in st.qrCodes && Screen(st, req.code, now).Some? ==>
      o.result == Rejected(Screen(st, req.code, now).value)
    ensures !o.result.Rejected? ==> req.code in st.qrCodes && Screen(st, req.code, now).None?
    // the only refusals are the unknown code, a failed check and a completed row, so
    // a scan that passes the checks checks the user in or out
    ensures o.result.Rejected? ==>
      || o.result.reason == InvalidCode || o.result.reason == AlreadyCompleted
      || (req.code in st.qrCodes && Screen(st, req.code, now) == Some(o.result.reason))
    // a completed row refuses the scan
    ensures o.result == Rejected(AlreadyCompleted) <==>
      && req.code in st.qrCodes && Screen(st, req.code, now).None?
      && var key := (SessionOf(st, req.code).id, Student(req.userId));
      key in st.attendances && st.attendances[key].checkOutTime.Some?
    // a first scan creates the user's row and bumps the code's scan count
    ensures o.result.CheckedIn? ==>
      var qr := st.qrCodes[req.code];
      var key := (qr.sessionId, Student(req.userId));
      var suspicious := RecentFromIp(st, qr.sessionId, req.ipAddress, now) > 2;
      && key !in st.attendances
      && o.result.attendance == NewRow(qr.sessionId, req, suspicious, now)
      && o.result.warning == (if suspicious then Some(MultipleFromSameIp) else None)
      && o.post.attendances == st.attendances[key := o.result.attendance]
      && o.post.qrCodes == st.qrCodes[req.code := qr.(scanCount := qr.scanCount + 1)]
      && o.post.sessions == st.sessions && o.post.environments == st.environments
      && o.post.notifications ==
           st.notifications
           + HostAlert(SessionOf(st, req.code), suspicious, req.userId)
    // a second scan checks the row out and writes nothing else
    ensures o.result.CheckedOut? ==>
      var key := (st.qrCodes[req.code].sessionId, Student(req.userId));
      && key in st.attendances && st.attendances[key].checkOutTime.None?
      && o.result.attendance == st.attendances[key].(checkOutTime := Some(now))
      && o.post == st.(attendances := st.attendances[key := o.result.attendance])
  {
    if req.code !in st.qrCodes then MarkOutcome(Rejected(InvalidCode), st)
    else
      var qr := st.qrCodes[req.code];
      var s := SessionOf(st, req.code);
      var screen := Screen(st, req.code, now);
      if screen.Some? then MarkOutcome(Rejected(screen.value), st)
      else
        var key := (s.id, Student(req.userId));
        if key in st.attendances then
          var row := st.attendances[key];
          if row.checkOutTime.None? then
            var out := row.(checkOutTime := Some(now));
            MarkOutcome(CheckedOut(out), st.(attendances := st.attendances[key := out]))
          else MarkOutcome(Rejected(AlreadyCompleted), st)
        else CheckInOutcome(st, req, now)
  }

  /** A scan that passes the four checks is accepted: it checks the user in
      when there is no row yet and out when the row is open. */
  lemma PassingScanIsAccepted(st: Tables, req: ScanRequest, now: int)
    requires WellFormed(st) && req.code in st.qrCodes && Screen(st, req.code, now).None?
    ensures var o := MarkOutcomeOf(st, req, now);
      var key := (st.qrCodes[req.code].sessionId, Student(req.userId));
      && (key !in st.attendances ==> o.result.CheckedIn?)
      && (key in st.attendances && st.attendances[key].checkOutTime.None? ==> o.result.CheckedOut?)
  {
  }

  /** A check-in is counted by the next same-address test of its session:
      within the minute, the count from the scanning address grows by one. */
  lemma CheckInCountedFromItsAddress(st: Tables, req: ScanRequest, now: int)
    requires WellFormed(st)
    ensures var o := MarkOutcomeOf(st, req, now);
      o.result.CheckedIn? ==>
        var sid := st.qrCodes[req.code].sessionId;
        RecentFromIp(o.post, sid, req.ipAddress, now) == RecentFromIp(st, sid, req.ipAddress, now) + 1
  {
    var o := MarkOutcomeOf(st, req, now);
    if o.result.CheckedIn? {
      var sid := st.qrCodes[req.code].sessionId;
      var key := (sid, Student(req.userId));
      assert key !in st.attendances;
      assert o.post.attendances == st.attendances[key := o.result.attendance];
      RecentAfterInsert(st, o.post, key, o.result.attendance, req.ipAddress, now);
    }
  }

  /** Adding a row from `ip` checked in at `now` adds one to the count. */
  lemma RecentAfterInsert(st: Tables, st': Tables, key: AttendanceKey, row: Attendance, ip: string, now: int)
    requires key !in st.attendances && st'.attendances == st.attendances[key := row]
    requires row.ipAddress == ip && row.checkInTime == now
    ensures RecentFromIp(st', key.0, ip, now) == RecentFromIp(st, key.0, ip, now) + 1
  {
    var sid := key.0;
    var before := set k | k in st.attendances && k.0 == sid
                          && st.attendances[k].ipAddress == ip
                          && st.attendances[k].checkInTime >= now - 60000;
    var after := set k | k in st'.attendances && k.0 == sid
                         && st'.attendances[k].ipAddress == ip
                         && st'.attendances[k].checkInTime >= now - 60000;
    assert after == before + {key};
  }

  /** A scan never removes a row, and never writes a checked-out row again. */
  lemma MarkKeepsRows(st: Tables, req: ScanRequest, now: int)
    requires WellFormed(st)
    ensures var o := MarkOutcomeOf(st, req, now);
      && st.attendances.Keys <= o.post.attendances.Keys
      && forall k :: k in st.attendances && st.attendances[k].checkOutTime.Some?
           ==> o.post.attendances[k] == st.attendances[k]
  {
    var o := MarkOutcomeOf(st, req, now);
    if o.result.CheckedIn? || o.result.CheckedOut? {
      var key := (st.qrCodes[req.code].sessionId, Student(req.userId));
      assert o.post.attendances == st.attendances[key := o.result.attendance];
      assert key in st.attendances ==> st.attendances[key].checkOutTime.None?;
    }
  }

  /** The check-in part of `markAttendance`: the anomaly count, the
      scan-count increment, the new row and the host notification. */
  function CheckInOutcome(st: Tables, req: ScanRequest, now: int): (o: MarkOutcome)
    requires WellFormed(st) && req.code in st.qrCodes
    ensures WellFormed(o.post)
  {
    var qr := st.qrCodes[req.code];
    var s := SessionOf(st, req.code);
    var suspicious := RecentFromIp(st, s.id, req.ipAddress, now) > 2;
    var row := NewRow(s.id, req, suspicious, now);
    MarkOutcome(
      CheckedIn(row, if suspicious then Some(MultipleFromSameIp) else None),
      st.(qrCodes := st.qrCodes[req.code := qr.(scanCount := qr.scanCount + 1)],
          attendances := st.attendances[(s.id, Student(req.userId)) := row],
          notifications := st.notifications + HostAlert(s, suspicious, req.userId)))
  }

  /** The SUSPICIOUS_ATTENDANCE notification: one for the host when the
      row is flagged and the session has a host, none otherwise. */
  function HostAlert(s: Session, suspicious: bool, userId: string): (notes: seq<Notification>)
    ensures |notes| <= 1
    ensures |notes| == 1 <==> suspicious && Truthy(s.hostId)
    ensures |notes| == 1 ==> notes[0] == Notification(s.hostId.value, s.id, Student(userId))
  {
    if suspicious && Truthy(s.hostId)
    then [Notification(s.hostId.value, s.id, Student(userId))] else []
  }

  /** The code lookup and the four checks of `markAttendance`, in order;
      they read the store and write nothing. */
  method ScreenScan(db: Database, code: string, now: int) returns (rejection: Option<Rejection>)
    requires db.Valid()
    ensures rejection == Some(InvalidCode) <==> code !in db.qrCodes
    ensures code in db.qrCodes ==> rejection == Screen(db.Contents(), code, now)
  {
    if code !in db.qrCodes {
      return Some(InvalidCode);
    }
    var qr := db.qrCodes[code];
    var session := db.sessions[qr.sessionId];
    if !session.isActive {
      return Some(SessionInactive);
    }
    if now < qr.validFrom || now > qr.validUntil {
      return Some(CodeExpired);
    }
    if session.currentQRCode != Some(code) {
      return Some(CodeNotCurrent);
    }
    if now < session.startTime || now > session.endTime {
      return Some(OutsideSchedule);
    }
    return None;
  }

  /** `markAttendance`, one store call at a time: the checks, the row
      lookup, then either the check-out update or the check-in writes. */
  method MarkAttendance(db: Database, req: ScanRequest, now: int) returns (r: MarkResult)
    requires db.Valid()
    modifies db
    ensures db.Valid()
    ensures MarkOutcome(r, db.Contents()) == MarkOutcomeOf(old(db.Contents()), req, now)
  {
    var rejection := ScreenScan(db, req.code, now);
    if rejection.Some? {
      return Rejected(rejection.value);
    }
    var qr := db.qrCodes[req.code];
    var session := db.sessions[qr.sessionId];
    var key := (session.id, Student(req.userId));
    if key in db.attendances {
      var existing := db.attendances[key];
      if existing.checkOutTime.None? {
        var updated := existing.(checkOutTime := Some(now));
        db.attendances := db.attendances[key := updated];
        return CheckedOut(updated);
      }
      return Rejected(AlreadyCompleted);
    }
    r := CheckIn(db, req, now);
  }

  /** The writes of a first scan, in the order `markAttendance` makes them:
      the scan count, the row, then the notification. */
  method CheckIn(db: Database, req: ScanRequest, now: int) returns (r: MarkResult)
    requires db.Valid() && req.code in db.qrCodes
    modifies db
    ensures db.Valid()
    ensures MarkOutcome(r, db.Contents()) == CheckInOutcome(old(db.Contents()), req, now)
  {
    ghost var expected := CheckInOutcome(db.Contents(), req, now);
    var qr := db.qrCodes[req.code];
    var session := db.sessions[qr.sessionId];
    var suspicious := RecentFromIp(db.Contents(), session.id, req.ipAddress, now) > 2;
    var reason: Option<string> := if suspicious then Some(MultipleFromSameIp) else None;
    var row := NewRow(session.id, req, suspicious, now);
    var alert := HostAlert(session, suspicious, req.userId);
    db.qrCodes := db.qrCodes[req.code := qr.(scanCount := qr.scanCount + 1)];
    db.attendances := db.attendances[(session.id, Student(req.userId)) := row];
    db.notifications := db.notifications + alert;
    r := CheckedIn(row, reason);
    assert MarkOutcome(r, db.Contents()) == expected;
  }

  /** A user's scans of one current code within the session: the first
      checks in, the second checks out, the third is refused and changes
      nothing. */
  lemma CheckInThenCheckOutThenRefused(st: Tables, req: ScanRequest, t1: int, t2: int, t3: int)
    requires WellFormed(st) && req.code in st.qrCodes
    requires Screen(st, req.code, t1).None? && Screen(st, req.code, t2).None? && Screen(st, req.code, t3).None?
    requires (st.qrCodes[req.code].sessionId, Student(req.userId)) !in st.attendances
    ensures var o1 := MarkOutcomeOf(st, req, t1);
      var o2 := MarkOutcomeOf(o1.post, req, t2);
      var o3 := MarkOutcomeOf(o2.post, req, t3);
      && o1.result.CheckedIn?
      && o2.result == CheckedOut(o1.result.attendance.(checkOutTime := Some(t2)))
      && o3.result == Rejected(AlreadyCompleted) && o3.post == o2.post
  {
    var o1 := MarkOutcomeOf(st, req, t1);
    ScreenKeepsAcrossScans(st, o1.post, req.code, t2);
    var o2 := MarkOutcomeOf(o1.post, req, t2);
    ScreenKeepsAcrossScans(st, o2.post, req.code, t3);
  }

  /** The checks look only at the session and at the window of the code's
      record, which scans never change. */
  lemma ScreenKeepsAcrossScans(st: Tables, st': Tables, code: string, now: int)
    requires WellFormed(st) && WellFormed(st') && code in st.qrCodes && code in st'.qrCodes
    requires st'.sessions == st.sessions
    requires st'.qrCodes[code] == st.qrCodes[code].(scanCount := st'.qrCodes[code].scanCount)
    ensures Screen(st', code, now) == Screen(st, code, now)
  {
  }

  /** After a rotation, no code issued earlier for that session is accepted
      by a scan any more, whatever the time: only the current code can be. */
  lemma RotatedCodeRefused(st: Tables, sessionId: string, actor: SessionController.Actor,
                           forceNew: bool, freshCode: string, now: int, oldCode: string, t: int)
    requires WellFormed(st) && freshCode !in st.qrCodes
    requires oldCode in st.qrCodes && st.qrCodes[oldCode].sessionId == sessionId
    requires var o := SessionController.RotationOutcomeOf(st, sessionId, actor, forceNew, freshCode, now);
      o.result.Ok? && o.result.value.rotated
    ensures var o := SessionController.RotationOutcomeOf(st, sessionId, actor, forceNew, freshCode, now);
      && oldCode in o.post.qrCodes
      && MarkOutcomeOf(o.post, ScanRequest(oldCode, "", "", ""), t).result.Rejected?
      && Screen(o.post, oldCode, t).Some?
  {
    var o := SessionController.RotationOutcomeOf(st, sessionId, actor, forceNew, freshCode, now);
    assert SessionOf(o.post, oldCode).currentQRCode == Some(freshCode);
  }

  // ------------------------------------------------------------ verifyQRCode

  /** The answer of `verifyQRCode`: the four checks, each evaluated on its
      own, and the verdict. */
  datatype Verification =
    | UnknownCode
    | Checked(isActive: bool, isCurrentQR: bool, isInTime: bool, isQRValid: bool, valid: bool, message: string)

  const ValidCodeMessage: string := "Código válido"
  const RotatedMessage: string := "El código QR ha sido rotado"

  /** `verifyQRCode`: evaluates all four checks and names the first failure
      in the order inactive, rotated, out of schedule, expired — a different
      order from the scan's. It writes nothing. */
  function VerifyQRCode(st: Tables, code: string, now: int): (v: Verification)
    requires WellFormed(st)
    ensures v.UnknownCode? <==> code !in st.qrCodes
    ensures v.Checked? ==>
      var s := SessionOf(st, code);
      && (v.isActive <==> s.isActive)
      && (v.isCurrentQR <==> s.currentQRCode == Some(code))
      && (v.isInTime <==> InSchedule(s, now))
      && (v.isQRValid <==> InCodeWindow(st.qrCodes[code], now))
      && (v.valid <==> v.isActive && v.isCurrentQR && v.isInTime && v.isQRValid)
    ensures v.Checked? ==>
      && (v.message == ValidCodeMessage <==> v.valid)
      && (v.message == RejectionMessage(SessionInactive) <==> !v.isActive)
      && (v.message == RotatedMessage <==> v.isActive && !v.isCurrentQR)
      && (v.message == RejectionMessage(OutsideSchedule) <==> v.isActive && v.isCurrentQR && !v.isInTime)
      && (v.message == RejectionMessage(CodeExpired) <==>
            v.isActive && v.isCurrentQR && v.isInTime && !v.isQRValid)
  {
    if code !in st.qrCodes then UnknownCode
    else
      var s := SessionOf(st, code);
      var isActive := s.isActive;
      var isCurrentQR := s.currentQRCode == Some(code);
      var isInTime := InSchedule(s, now);
      var isQRValid := InCodeWindow(st.qrCodes[code], now);
      var valid := isActive && isCurrentQR && isInTime && isQRValid;
      var message :=
        if !valid then
          if !isActive then RejectionMessage(SessionInactive)
          else if !isCurrentQR then RotatedMessage
          else if !isInTime then RejectionMessage(OutsideSchedule)
          else if !isQRValid then RejectionMessage(CodeExpired)
          else ValidCodeMessage
        else ValidCodeMessage;
      Checked(isActive, isCurrentQR, isInTime, isQRValid, valid, message)
  }

  /** `verifyQRCode` calls a code valid exactly when a scan of it would get
      past the four checks (and on to the user's row). */
  lemma VerifyAgreesWithMark(st: Tables, req: ScanRequest, now: int)
    requires WellFormed(st)
    ensures var v := VerifyQRCode(st, req.code, now);
      var o := MarkOutcomeOf(st, req, now);
      && (v.UnknownCode? <==> o.result == Rejected(InvalidCode))
      && (v.Checked? ==>
            (v.valid <==> !o.result.Rejected? || o.result == Rejected(AlreadyCompleted)))
  {
  }

  /** The two handlers name different reasons for the same code: a rotated
      code whose own window has also closed is reported as rotated by
      `verifyQRCode` but as expired by `markAttendance`. */
  lemma ReasonOrderDiffers()
    ensures var s := Session("s", "room", "Clase", Clase, false, None, None, 0, 100000, 3,
                             Some("new"), Some(0), true);
      var st := Tables(map[], map["s" := s],
                       map["old" := QRCodeRecord("s", "old", 0, 10, 0),
                           "new" := QRCodeRecord("s", "new", 0, 100000, 0)],
                       map[], []);
      && WellFormed(st)
      && MarkOutcomeOf(st, ScanRequest("old", "u", "ip", "ua"), 50).result == Rejected(CodeExpired)
      && VerifyQRCode(st, "old", 50).Checked?
      && VerifyQRCode(st, "old", 50).message == RotatedMessage
  {
    var s := Session("s", "room", "Clase", Clase, false, None, None, 0, 100000, 3,
                     Some("new"), Some(0), true);
    var st := Tables(map[], map["s" := s],
                     map["old" := QRCodeRecord("s", "old", 0, 10, 0),
                         "new" := QRCodeRecord("s", "new", 0, 100000, 0)],
                     map[], []);
    assert Screen(st, "old", 50) == Some(CodeExpired);
  }

  // ---------------------------------------------------------------- reports

  /** Who may read a session's attendance report: its host, an ADMIN or a
      JEFE_LAB. */
  function ReportAccess(st: Tables, sessionId: string, actor: SessionController.Actor)
    : (r: Result<Session, SessionController.Failure>)
    ensures r == Err(SessionController.SessionNotFound) <==> sessionId !in st.sessions
    ensures r == Err(SessionController.NotPermitted) <==>
      && sessionId in st.sessions && st.sessions[sessionId].hostId != Some(actor.userId)
      && actor.role != "ADMIN" && actor.role != "JEFE_LAB"
    ensures r.Ok? ==> sessionId in st.sessions && r.value == st.sessions[sessionId]
  {
    if sessionId !in st.sessions then Err(SessionController.SessionNotFound)
    else
      var s := st.sessions[sessionId];
      if s.hostId != Some(actor.userId) && actor.role != "ADMIN" && actor.role != "JEFE_LAB"
      then Err(SessionController.NotPermitted)
      else Ok(s)
  }

  /** The counters of `getAttendanceBySession`'s summary. */
  datatype SessionSummary = SessionSummary(
    total: nat, onTime: nat, late: nat, suspicious: nat, students: nat, externals: nat)

  /** `getAttendanceBySession`'s `forEach` over the session's rows. */
  method SummarizeSession(rows: seq<Attendance>, startTime: int) returns (summary: SessionSummary)
    ensures summary.total == |rows|
    ensures summary.onTime == Count(rows, OnTimeFor(startTime))
    ensures summary.late == Count(rows, LateFor(startTime))
    ensures summary.suspicious == Count(rows, Suspicious)
    ensures summary.students == Count(rows, FromStudent)
    ensures summary.externals == Count(rows, FromExternal)
    ensures summary.onTime + summary.late == summary.total
    ensures summary.students + summary.externals == summary.total
  {
    var onTime, late, suspicious, students, externals := 0, 0, 0, 0, 0;
    var i := 0;
    while i < |rows|
      invariant 0 <= i <= |rows|
      invariant onTime == Count(rows[..i], OnTimeFor(startTime))
      invariant late == Count(rows[..i], LateFor(startTime))
      invariant suspicious == Count(rows[..i], Suspicious)
      invariant students == Count(rows[..i], FromStudent)
      invariant externals == Count(rows[..i], FromExternal)
    {
      var a := rows[i];
      assert rows[..i + 1][..i] == rows[..i];
      if OnTime(a.checkInTime, startTime) {
        onTime := onTime + 1;
      } else {
        late := late + 1;
      }
      if a.isSuspicious {
        suspicious := suspicious + 1;
      }
      if a.attendee.Student? {
        students := students + 1;
      } else {
        externals := externals + 1;
      }
      i := i + 1;
    }
    assert rows[..i] == rows;
    OnTimeAndLatePartition(rows, startTime);
    StudentsAndExternalsPartition(rows);
    summary := SessionSummary(|rows|, onTime, late, suspicious, students, externals);
  }

  /** A row of a student's history together with the start of its session. */
  datatype Visit = Visit(attendance: Attendance, sessionStart: int)

  /** The visits checked in no later than 15 minutes after their own
      session's start. */
  function OnTimeVisits(visits: seq<Visit>): (n: nat)
    ensures n <= |visits|
    decreases |visits|
  {
    if visits == [] then 0
    else
      var v := visits[|visits| - 1];
      OnTimeVisits(visits[..|visits| - 1])
        + (if OnTime(v.attendance.checkInTime, v.sessionStart) then 1 else 0)
  }

  /** The visits with a check-out. */
  function CheckedOutVisits(visits: seq<Visit>): (n: nat)
    ensures n <= |visits|
    decreases |visits|
  {
    if visits == [] then 0
    else
      CheckedOutVisits(visits[..|visits| - 1])
        + (if visits[|visits| - 1].attendance.checkOutTime.Some? then 1 else 0)
  }

  /** The milliseconds between check-in and check-out, summed over the
      visits with a check-out. */
  function TotalDurationMs(visits: seq<Visit>): (total: int)
    // nothing is counted without a check-out
    ensures CheckedOutVisits(visits) == 0 ==> total == 0
    // no check-out before its check-in gives a negative total
    ensures (forall i :: 0 <= i < |visits| && visits[i].attendance.checkOutTime.Some? ==>
               visits[i].attendance.checkInTime <= visits[i].attendance.checkOutTime.value)
            ==> total >= 0
    decreases |visits|
  {
    if visits == [] then 0
    else
      var a := visits[|visits| - 1].attendance;
      TotalDurationMs(visits[..|visits| - 1])
        + (if a.checkOutTime.Some? then a.checkOutTime.value - a.checkInTime else 0)
  }

  /** The `stats` of `getAttendanceByStudent` that are integers. */
  datatype StudentSummary = StudentSummary(
    onTime: nat, late: nat, totalDurationMs: int, withCheckout: nat, averageDuration: int, totalHours: int)

  /** `getAttendanceByStudent`'s `forEach`, then the two roundings:
      the average stay in whole minutes and the total in whole hours. */
  method SummarizeStudent(visits: seq<Visit>) returns (stats: StudentSummary)
    ensures stats.onTime == OnTimeVisits(visits)
    ensures stats.onTime + stats.late == |visits|
    ensures stats.withCheckout == CheckedOutVisits(visits)
    ensures stats.totalDurationMs == TotalDurationMs(visits)
    ensures stats.withCheckout == 0 ==> stats.averageDuration == 0
    ensures stats.withCheckout > 0 ==>
      stats.averageDuration * (stats.withCheckout * 60000) <= stats.totalDurationMs
      < (stats.averageDuration + 1) * (stats.withCheckout * 60000)
    ensures stats.totalHours * 3600000 <= stats.totalDurationMs < (stats.totalHours + 1) * 3600000
  {
    var onTime, late, total, withCheckout := 0, 0, 0, 0;
    var i := 0;
    while i < |visits|
      invariant 0 <= i <= |visits|
      invariant onTime == OnTimeVisits(visits[..i])
      invariant onTime + late == i
      invariant withCheckout == CheckedOutVisits(visits[..i])
      invariant total == TotalDurationMs(visits[..i])
    {
      var v := visits[i];
      assert visits[..i + 1][..i] == visits[..i];
      if v.attendance.checkInTime <= v.sessionStart + LateToleranceMs {
        onTime := onTime + 1;
      } else {
        late := late + 1;
      }
      if v.attendance.checkOutTime.Some? {
        total := total + (v.attendance.checkOutTime.value - v.attendance.checkInTime);
        withCheckout := withCheckout + 1;
      }
      i := i + 1;
    }
    assert visits[..i] == visits;
    var average := 0;
    if withCheckout > 0 {
      average := total / (withCheckout * 60000);
      FloorDivisionBounds(total, withCheckout * 60000);
    }
    FloorDivisionBounds(total, 3600000);
    stats := StudentSummary(onTime, late, total, withCheckout, average, total / 3600000);
  }

  /** Division by a positive divisor rounds down. */
  lemma FloorDivisionBounds(n: int, d: int)
    requires d > 0
    ensures (n / d) * d <= n < (n / d + 1) * d
  {
  }

  /** `getSessionStats`' check-in distribution: for every 5-minute slot
      after the start that some row falls in, the number of rows in it. */
  method CheckInDistribution(rows: seq<Attendance>, startTime: int) returns (slots: map<int, nat>)
    ensures forall b :: b in slots <==> Count(rows, InBucket(startTime, b)) > 0
    ensures forall b :: b in slots ==> slots[b] == Count(rows, InBucket(startTime, b))
    ensures forall j :: 0 <= j < |rows| ==> CheckInBucket(rows[j].checkInTime, startTime) in slots
  {
    slots := map[];
    var i := 0;
    while i < |rows|
      invariant 0 <= i <= |rows|
      invariant forall b :: b in slots <==> Count(rows[..i], InBucket(startTime, b)) > 0
      invariant forall b :: b in slots ==> slots[b] == Count(rows[..i], InBucket(startTime, b))
    {
      var b := CheckInBucket(rows[i].checkInTime, startTime);
      assert rows[..i + 1][..i] == rows[..i];
      var n: nat := if b in slots then slots[b] else 0;
      slots := slots[b := n + 1];
      i := i + 1;
    }
    assert rows[..i] == rows;
    forall j | 0 <= j < |rows|
      ensures CheckInBucket(rows[j].checkInTime, startTime) in slots
    {
      CountPositiveAt(rows, j, InBucket(startTime, CheckInBucket(rows[j].checkInTime, startTime)));
    }
  }

  /** A row that meets a criterion makes its count positive. */
  lemma {:induction false} CountPositiveAt(rows: seq<Attendance>, j: int, c: Criterion)
    requires 0 <= j < |rows| && Meets(rows[j], c)
    ensures Count(rows, c) > 0
    decreases |rows|
  {
    if j < |rows| - 1 {
      CountPositiveAt(rows[..|rows| - 1], j, c);
    }
  }
}

=== FILE: attendance_queries.dfy ===
/** The filters the attendance reports count with (`filter(...).length` and
    the counters of the `forEach` loops), shared by the session and the
    attendance controllers. */
module AttendanceQueries {
  import opened Wrappers
  import opened Store
  import DateHelpers

  /** A check-in counts as on time up to 15 minutes after the session start. */
  const LateToleranceMs: int := 15 * 60000

  /** `checkInTime <= lateThreshold`, the threshold being start + 15 min. */
  predicate OnTime(checkInTime: int, startTime: int) {
    checkInTime <= startTime + LateToleranceMs
  }

  /** The per-row `duration` of the reports: whole minutes between check-in
      and check-out, rounded down; none while the row is still open. */
  function DurationMinutes(a: Attendance): (r: Option<int>)
    ensures r.Some? <==> a.checkOutTime.Some?
    ensures r.Some? ==>
      r.value * 60000 <= a.checkOutTime.value - a.checkInTime < (r.value + 1) * 60000
  {
    match a.checkOutTime
    case None => None
    case Some(out) => Some(DateHelpers.DifferenceInMinutes(out, a.checkInTime))
  }

  /** The 5-minute slot of the check-in distribution: the minutes after the
      start, rounded down, then rounded down to a multiple of 5. */
  function CheckInBucket(checkInTime: int, startTime: int): (b: int)
    ensures b % 5 == 0
    ensures b * 60000 <= checkInTime - startTime < (b + 5) * 60000
  {
    var minutes := DateHelpers.DifferenceInMinutes(checkInTime, startTime);
    var b := (minutes / 5) * 5;
    assert b <= minutes < b + 5;
    b
  }

  /** The conditions the reports filter attendance rows by. */
  datatype Criterion =
    | OnTimeFor(startTime: int)
    | LateFor(startTime: int)
    | Suspicious
    | FromStudent
    | FromExternal
    | StillPresent
    | InBucket(startTime: int, bucket: int)

  predicate Meets(a: Attendance, c: Criterion) {
    match c
    case OnTimeFor(t) => OnTime(a.checkInTime, t)
    case LateFor(t) => !OnTime(a.checkInTime, t)
    case Suspicious => a.isSuspicious
    case FromStudent => a.attendee.Student?
    case FromExternal => a.attendee.External?
    case StillPresent => a.checkOutTime.None?
    case InBucket(t, b) => CheckInBucket(a.checkInTime, t) == b
  }

  /** `rows.filter(c).length`, counted from the front so that a loop over the
      rows can extend it one row at a time. */
  function Count(rows: seq<Attendance>, c: Criterion): (n: nat)
    ensures n <= |rows|
    decreases |rows|
  {
    if rows == [] then 0
    else Count(rows[..|rows| - 1], c) + (if Meets(rows[|rows| - 1], c) then 1 else 0)
  }

  /** On-time and late split the rows: every row is exactly one of them. */
  lemma {:induction false} OnTimeAndLatePartition(rows: seq<Attendance>, t: int)
    ensures Count(rows, OnTimeFor(t)) + Count(rows, LateFor(t)) == |rows|
    decreases |rows|
  {
    if rows != [] {
      OnTimeAndLatePartition(rows[..|rows| - 1], t);
    }
  }

  /** Students and externals split the rows: each row has exactly one kind
      of attendee. */
  lemma {:induction false} StudentsAndExternalsPartition(rows: seq<Attendance>)
    ensures Count(rows, FromStudent) + Count(rows, FromExternal) == |rows|
    decreases |rows|
  {
    if rows != [] {
      StudentsAndExternalsPartition(rows[..|rows| - 1]);
    }
  }
}

=== FILE: attendance_validation.dfy ===
/** `src/validations/attendance.validation.ts`: the request schemas of the
    attendance routes, as predicates on the request as sent. The optional
    `location` of a scan is not part of this model. */
module AttendanceValidation {
  import opened Wrappers
  import opened FieldRules

  /** `markAttendanceSchema` and `verifyQRSchema`: the scanned code, a
      non-empty string. */
  function ScannedCode(qrCode: Field<string>): (code: Option<string>)
    ensures code.Some? <==> qrCode.Given? && qrCode.value != ""
    ensures code.Some? ==> code.value == qrCode.value
  {
    if RequiredString(qrCode) then Some(qrCode.value) else None
  }

  /** The accepted values of `status` in the attendance query. */
  const StatusNames: set<string> := {"present", "late", "absent"}

  /** The query string of the attendance lists. */
  datatype AttendanceQuery = AttendanceQuery(
    sessionId: Field<string>,
    studentId: Field<string>,
    startDate: Field<int>,
    endDate: Field<int>,
    page: Field<real>,
    limit: Field<real>,
    status: Field<string>,
    includeExternals: Field<bool>)

  /** `attendanceQuerySchema` accepts the query; the page and limit it
      stands for, defaults included. */
  function AttendanceQueryPaging(q: AttendanceQuery): (r: Option<(int, int)>)
    ensures r.Some? <==>
      && OptionalString(q.sessionId) && OptionalString(q.studentId)
      && DateRange(q.startDate, q.endDate)
      && (q.status.Absent? || OneOf(q.status, StatusNames))
      && OptionalValue(q.includeExternals)
      && OptionalIntegerFrom(q.page, 1) && OptionalIntegerIn(q.limit, 1, 100)
    ensures r.Some? ==> r == Pagination(q.page, q.limit)
    ensures r.Some? ==> r.value.0 >= 1 && 1 <= r.value.1 <= 100
    ensures r.Some? && q.page.Absent? ==> r.value.0 == 1
    ensures r.Some? && q.limit.Absent? ==> r.value.1 == 20
    ensures q.startDate.Given? && q.endDate.Given? && q.endDate.value <= q.startDate.value ==> r.None?
    ensures r.Some? ==> q.status.Absent? || (q.status.Given? && q.status.value in StatusNames)
  {
    if && OptionalString(q.sessionId)
       && OptionalString(q.studentId)
       && DateRange(q.startDate, q.endDate)
       && (q.status.Absent? || OneOf(q.status, StatusNames))
       && OptionalValue(q.includeExternals)
    then Pagination(q.page, q.limit)
    else None
  }

  /** The path and body of `PUT /attendance/:attendanceId`. */
  datatype AttendanceUpdateBody = AttendanceUpdateBody(
    attendanceId: Field<string>,
    checkOutTime: Field<int>,
    isSuspicious: Field<bool>,
    suspiciousReason: Field<string>)

  /** `suspiciousReason` must be sent when `isSuspicious` is true, and may
      be left out or null otherwise. */
  predicate ReasonGivenWhenSuspicious(b: AttendanceUpdateBody) {
    if b.isSuspicious == Given(true) then RequiredString(b.suspiciousReason)
    else b.suspiciousReason.Null? || OptionalString(b.suspiciousReason)
  }

  /** `updateAttendanceSchema` accepts the request. */
  function AttendanceUpdateValid(b: AttendanceUpdateBody): (valid: bool)
    ensures valid ==> b.attendanceId.Given? && b.attendanceId.value != ""
    // some field is sent, and a row marked suspicious comes with a reason
    ensures valid ==> b.checkOutTime.Given? || b.isSuspicious.Given? || b.suspiciousReason.Given?
                      || b.suspiciousReason.Null?
    ensures valid && b.isSuspicious == Given(true) ==>
      b.suspiciousReason.Given? && b.suspiciousReason.value != ""
  {
    && RequiredString(b.attendanceId)
    && OptionalValue(b.checkOutTime)
    && OptionalValue(b.isSuspicious)
    && ReasonGivenWhenSuspicious(b)
    && (Present(b.checkOutTime) || Present(b.isSuspicious) || Present(b.suspiciousReason))
  }

  /** The statistics kinds. */
  datatype StatsKind = StudentStats | SessionStats | CareerStats | GeneralStats

  /** The statistics kind a name stands for, if any. */
  function ParseStatsKind(s: string): (k: Option<StatsKind>)
    ensures k.Some? <==> s in {"student", "session", "career", "general"}
  {
    if s == "student" then Some(StudentStats)
    else if s == "session" then Some(SessionStats)
    else if s == "career" then Some(CareerStats)
    else if s == "general" then Some(GeneralStats)
    else None
  }

  /** The query string of `GET /attendance/stats`. */
  datatype StatsQuery = StatsQuery(
    kind: Field<string>,
    entityId: Field<string>,
    startDate: Field<int>,
    endDate: Field<int>,
    groupBy: Field<string>)

  const GroupByNames: set<string> := {"day", "week", "month", "session", "career"}

  /** An accepted statistics query: its kind, the entity it is about and the
      grouping (`day` when none is sent). */
  datatype StatsRequest = StatsRequest(kind: StatsKind, entityId: Option<string>, groupBy: string)

  /** `attendanceStatsSchema`. */
  function StatsRequestOf(q: StatsQuery): (r: Option<StatsRequest>)
    ensures r.Some? <==>
      && q.kind.Given? && ParseStatsKind(q.kind.value).Some?
      && (if q.kind.value == "general" then OptionalString(q.entityId) else RequiredString(q.entityId))
      && DateRange(q.startDate, q.endDate)
      && (q.groupBy.Absent? || OneOf(q.groupBy, GroupByNames))
    ensures q.kind.Absent? ==> r.None?
    // the entity and the grouping are the ones sent
    ensures r.Some? && q.entityId.Given? ==> r.value.entityId == Some(q.entityId.value)
    ensures r.Some? && q.groupBy.Given? ==> r.value.groupBy == q.groupBy.value
    ensures r.Some? ==> q.kind.Given? && ParseStatsKind(q.kind.value) == Some(r.value.kind)
    // the entity is required for every kind but the general one
    ensures r.Some? && r.value.kind != GeneralStats ==> r.value.entityId.Some?
    ensures r.Some? ==> r.value.groupBy in GroupByNames
    ensures r.Some? && q.groupBy.Absent? ==> r.value.groupBy == "day"
    ensures q.startDate.Given? && q.endDate.Given? && q.endDate.value <= q.startDate.value ==> r.None?
  {
    if !q.kind.Given? then None
    else
      match ParseStatsKind(q.kind.value)
      case None => None
      case Some(kind) =>
        if && (if kind == GeneralStats then OptionalString(q.entityId) else RequiredString(q.entityId))
           && DateRange(q.startDate, q.endDate)
           && (q.groupBy.Absent? || OneOf(q.groupBy, GroupByNames))
        then Some(StatsRequest(kind, if q.entityId.Given? then Some(q.entityId.value) else None,
                               if q.groupBy.Given? then q.groupBy.value else "day"))
        else None
  }

  /** The general statistics need no entity. */
  lemma GeneralStatsNeedNoEntity()
    ensures StatsRequestOf(StatsQuery(Given("general"), Absent, Absent, Absent, Absent))
            == Some(StatsRequest(GeneralStats, None, "day"))
    ensures StatsRequestOf(StatsQuery(Given("student"), Absent, Absent, Absent, Absent)).None?
  {
  }

  /** `attendanceIdSchema`: optional ids, at least one of them sent
      (`.or(...)`). */
  function AttendanceIdValid(sessionId: Field<string>, studentId: Field<string>, attendanceId: Field<string>): (valid: bool)
    // an accepted id path names at least one record, by a non-empty id
    ensures valid ==> RequiredString(sessionId) || RequiredString(studentId) || RequiredString(attendanceId)
    ensures valid ==> !sessionId.Null? && !studentId.Null? && !attendanceId.Null?
  {
    && OptionalString(sessionId) && OptionalString(studentId) && OptionalString(attendanceId)
    && (Present(sessionId) || Present(studentId) || Present(attendanceId))
  }

  /** The report formats. */
  datatype ExportFormat = Csv | Pdf | Excel

  /** An accepted export request: the format, what it is about, and whether
      details are included. */
  datatype ExportRequest = ExportRequest(
    format: ExportFormat, sessionId: Option<string>, careerId: Option<string>, includeDetails: bool)

  /** `exportAttendanceSchema`. */
  function ExportRequestOf(format: Field<string>, sessionId: Field<string>, careerId: Field<string>,
                           startDate: Field<int>, endDate: Field<int>, includeDetails: Field<string>)
    : (r: Option<ExportRequest>)
    ensures r.Some? <==>
      && format.Given? && format.value in {"csv", "pdf", "excel"}
      && OptionalString(sessionId) && OptionalString(careerId)
      && (Present(sessionId) || Present(careerId))
      && OptionalValue(startDate) && OptionalValue(endDate)
      && (includeDetails.Absent? || (includeDetails.Given? && BooleanText(includeDetails.value)))
    ensures r.Some? ==> r.value.sessionId.Some? || r.value.careerId.Some?
    ensures r.Some? && sessionId.Given? ==> r.value.sessionId == Some(sessionId.value)
    ensures r.Some? && careerId.Given? ==> r.value.careerId == Some(careerId.value)
    // the handler compares the query text with 'true': the schema's default
    // of true never reaches it, and another letter case, which the schema
    // accepts, asks for no details
    ensures r.Some? ==> (r.value.includeDetails <==> includeDetails == Given("true"))
  {
    if && format.Given? && format.value in {"csv", "pdf", "excel"}
       && OptionalString(sessionId) && OptionalString(careerId)
       && (Present(sessionId) || Present(careerId))
       && OptionalValue(startDate) && OptionalValue(endDate)
       && (includeDetails.Absent? || (includeDetails.Given? && BooleanText(includeDetails.value)))
    then
      var f := if format.value == "csv" then Csv else if format.value == "pdf" then Pdf else Excel;
      Some(ExportRequest(f, if sessionId.Given? then Some(sessionId.value) else None,
                         if careerId.Given? then Some(careerId.value) else None,
                         includeDetails == Given("true")))
    else None
  }

  /** `includeDetails=TRUE` passes the schema and still gives a report
      without details; `true` gives one with them. */
  lemma UpperCaseTrueGivesNoDetails()
    ensures ExportRequestOf(Given("csv"), Given("s1"), Absent, Absent, Absent, Given("TRUE"))
            == Some(ExportRequest(Csv, Some("s1"), None, false))
    ensures ExportRequestOf(Given("csv"), Given("s1"), Absent, Absent, Absent, Given("true"))
            == Some(ExportRequest(Csv, Some("s1"), None, true))
  {
  }
}

=== FILE: authorize.dfy ===
/** `src/middlewares/authorize.middleware.ts`: the two route guards that run
    after authentication. Each either answers the request itself (401 when
    no user was authenticated, 403 when the user may not use the route) or
    passes it on to the next handler. */
module Authorize {
  import opened Wrappers

  /** The authenticated user as the guards see it: a role name and the
      numeric level of that role. */
  datatype AuthUser = AuthUser(userId: string, role: string, roleLevel: int)

  /** What a guard does with a request. The 403 answers carry what was
      required and what the user had, as the response body does. */
  datatype Decision =
    | Unauthenticated
    | RoleForbidden(requiredRoles: seq<string>, userRole: string)
    | LevelForbidden(requiredLevel: int, userLevel: int)
    | Next

  /** The HTTP status of an answer; `Next` sends none. */
  function DecisionStatus(d: Decision): (status: Option<int>)
    ensures status.None? <==> d.Next?
    ensures status == Some(401) <==> d.Unauthenticated?
    ensures status == Some(403) <==> d.RoleForbidden? || d.LevelForbidden?
  {
    match d
    case Unauthenticated => Some(401)
    case RoleForbidden(_, _) => Some(403)
    case LevelForbidden(_, _) => Some(403)
    case Next => None
  }

  /** The message of an answer. */
  function DecisionMessage(d: Decision): (message: string)
    ensures d.Next? <==> message == ""
  {
    match d
    case Unauthenticated => "Usuario no autenticado"
    case RoleForbidden(_, _) => "No tienes permisos para acceder a este recurso"
    case LevelForbidden(_, _) => "No tienes suficientes permisos para acceder a este recurso"
    case Next => ""
  }

  /** `authorize(...allowedRoles)`: the user must be there and hold one of
      the listed roles. */
  function AuthorizeRoles(user: Option<AuthUser>, allowedRoles: seq<string>): (d: Decision)
    ensures d.Unauthenticated? <==> user.None?
    ensures d.Next? <==> user.Some? && user.value.role in allowedRoles
    ensures d.RoleForbidden? <==> user.Some? && user.value.role !in allowedRoles
    ensures d.RoleForbidden? ==> d.requiredRoles == allowedRoles && d.userRole == user.value.role
  {
    if user.None? then Unauthenticated
    else if user.value.role !in allowedRoles then RoleForbidden(allowedRoles, user.value.role)
    else Next
  }

  /** `authorizeLevel(minLevel)`: the user must be there and their role's
      level must reach `minLevel`. */
  function AuthorizeLevel(user: Option<AuthUser>, minLevel: int): (d: Decision)
    ensures d.Unauthenticated? <==> user.None?
    ensures d.Next? <==> user.Some? && user.value.roleLevel >= minLevel
    ensures d.LevelForbidden? <==> user.Some? && user.value.roleLevel < minLevel
    ensures d.LevelForbidden? ==> d.requiredLevel == minLevel && d.userLevel == user.value.roleLevel
  {
    if user.None? then Unauthenticated
    else if user.value.roleLevel < minLevel then LevelForbidden(minLevel, user.value.roleLevel)
    else Next
  }

  /** Lowering the required level never turns a request that passed into
      one that is refused. */
  lemma AuthorizeLevelMonotone(user: Option<AuthUser>, lower: int, higher: int)
    requires lower <= higher
    ensures AuthorizeLevel(user, higher).Next? ==> AuthorizeLevel(user, lower).Next?
    ensures AuthorizeLevel(user, lower).LevelForbidden? ==> AuthorizeLevel(user, higher).LevelForbidden?
  {
  }

  /** Allowing more roles never turns a request that passed into one that
      is refused. */
  lemma AuthorizeRolesMonotone(user: Option<AuthUser>, allowed: seq<string>, more: seq<string>)
    requires forall r :: r in allowed ==> r in more
    ensures AuthorizeRoles(user, allowed).Next? ==> AuthorizeRoles(user, more).Next?
  {
  }
}

=== FILE: bcrypt.dfy ===
/** `src/utils/bcrypt.ts`: the password-strength rules and the guards in
    front of hashing and comparing. The hash and the comparison themselves
    are calls into the bcrypt library and are not modelled: the outcome of
    a comparison is a parameter. */
module Bcrypt {
  import opened Wrappers

  /** The three strength ratings. */
  datatype Strength = Weak | Medium | Strong

  const LengthError: string := "La contraseña debe tener al menos 6 caracteres"
  const UpperError: string := "La contraseña debe contener al menos una mayúscula"
  const LowerError: string := "La contraseña debe contener al menos una minúscula"
  const DigitError: string := "La contraseña debe contener al menos un número"
  const SpecialError: string := "La contraseña debe contener al menos un caracter especial"

  /** The characters of the class `[!@#$%^&*()_+\-=\[\]{};':"\\|,.<>\/?]`. */
  const SpecialChars: set<char> :=
    {'!', '@', '#', '$', '%', '^', '&', '*', '(', ')', '_', '+', '-', '=', '[', ']', '{', '}',
     ';', '\'', ':', '"', '\\', '|', ',', '.', '<', '>', '/', '?'}

  predicate HasUpper(p: string) {
    exists i | 0 <= i < |p| :: 'A' <= p[i] <= 'Z'
  }

  predicate HasLower(p: string) {
    exists i | 0 <= i < |p| :: 'a' <= p[i] <= 'z'
  }

  predicate HasDigit(p: string) {
    exists i | 0 <= i < |p| :: '0' <= p[i] <= '9'
  }

  predicate HasSpecial(p: string) {
    exists i | 0 <= i < |p| :: p[i] in SpecialChars
  }

  /** The complaints about a password, each rule adding its message in the
      order the rules are checked: length, upper case, lower case, digit,
      special character. */
  function PasswordErrors(p: string): (errors: seq<string>)
    ensures LengthError in errors <==> |p| < 6
    ensures UpperError in errors <==> !HasUpper(p)
    ensures LowerError in errors <==> !HasLower(p)
    ensures DigitError in errors <==> !HasDigit(p)
    ensures SpecialError in errors <==> !HasSpecial(p)
    ensures forall e | e in errors :: e in {LengthError, UpperError, LowerError, DigitError, SpecialError}
    ensures |errors| <= 5
    // the length complaint, when there is one, comes first
    ensures |p| < 6 ==> errors[0] == LengthError
  {
    ComplaintsContent(|p| < 6, !HasUpper(p), !HasLower(p), !HasDigit(p), !HasSpecial(p));
    Complaints(|p| < 6, !HasUpper(p), !HasLower(p), !HasDigit(p), !HasSpecial(p))
  }

  /** The messages of the failed rules, in the order the rules are checked. */
  function Complaints(length: bool, upper: bool, lower: bool, digit: bool, special: bool): seq<string> {
    Complaint(length, LengthError) + Complaint(upper, UpperError)
    + Complaint(lower, LowerError) + Complaint(digit, DigitError)
    + Complaint(special, SpecialError)
  }

  /** Each message is among the complaints exactly when its rule failed. */
  lemma ComplaintsContent(length: bool, upper: bool, lower: bool, digit: bool, special: bool)
    ensures var errors := Complaints(length, upper, lower, digit, special);
      && (LengthError in errors <==> length) && (UpperError in errors <==> upper)
      && (LowerError in errors <==> lower) && (DigitError in errors <==> digit)
      && (SpecialError in errors <==> special)
      && (forall e | e in errors :: e in {LengthError, UpperError, LowerError, DigitError, SpecialError})
      && |errors| <= 5
      && (length ==> errors[0] == LengthError)
  {
    MessageRanks();
  }

  /** The complaints about a password come in the order the rules are
      checked, each at most once. */
  lemma PasswordErrorsInOrder(p: string)
    ensures InRuleOrder(PasswordErrors(p))
    ensures var errors := PasswordErrors(p);
      forall i, j :: 0 <= i < j < |errors| ==> errors[i] != errors[j]
  {
    ComplaintsInOrder(|p| < 6, !HasUpper(p), !HasLower(p), !HasDigit(p), !HasSpecial(p));
  }

  /** Whatever rules fail, their messages come out ranked strictly
      increasing, hence without repetition. */
  lemma ComplaintsInOrder(length: bool, upper: bool, lower: bool, digit: bool, special: bool)
    ensures InRuleOrder(Complaints(length, upper, lower, digit, special))
  {
    MessageRanks();
    var e := Complaint(length, LengthError);
    OneComplaint(length, LengthError);
    OneComplaint(upper, UpperError);
    OrderedAppend(e, Complaint(upper, UpperError), 1, 2);
    e := e + Complaint(upper, UpperError);
    OneComplaint(lower, LowerError);
    OrderedAppend(e, Complaint(lower, LowerError), 2, 3);
    e := e + Complaint(lower, LowerError);
    OneComplaint(digit, DigitError);
    OrderedAppend(e, Complaint(digit, DigitError), 3, 4);
    e := e + Complaint(digit, DigitError);
    OneComplaint(special, SpecialError);
    OrderedAppend(e, Complaint(special, SpecialError), 4, 5);
  }

  /** The messages are ranked strictly increasing. */
  predicate InRuleOrder(errors: seq<string>) {
    forall i, j :: 0 <= i < j < |errors| ==> RuleRank(errors[i]) < RuleRank(errors[j])
  }

  /** Every message is ranked in `[lo, hi)`. */
  predicate RanksWithin(errors: seq<string>, lo: nat, hi: nat) {
    forall i :: 0 <= i < |errors| ==> lo <= RuleRank(errors[i]) < hi
  }

  lemma OneComplaint(failed: bool, message: string)
    ensures InRuleOrder(Complaint(failed, message))
    ensures RanksWithin(Complaint(failed, message), RuleRank(message), RuleRank(message) + 1)
  {
  }

  lemma OrderedAppend(a: seq<string>, b: seq<string>, k: nat, m: nat)
    requires InRuleOrder(a) && RanksWithin(a, 0, k)
    requires InRuleOrder(b) && RanksWithin(b, k, m) && k <= m
    ensures InRuleOrder(a + b) && RanksWithin(a + b, 0, m)
  {
    forall i, j | 0 <= i < j < |a + b| ensures RuleRank((a + b)[i]) < RuleRank((a + b)[j]) {
      if j < |a| {
      } else if i < |a| {
        assert RuleRank((a + b)[i]) < k <= RuleRank(b[j - |a|]);
      } else {
        assert RuleRank(b[i - |a|]) < RuleRank(b[j - |a|]);
      }
    }
  }

  /** Each message has the rank of its rule: the five messages differ. */
  lemma MessageRanks()
    ensures RuleRank(LengthError) == 0 && RuleRank(UpperError) == 1 && RuleRank(LowerError) == 2
    ensures RuleRank(DigitError) == 3 && RuleRank(SpecialError) == 4
  {
    assert LengthError != UpperError && LengthError != LowerError;
    assert LengthError != DigitError && LengthError != SpecialError;
    assert UpperError != LowerError && UpperError != DigitError && UpperError != SpecialError;
    assert LowerError != DigitError && LowerError != SpecialError && DigitError != SpecialError;
  }

  /** The position of a rule's message in the order the rules are checked. */
  function RuleRank(message: string): nat {
    if message == LengthError then 0
    else if message == UpperError then 1
    else if message == LowerError then 2
    else if message == DigitError then 3
    else 4
  }

  /** The message a failed rule adds. */
  function Complaint(failed: bool, message: string): seq<string> {
    if failed then [message] else []
  }

  function Bit(b: bool): nat {
    if b then 1 else 0
  }

  /** The score: a point for 8 characters, another for 12, and one per
      character class present. */
  function Score(p: string): (score: nat)
    ensures score <= 6
    ensures |p| < 8 ==> score <= 4
  {
    Bit(|p| >= 8) + Bit(|p| >= 12)
    + Bit(HasUpper(p)) + Bit(HasLower(p)) + Bit(HasDigit(p)) + Bit(HasSpecial(p))
  }

  /** The rating of a score. */
  function StrengthOf(score: int): (s: Strength)
    ensures s == Weak <==> score <= 2
    ensures s == Medium <==> 3 <= score <= 4
    ensures s == Strong <==> score >= 5
  {
    if score <= 2 then Weak else if score <= 4 then Medium else Strong
  }

  /** The result of `validatePasswordStrength`. */
  datatype PasswordCheck = PasswordCheck(isValid: bool, errors: seq<string>, strength: Strength)

  /** `validatePasswordStrength`: collects the complaints and the score
      rule by rule, then rates the score. */
  method ValidatePasswordStrength(password: string) returns (r: PasswordCheck)
    ensures r.isValid <==> r.errors == []
    ensures r.errors == PasswordErrors(password)
    ensures r.strength == StrengthOf(Score(password))
  {
    var upper, lower, digit, special :=
      HasUpper(password), HasLower(password), HasDigit(password), HasSpecial(password);
    var errors: seq<string> := [];
    var score := 0;
    if |password| < 6 {
      errors := errors + [LengthError];
    } else if |password| >= 8 {
      score := score + 1;
    }
    if |password| >= 12 {
      score := score + 1;
    }
    ghost var length := Complaint(|password| < 6, LengthError);
    assert errors == length && score == Bit(|password| >= 8) + Bit(|password| >= 12);
    if !upper {
      errors := errors + [UpperError];
    } else {
      score := score + 1;
    }
    assert errors == length + Complaint(!upper, UpperError);
    assert score == Bit(|password| >= 8) + Bit(|password| >= 12) + Bit(upper);
    if !lower {
      errors := errors + [LowerError];
    } else {
      score := score + 1;
    }
    assert errors == length + Complaint(!upper, UpperError) + Complaint(!lower, LowerError);
    assert score == Bit(|password| >= 8) + Bit(|password| >= 12) + Bit(upper) + Bit(lower);
    if !digit {
      errors := errors + [DigitError];
    } else {
      score := score + 1;
    }
    assert errors == length + Complaint(!upper, UpperError) + Complaint(!lower, LowerError)
                     + Complaint(!digit, DigitError);
    assert score == Bit(|password| >= 8) + Bit(|password| >= 12) + Bit(upper) + Bit(lower) + Bit(digit);
    if !special {
      errors := errors + [SpecialError];
    } else {
      score := score + 1;
    }
    assert score == Bit(|password| >= 8) + Bit(|password| >= 12)
                    + Bit(upper) + Bit(lower) + Bit(digit) + Bit(special);
    assert errors == Complaints(|password| < 6, !upper, !lower, !digit, !special);
    var strength := if score <= 2 then Weak else if score <= 4 then Medium else Strong;
    r := PasswordCheck(|errors| == 0, errors, strength);
  }

  /** A password is accepted exactly when it is long enough and has all
      four character classes. */
  lemma AcceptedPasswords(p: string)
    ensures PasswordErrors(p) == [] <==> |p| >= 6 && HasUpper(p) && HasLower(p) && HasDigit(p) && HasSpecial(p)
  {
    if PasswordErrors(p) == [] {
      assert LengthError !in PasswordErrors(p);
    }
  }

  /** Every accepted password is rated medium when shorter than 8
      characters and strong otherwise: never weak. */
  lemma AcceptedPasswordStrength(p: string)
    requires PasswordErrors(p) == []
    ensures StrengthOf(Score(p)) == (if |p| < 8 then Medium else Strong)
  {
    AcceptedPasswords(p);
  }

  /** `hashPassword`'s guard: the error it throws before hashing, if any. */
  function HashPasswordGuard(password: string): (error: Option<string>)
    ensures error.None? <==> |password| >= 6
    ensures error.Some? ==> error.value == LengthError
  {
    if password == "" || |password| < 6 then Some(LengthError) else None
  }

  /** Every password the strength rules accept can be hashed. */
  lemma AcceptedPasswordsCanBeHashed(p: string)
    requires PasswordErrors(p) == []
    ensures HashPasswordGuard(p).None?
  {
    assert LengthError !in PasswordErrors(p);
  }

  /** `comparePassword`: false without asking bcrypt when either argument is
      empty; otherwise bcrypt's answer, `matches`. */
  function ComparePassword(password: string, hash: string, matches: bool): (equal: bool)
    ensures equal ==> password != "" && hash != ""
    ensures password != "" && hash != "" ==> (equal <==> matches)
  {
    if password == "" || hash == "" then false else matches
  }
}

=== FILE: cors.dfy ===
/** `src/config/cors.ts`: which browser origins the server answers, under
    each of the three option sets, and the paths exempt from the CORS
    check. The environment variables `CORS_ORIGINS` and `NODE_ENV` are
    parameters; the headers, methods and cache settings of the option sets
    are constants the model does not restate. */
module Cors {
  import opened Wrappers
  import opened Strings

  /** `NODE_ENV === 'development'`. */
  predicate IsDevelopment(nodeEnv: Option<string>) {
    nodeEnv == Some("development")
  }

  /** A string `trim` leaves as it is: empty, or with no white space at
      either end. */
  predicate IsTrimmed(s: string) {
    s == [] || (!IsTrimmable(s[0]) && !IsTrimmable(s[|s| - 1]))
  }

  /** `CORS_ORIGINS?.split(',').map(o => o.trim()) || []`: nothing when the
      variable is unset, otherwise its comma-separated entries, trimmed. */
  function ConfiguredOrigins(corsOrigins: Option<string>): (origins: seq<string>)
    ensures corsOrigins.None? <==> origins == []
    ensures corsOrigins.Some? ==> |origins| == |Split(corsOrigins.value, ',')|
    ensures forall i :: 0 <= i < |origins| ==> IsTrimmed(origins[i])
    ensures corsOrigins.Some? ==> forall i :: 0 <= i < |origins| ==>
      origins[i] == Trim(Split(corsOrigins.value, ',')[i])
  {
    match corsOrigins
    case None => []
    case Some(s) =>
      var parts := Split(s, ',');
      seq(|parts|, i requires 0 <= i < |parts| => Trim(parts[i]))
  }

  /** A list of trimmed origins without commas, joined with commas, is read
      back as the same list. */
  lemma ConfiguredOriginsRoundTrip(origins: seq<string>)
    requires |origins| >= 1
    requires forall i :: 0 <= i < |origins| ==> ',' !in origins[i] && IsTrimmed(origins[i])
    ensures ConfiguredOrigins(Some(Join(origins, ','))) == origins
  {
    SplitJoin(origins, ',');
    var r := ConfiguredOrigins(Some(Join(origins, ',')));
    assert Split(Join(origins, ','), ',') == origins;
    assert |r| == |origins|;
    forall i | 0 <= i < |origins| ensures r[i] == origins[i] {
      assert r[i] == Trim(origins[i]);
      TrimKeepsTrimmed(origins[i]);
    }
  }

  /** The origins added in development (React, Vite, Angular, Vue and the
      local network). */
  const DevelopmentOrigins: seq<string> := [
    "http://localhost:3000",
    "http://localhost:5173",
    "http://localhost:4200",
    "http://localhost:8080",
    "http://127.0.0.1:3000",
    "http://127.0.0.1:5173",
    "http://192.168.1.42:5173"]

  /** `getAllowedOrigins`: the configured origins, followed in development
      by the development ones. */
  function GetAllowedOrigins(corsOrigins: Option<string>, nodeEnv: Option<string>): (allowed: seq<string>)
    ensures |allowed| >= |ConfiguredOrigins(corsOrigins)|
    ensures allowed[..|ConfiguredOrigins(corsOrigins)|] == ConfiguredOrigins(corsOrigins)
    ensures IsDevelopment(nodeEnv) ==> |allowed| == |ConfiguredOrigins(corsOrigins)| + 7
    ensures !IsDevelopment(nodeEnv) ==> allowed == ConfiguredOrigins(corsOrigins)
    ensures forall o :: o in allowed <==>
              o in ConfiguredOrigins(corsOrigins) || (IsDevelopment(nodeEnv) && o in DevelopmentOrigins)
  {
    var origins := ConfiguredOrigins(corsOrigins);
    if IsDevelopment(nodeEnv) then origins + DevelopmentOrigins else origins
  }

  /** What an origin check answers: allow, allow while warning on the
      console, or refuse with an error message. */
  datatype OriginDecision = Allow | AllowWithWarning | Refuse(message: string)

  /** `!origin`: the request carries no origin (or an empty one). */
  predicate NoOrigin(origin: Option<string>) {
    origin.None? || origin.value == ""
  }

  /** The origin check of `corsOptions`. */
  function DefaultOriginCheck(corsOrigins: Option<string>, nodeEnv: Option<string>, origin: Option<string>)
    : (d: OriginDecision)
    ensures d.Allow? <==> NoOrigin(origin) || origin.value in GetAllowedOrigins(corsOrigins, nodeEnv)
    ensures d.AllowWithWarning? <==>
              !NoOrigin(origin) && origin.value !in GetAllowedOrigins(corsOrigins, nodeEnv) && IsDevelopment(nodeEnv)
    ensures d.Refuse? ==> !IsDevelopment(nodeEnv) && d.message == "Origen no permitido por CORS: " + origin.value
  {
    if NoOrigin(origin) then Allow
    else if origin.value in GetAllowedOrigins(corsOrigins, nodeEnv) then Allow
    else if IsDevelopment(nodeEnv) then AllowWithWarning
    else Refuse("Origen no permitido por CORS: " + origin.value)
  }

  /** In development `corsOptions` lets every origin through. */
  lemma DefaultCheckAdmitsAllInDevelopment(corsOrigins: Option<string>, origin: Option<string>)
    ensures !DefaultOriginCheck(corsOrigins, Some("development"), origin).Refuse?
  {
  }

  /** The origin check of `prodCorsOptions`, which reads only the configured
      origins. */
  function ProductionOriginCheck(corsOrigins: Option<string>, origin: Option<string>): (d: OriginDecision)
    ensures d.Allow? <==> NoOrigin(origin) || origin.value in ConfiguredOrigins(corsOrigins)
    ensures !d.AllowWithWarning?
    ensures d.Refuse? ==> d.message == "No permitido por CORS"
  {
    if NoOrigin(origin) || origin.value in ConfiguredOrigins(corsOrigins) then Allow
    else Refuse("No permitido por CORS")
  }

  /** The three option sets; `devCorsOptions` has `origin: true`. */
  datatype CorsConfig = DevelopmentOptions | ProductionOptions | DefaultOptions

  /** `getCorsConfig`: by `NODE_ENV`. */
  function GetCorsConfig(nodeEnv: Option<string>): (c: CorsConfig)
    ensures c == DevelopmentOptions <==> IsDevelopment(nodeEnv)
    ensures c == ProductionOptions <==> nodeEnv == Some("production")
  {
    if nodeEnv == Some("development") then DevelopmentOptions
    else if nodeEnv == Some("production") then ProductionOptions
    else DefaultOptions
  }

  /** What the server answers an origin with, under the options
      `getCorsConfig` picks. */
  function ServedOriginCheck(corsOrigins: Option<string>, nodeEnv: Option<string>, origin: Option<string>)
    : (d: OriginDecision)
    ensures IsDevelopment(nodeEnv) ==> d == Allow
    ensures !IsDevelopment(nodeEnv) ==>
              (d.Allow? <==> NoOrigin(origin) || origin.value in ConfiguredOrigins(corsOrigins))
    // the permissive branch of `corsOptions` is never reached through `getCorsConfig`
    ensures !d.AllowWithWarning?
  {
    match GetCorsConfig(nodeEnv)
    case DevelopmentOptions => Allow
    case ProductionOptions => ProductionOriginCheck(corsOrigins, origin)
    case DefaultOptions => DefaultOriginCheck(corsOrigins, nodeEnv, origin)
  }

  /** Outside development the default and the production checks admit the
      same origins; only their refusal messages differ. */
  lemma DefaultAgreesWithProduction(corsOrigins: Option<string>, nodeEnv: Option<string>, origin: Option<string>)
    requires !IsDevelopment(nodeEnv)
    ensures DefaultOriginCheck(corsOrigins, nodeEnv, origin).Allow?
            <==> ProductionOriginCheck(corsOrigins, origin).Allow?
  {
  }

  /** `corsWhitelist`. */
  const CorsWhitelist: seq<string> := ["/api/health", "/api/metrics", "/api/internal/*"]

  /** One whitelist pattern: a trailing `*` makes it a prefix, anything
      else must match exactly. */
  predicate MatchesPattern(path: string, pattern: string) {
    if EndsWith(pattern, "*") then StartsWith(path, pattern[..|pattern| - 1]) else path == pattern
  }

  /** `isWhitelisted`, against a given list of patterns. */
  function IsWhitelistedBy(path: string, patterns: seq<string>): (listed: bool)
    ensures forall i :: 0 <= i < |patterns| && patterns[i] == path ==> listed
  {
    exists i :: 0 <= i < |patterns| && MatchesPattern(path, patterns[i])
  }

  /** `isWhitelisted` with the shipped list. */
  function IsWhitelisted(path: string): (listed: bool)
    ensures listed <==> path == "/api/health" || path == "/api/metrics" || StartsWith(path, "/api/internal/")
  {
    assert !EndsWith(CorsWhitelist[0], "*") && !EndsWith(CorsWhitelist[1], "*");
    assert EndsWith(CorsWhitelist[2], "*");
    assert CorsWhitelist[2][..|CorsWhitelist[2]| - 1] == "/api/internal/";
    assert MatchesPattern(path, CorsWhitelist[2]) <==> StartsWith(path, "/api/internal/");
    IsWhitelistedBy(path, CorsWhitelist)
  }

  /** Anything under `/api/internal/` is exempt; a path that only starts
      like a listed one is not. */
  lemma WhitelistExamples()
    ensures IsWhitelisted("/api/internal/anything")
    ensures !IsWhitelisted("/api/healthz")
    ensures !IsWhitelisted("/api/internal")
  {
    assert "/api/internal/anything"[..14] == "/api/internal/";
  }
}

=== FILE: date_helpers.dfy ===
/** The time arithmetic of `src/utils/dateHelpers.ts`. A `Date` is its
    `getTime()` value: an integer number of milliseconds. */
module DateHelpers {

  const MsPerMinute: int := 60000
  const MsPerHour: int := 3600000

  /** `addMinutes(date, minutes)`: the instant `minutes` whole minutes later. */
  function AddMinutes(date: int, minutes: int): (r: int)
    ensures r - date == minutes * MsPerMinute
  {
    date + minutes * MsPerMinute
  }

  /** `addHours(date, hours)`. */
  function AddHours(date: int, hours: int): (r: int)
    ensures r - date == hours * MsPerHour
    ensures r == AddMinutes(date, 60 * hours)
  {
    date + hours * MsPerHour
  }

  /** `isBetween(date, start, end)`: inclusive at both ends. */
  function IsBetween(date: int, start: int, end: int): (between: bool)
    // only a non-empty window holds anything, and it holds both of its ends
    ensures between ==> start <= end
    ensures start <= end ==> (date == start || date == end ==> between)
    ensures date < start || end < date ==> !between
  {
    start <= date <= end
  }

  /** `differenceInMinutes(d1, d2)`: whole minutes from d2 to d1, rounded down
      (`Math.floor`, which Dafny's `/` on a positive divisor matches). */
  function DifferenceInMinutes(d1: int, d2: int): (r: int)
    ensures r * MsPerMinute <= d1 - d2 < (r + 1) * MsPerMinute
  {
    (d1 - d2) / MsPerMinute
  }

  /** `differenceInHours(d1, d2)`. */
  function DifferenceInHours(d1: int, d2: int): (r: int)
    ensures r * MsPerHour <= d1 - d2 < (r + 1) * MsPerHour
  {
    (d1 - d2) / MsPerHour
  }

  /** `hasScheduleConflict(start1, end1, start2, end2)`: the half-open
      windows `[start1, end1)` and `[start2, end2)` intersect. */
  function HasScheduleConflict(start1: int, end1: int, start2: int, end2: int): (conflict: bool)
    // windows that only touch do not conflict, in either order
    ensures end1 <= start2 || end2 <= start1 ==> !conflict
    // a window that starts inside another conflicts with it
    ensures start1 <= start2 < end1 && start2 < end2 ==> conflict
  {
    start1 < end2 && start2 < end1
  }

  /** `getNextQRRotation(lastRotation, rotationMinutes)`. */
  function GetNextQRRotation(lastRotation: int, rotationMinutes: int): (r: int)
    ensures r - lastRotation == rotationMinutes * MsPerMinute
    // measured back from the last rotation, the interval is found again
    ensures DifferenceInMinutes(r, lastRotation) == rotationMinutes
  {
    AddMinutes(lastRotation, rotationMinutes)
  }

  /** `isBusinessHours(date, startHour, endHour)` with the local hour of
      `date` given as `hour`; the source's defaults are 7 and 22. */
  function IsBusinessHours(hour: int, startHour: int := 7, endHour: int := 22): (business: bool)
    // the opening hour counts and the closing hour does not
    ensures business ==> startHour < endHour
    ensures startHour < endHour ==> (hour == startHour ==> business)
    ensures hour < startHour || endHour <= hour ==> !business
  {
    hour >= startHour && hour < endHour
  }

  /** A window holds every date between two dates it holds; with its two
      ends held, a non-empty window holds exactly the dates from its start to
      its end. */
  lemma IsBetweenConvex(a: int, b: int, c: int, start: int, end: int)
    requires IsBetween(a, start, end) && IsBetween(c, start, end) && a <= b <= c
    ensures IsBetween(b, start, end)
  {
  }

  /** Business hours have no gaps: an hour between two business hours is
      one too. */
  lemma BusinessHoursConvex(a: int, b: int, c: int, startHour: int, endHour: int)
    requires IsBusinessHours(a, startHour, endHour) && IsBusinessHours(c, startHour, endHour)
    requires a <= b <= c
    ensures IsBusinessHours(b, startHour, endHour)
  {
  }

  /** Adding whole minutes and measuring the difference again gives the
      same count back. */
  lemma DifferenceOfAddedMinutes(d: int, m: int)
    ensures DifferenceInMinutes(AddMinutes(d, m), d) == m
  {
  }

  /** Whole hours measured after adding whole hours. */
  lemma DifferenceOfAddedHours(d: int, h: int)
    ensures DifferenceInHours(AddHours(d, h), d) == h
  {
  }

  /** The conflict test does not depend on which window is named first. */
  lemma ScheduleConflictSymmetric(s1: int, e1: int, s2: int, e2: int)
    ensures HasScheduleConflict(s1, e1, s2, e2) == HasScheduleConflict(s2, e2, s1, e1)
  {
  }

  /** Back-to-back windows do not conflict: both comparisons are strict. */
  lemma BackToBackNoConflict(s1: int, e1: int, e2: int)
    ensures !HasScheduleConflict(s1, e1, e1, e2)
  {
  }

  /** The business-hours window with its defaults: 07:00 up to, but not
      including, 22:00. */
  lemma BusinessHoursDefaults(hour: int)
    ensures IsBusinessHours(hour) <==> 7 <= hour < 22
  {
  }
}

=== FILE: error_middleware.dfy ===
/** `src/middlewares/error.middleware.ts`: the application's error classes,
    the translation of database and token errors into them, and the final
    error handler that picks the status, the log level and the body of the
    answer. Logging and the timestamp are I/O and are not modelled; the
    handler's log call is reduced to the level it chooses. */
module ErrorMiddleware {
  import opened Wrappers

  /** An `AppError` (or an instance of one of its subclasses): the class
      name, the message, the status, the machine-readable code and the
      optional details. */
  datatype AppError = AppError(
    name: string, message: string, statusCode: int, code: Option<string>, details: Option<string>)

  /** The subclasses of `AppError`, each of which fixes a status and a code. */
  datatype ErrorClass = Validation | Authentication | Authorization | NotFound | Conflict | RateLimit

  /** The class name, which the base constructor stores as `name`. */
  function ClassName(k: ErrorClass): string {
    match k
    case Validation => "ValidationError"
    case Authentication => "AuthenticationError"
    case Authorization => "AuthorizationError"
    case NotFound => "NotFoundError"
    case Conflict => "ConflictError"
    case RateLimit => "RateLimitError"
  }

  /** The status each class fixes: all of them are client errors. */
  function ClassStatus(k: ErrorClass): (status: int)
    ensures 400 <= status < 500
  {
    match k
    case Validation => 400
    case Authentication => 401
    case Authorization => 403
    case NotFound => 404
    case Conflict => 409
    case RateLimit => 429
  }

  function ClassCode(k: ErrorClass): string {
    match k
    case Validation => "VALIDATION_ERROR"
    case Authentication => "AUTHENTICATION_ERROR"
    case Authorization => "AUTHORIZATION_ERROR"
    case NotFound => "NOT_FOUND"
    case Conflict => "CONFLICT_ERROR"
    case RateLimit => "RATE_LIMIT_ERROR"
  }

  /** The status tells the class apart: no two classes share a status. */
  lemma ClassStatusIdentifiesClass(k1: ErrorClass, k2: ErrorClass)
    ensures ClassStatus(k1) == ClassStatus(k2) <==> k1 == k2
    ensures ClassCode(k1) == ClassCode(k2) <==> k1 == k2
  {
  }

  /** `new <Class>(message, details)`: the error a subclass constructor
      builds. */
  function Raise(k: ErrorClass, message: string, details: Option<string>): (e: AppError)
    ensures e.name == ClassName(k) && e.statusCode == ClassStatus(k) && e.code == Some(ClassCode(k))
    ensures e.message == message && e.details == details
  {
    AppError(ClassName(k), message, ClassStatus(k), Some(ClassCode(k)), details)
  }

  /** `new NotFoundError(resource)`: the message names the resource. */
  function NotFoundError(resource: string): (e: AppError)
    ensures e.statusCode == 404 && e.code == Some("NOT_FOUND")
    ensures |e.message| > |resource| && e.message[..|resource|] == resource
  {
    Raise(NotFound, resource + " no encontrado", None)
  }

  const DatabaseError: AppError := AppError("AppError", "Error en la base de datos", 500, Some("DATABASE_ERROR"), None)

  const ConflictSuffix: string := " ya está registrado"

  /** The field a unique-constraint error names: the first entry of
      `meta.target`, or `campo` when there is none or it is empty. */
  function ConflictField(target: Option<seq<string>>): (field: string)
    ensures field != ""
    ensures target.Some? && |target.value| > 0 && target.value[0] != "" ==> field == target.value[0]
    ensures !(target.Some? && |target.value| > 0 && target.value[0] != "") ==> field == "campo"
  {
    if target.Some? && |target.value| > 0 && target.value[0] != "" then target.value[0] else "campo"
  }

  /** `handlePrismaError`: a known database error, by its code. */
  function HandlePrismaError(code: Option<string>, target: Option<seq<string>>): (e: AppError)
    ensures code == Some("P2002") <==> e.statusCode == 409
    ensures code == Some("P2002") ==> e.message == "El " + ConflictField(target) + ConflictSuffix
    ensures code == Some("P2003") || code == Some("P2016") <==> e.statusCode == 400
    ensures code == Some("P2003") ==> e.message == "Referencia a registro inválida"
    ensures code == Some("P2016") ==> e.message == "Error en la consulta"
    ensures code == Some("P2025") <==> e.statusCode == 404
    ensures code !in {Some("P2002"), Some("P2003"), Some("P2025"), Some("P2016")} <==>
              e.statusCode == 500 && e.code == Some("DATABASE_ERROR")
  {
    if code == Some("P2002") then Raise(Conflict, "El " + ConflictField(target) + ConflictSuffix, None)
    else if code == Some("P2003") then Raise(Validation, "Referencia a registro inválida", None)
    else if code == Some("P2025") then NotFoundError("Registro")
    else if code == Some("P2016") then Raise(Validation, "Error en la consulta", None)
    else DatabaseError
  }

  /** The field named in a duplicate-value answer can be read back from its
      message. */
  lemma ConflictMessageNamesField(target: Option<seq<string>>)
    ensures var m := HandlePrismaError(Some("P2002"), target).message;
      && |m| == 3 + |ConflictField(target)| + |ConflictSuffix|
      && m[3..|m| - |ConflictSuffix|] == ConflictField(target)
  {
    var f := ConflictField(target);
    var m := "El " + f + ConflictSuffix;
    assert m[3..|m| - |ConflictSuffix|] == f by {
      forall i | 0 <= i < |f| ensures m[3 + i] == f[i] {
        assert m == "El " + (f + ConflictSuffix);
      }
    }
  }

  /** `handleJWTError`: every token error is an authentication error; the
      message says which. */
  function HandleJWTError(name: string): (e: AppError)
    ensures e.statusCode == 401 && e.code == Some("AUTHENTICATION_ERROR")
    ensures name == "JsonWebTokenError" <==> e.message == "Token inválido"
    ensures name == "TokenExpiredError" <==> e.message == "Token expirado"
  {
    var message :=
      if name == "JsonWebTokenError" then "Token inválido"
      else if name == "TokenExpiredError" then "Token expirado"
      else "Error de autenticación";
    Raise(Authentication, message, None)
  }

  /** What reaches the handler: an `AppError` instance, or any other error
      with its `name`, its message, the Prisma `code` and `meta.target` when
      it has them, and its `details` property when it has one. */
  datatype Thrown =
    | Raised(app: AppError)
    | Foreign(name: string, message: string, prismaCode: Option<string>,
              metaTarget: Option<seq<string>>, details: Option<string>)

  predicate IsJWTName(name: string) {
    name == "JsonWebTokenError" || name == "TokenExpiredError"
  }

  const InternalError: AppError :=
    AppError("AppError", "Error interno del servidor", 500, Some("INTERNAL_SERVER_ERROR"), None)

  /** The classification at the head of `errorHandler`, first match wins.
      An `AppError` always owns a `details` property (its constructor
      assigns it even when undefined), so one named `ValidationError` is
      rebuilt like a Joi error. */
  function Classify(t: Thrown): (e: AppError)
    ensures t.Foreign? && t.name == "PrismaClientKnownRequestError" ==>
              e == HandlePrismaError(t.prismaCode, t.metaTarget)
    ensures t.Foreign? && IsJWTName(t.name) ==> e == HandleJWTError(t.name)
    ensures t.Foreign? && t.name == "ValidationError" && t.details.Some? ==>
              e == Raise(Validation, "Error de validación", t.details)
    ensures (&& t.Foreign? && t.name != "PrismaClientKnownRequestError" && !IsJWTName(t.name)
             && !(t.name == "ValidationError" && t.details.Some?)) ==> e == InternalError
    ensures t.Raised? && t.app.name != "ValidationError" ==> e == t.app
    ensures t.Raised? && t.app.name == "ValidationError" ==>
              e == Raise(Validation, "Error de validación", t.app.details)
  {
    match t
    case Foreign(name, _, prismaCode, metaTarget, details) =>
      if name == "PrismaClientKnownRequestError" then HandlePrismaError(prismaCode, metaTarget)
      else if IsJWTName(name) then HandleJWTError(name)
      else if name == "ValidationError" && details.Some? then Raise(Validation, "Error de validación", details)
      else InternalError
    case Raised(app) =>
      if app.name == "ValidationError" then Raise(Validation, "Error de validación", app.details)
      else app
  }

  /** The two log levels the handler uses. */
  datatype LogLevel = LogError | LogWarn

  /** The answer: the status, the `error` object of the body (`message`,
      `code`, and `details` only in development) and the request path. The
      body's `success` is always false. */
  datatype ErrorReply = ErrorReply(
    status: int, level: LogLevel, message: string, code: Option<string>,
    details: Option<Option<string>>, path: string)

  /** `customError.statusCode || 500`. */
  function StatusOrDefault(statusCode: int): (status: int)
    ensures statusCode != 0 ==> status == statusCode
    ensures statusCode == 0 ==> status == 500
  {
    if statusCode == 0 then 500 else statusCode
  }

  /** `errorHandler`: classify, default the status, choose the log level and
      build the body. */
  function ErrorHandler(t: Thrown, path: string, development: bool): (r: ErrorReply)
    ensures r.status == StatusOrDefault(Classify(t).statusCode)
    ensures r.level == LogError <==> r.status >= 500
    ensures r.message == Classify(t).message && r.code == Classify(t).code
    ensures r.details.Some? <==> development
    ensures development ==> r.details == Some(Classify(t).details)
    ensures r.path == path
  {
    var e := Classify(t);
    var status := StatusOrDefault(e.statusCode);
    ErrorReply(status, if status >= 500 then LogError else LogWarn, e.message, e.code,
               if development then Some(e.details) else None, path)
  }

  /** An error the handler does not recognise is answered with a generic
      500 that does not repeat its message, and logged as an error. */
  lemma UnknownErrorsAreHidden(name: string, message: string, path: string, development: bool)
    requires name != "PrismaClientKnownRequestError" && !IsJWTName(name) && name != "ValidationError"
    ensures var r := ErrorHandler(Foreign(name, message, None, None, None), path, development);
      && r.status == 500 && r.level == LogError
      && r.message == "Error interno del servidor" && r.code == Some("INTERNAL_SERVER_ERROR")
  {
  }

  /** Every error that is not an `AppError` gets a status between 400 and
      500 and a code, and is logged as a warning exactly when its status is
      below 500. */
  lemma ForeignErrorsGetAStatus(t: Thrown, path: string, development: bool)
    requires t.Foreign?
    ensures var r := ErrorHandler(t, path, development);
      && 400 <= r.status <= 500 && r.code.Some?
      && (r.level == LogWarn <==> r.status < 500)
  {
    if t.name == "PrismaClientKnownRequestError" {
      var e := HandlePrismaError(t.prismaCode, t.metaTarget);
      assert e.statusCode in {400, 404, 409, 500};
    }
  }

  /** An `AppError` not named `ValidationError` passes through with its own
      status and message; an `AppError` with status 0 is answered 500. */
  lemma AppErrorsPassThrough(app: AppError, path: string, development: bool)
    requires app.name != "ValidationError"
    ensures var r := ErrorHandler(Raised(app), path, development);
      && r.message == app.message && r.code == app.code
      && r.status == (if app.statusCode == 0 then 500 else app.statusCode)
  {
  }

  /** A `ValidationError` thrown with its own message is answered with the
      generic validation message: the handler rebuilds it. */
  lemma ThrownValidationErrorLosesMessage()
    ensures var r := ErrorHandler(Raised(Raise(Validation, "El correo no es válido", None)), "/x", false);
      r.status == 400 && r.message == "Error de validación"
  {
  }

  /** `notFoundHandler`: an unknown route becomes a 404 naming the path. */
  function NotFoundRoute(path: string): (e: AppError)
    ensures e.statusCode == 404
    ensures ErrorHandler(Raised(e), path, false).status == 404
    ensures e.message == "Ruta " + path + " no encontrado"
  {
    NotFoundError("Ruta " + path)
  }
}

=== FILE: field_rules.dfy ===
/** The Joi rules the request schemas are built from, as predicates over a
    field as it arrives in a request. The validation middleware only
    accepts or refuses a request: the values Joi would convert or default
    are not written back, so the handlers see the fields as sent. */
module FieldRules {
  import opened Wrappers

  /** A field as sent: missing, an explicit null, a value of the wrong type
      (or a date not in ISO format), or a value. */
  datatype Field<T> = Absent | Null | Malformed | Given(value: T)

  /** The field is there (`Joi.exist()`): anything but undefined. */
  predicate Present<T>(f: Field<T>) {
    !f.Absent?
  }

  /** `Joi.string().required()`: a string, and not the empty one. */
  predicate RequiredString(f: Field<string>) {
    f.Given? && f.value != ""
  }

  /** `Joi.string().optional()`. */
  predicate OptionalString(f: Field<string>) {
    f.Absent? || RequiredString(f)
  }

  /** `Joi.string().valid(...allowed).required()`. */
  predicate OneOf(f: Field<string>, allowed: set<string>) {
    f.Given? && f.value in allowed
  }

  /** `Joi.boolean().optional()` (also `Joi.date().iso().optional()`). */
  predicate OptionalValue<T>(f: Field<T>) {
    f.Absent? || f.Given?
  }

  /** The upper-case form of an ASCII letter; other characters are kept. */
  function UpperCase(c: char): (u: char)
    ensures 'a' <= c <= 'z' ==> 'A' <= u <= 'Z'
    ensures !('a' <= c <= 'z') ==> u == c
  {
    if 'a' <= c <= 'z' then (c as int - 32) as char else c
  }

  /** `s` is the lower-case `word` written in any mix of letter cases. */
  predicate SpelledAs(s: string, word: string) {
    |s| == |word| && forall i :: 0 <= i < |s| ==> s[i] == word[i] || s[i] == UpperCase(word[i])
  }

  /** `Joi.boolean()` converts a text that reads `true` or `false` in any
      letter case. */
  predicate BooleanText(s: string) {
    SpelledAs(s, "true") || SpelledAs(s, "false")
  }

  /** `Joi.number().integer()`: a number without a fractional part. */
  predicate IsInteger(x: real) {
    x == x.Floor as real
  }

  /** `Joi.number().integer().min(lo).max(hi).optional()`. */
  predicate OptionalIntegerIn(f: Field<real>, lo: int, hi: int) {
    f.Absent? || (f.Given? && IsInteger(f.value) && lo as real <= f.value <= hi as real)
  }

  /** `Joi.number().integer().min(lo).optional()`, with no upper bound. */
  predicate OptionalIntegerFrom(f: Field<real>, lo: int) {
    f.Absent? || (f.Given? && IsInteger(f.value) && lo as real <= f.value)
  }

  /** The value a Joi `.default(d)` stands for, once the field has passed. */
  function IntegerOr(f: Field<real>, d: int): (n: int)
    ensures f.Given? && IsInteger(f.value) ==> n as real == f.value
    ensures !f.Given? ==> n == d
  {
    if f.Given? then f.value.Floor else d
  }

  /** `startDate` / `endDate` in the query schemas: both optional ISO dates;
      when `startDate` is there, `endDate`, if given, must come strictly
      after it. */
  predicate DateRange(startDate: Field<int>, endDate: Field<int>) {
    && OptionalValue(startDate)
    && OptionalValue(endDate)
    && (startDate.Given? && endDate.Given? ==> endDate.value > startDate.value)
  }

  /** `page` (integer, at least 1, default 1) and `limit` (integer, 1 to
      100, default 20), shared by the list queries. */
  function Pagination(page: Field<real>, limit: Field<real>): (r: Option<(int, int)>)
    ensures r.Some? <==> OptionalIntegerFrom(page, 1) && OptionalIntegerIn(limit, 1, 100)
    ensures r.Some? ==> r.value.0 >= 1 && 1 <= r.value.1 <= 100
    ensures r.Some? && page.Absent? ==> r.value.0 == 1
    ensures r.Some? && limit.Absent? ==> r.value.1 == 20
    ensures r.Some? && page.Given? ==> r.value.0 as real == page.value
    ensures r.Some? && limit.Given? ==> r.value.1 as real == limit.value
  {
    if OptionalIntegerFrom(page, 1) && OptionalIntegerIn(limit, 1, 100) then
      Some((IntegerOr(page, 1), IntegerOr(limit, 20)))
    else None
  }
}

=== FILE: jwt.dfy ===
/** `src/utils/jwt.ts`: reading the bearer token out of the `Authorization`
    header, and the expiry arithmetic on a decoded token. Signing,
    verifying and decoding are calls into the jsonwebtoken library and are
    not modelled: the decoded `exp` claim and the clock are parameters. */
module Jwt {
  import opened Wrappers
  import opened Strings

  /** A header of the form `Bearer <token>` with no further space. */
  predicate IsBearer(h: string) {
    |h| >= 7 && h[..7] == "Bearer " && ' ' !in h[7..]
  }

  /** Splitting on spaces gives exactly `Bearer` and one more part precisely
      for the bearer headers, and that part is what follows `Bearer `. */
  lemma BearerSplit(h: string)
    ensures var parts := Split(h, ' ');
      (|parts| == 2 && parts[0] == "Bearer") <==> IsBearer(h)
    ensures IsBearer(h) ==> Split(h, ' ') == ["Bearer", h[7..]]
  {
    var parts := Split(h, ' ');
    if |parts| == 2 && parts[0] == "Bearer" {
      JoinSplit(h, ' ');
      SplitPartsHaveNoSeparator(h, ' ');
      assert ' ' !in parts[1];
      assert Join(parts, ' ') == "Bearer" + [' '] + parts[1];
      assert h == "Bearer " + parts[1];
    }
    if IsBearer(h) {
      assert h == "Bearer" + [' '] + h[7..];
      SplitAtFirstSeparator("Bearer", h[7..], ' ');
      SplitWithoutSeparator(h[7..], ' ');
    }
  }

  /** `extractTokenFromHeader`: nothing for a missing or empty header, or
      unless the header splits on spaces into exactly `Bearer` and the
      token. */
  function ExtractTokenFromHeader(authHeader: Option<string>): (token: Option<string>)
    ensures token.Some? <==> authHeader.Some? && IsBearer(authHeader.value)
    ensures token.Some? ==> authHeader.value == "Bearer " + token.value && ' ' !in token.value
  {
    if authHeader.None? || authHeader.value == "" then None
    else
      var parts := Split(authHeader.value, ' ');
      BearerSplit(authHeader.value);
      if |parts| != 2 || parts[0] != "Bearer" then None
      else
        assert authHeader.value == "Bearer " + authHeader.value[7..];
        Some(parts[1])
  }

  /** Any token without a space reads back from the header built for it. */
  lemma ExtractBearerRoundTrip(t: string)
    requires ' ' !in t
    ensures ExtractTokenFromHeader(Some("Bearer " + t)) == Some(t)
  {
    assert ("Bearer " + t)[7..] == t;
  }

  /** A decoded token as `getExpirationTime` sees it: not an object at all,
      an object whose `exp` is missing or not a number, or one with a
      numeric `exp` (in seconds). */
  datatype Decoded = NotAnObject | WithoutExp | WithExp(exp: int)

  /** `getExpirationTime`: the seconds left, `exp` minus the current time
      in whole seconds, or the error it throws. */
  function GetExpirationTime(decoded: Decoded, nowMs: int): (r: Result<int, string>)
    ensures decoded.NotAnObject? <==> r == Err("Token inválido")
    ensures decoded.WithoutExp? <==> r == Err("Token sin tiempo de expiración")
    ensures r.Ok? <==> decoded.WithExp?
    // the seconds left, rounded up from the milliseconds left
    ensures r.Ok? ==> (r.value - 1) * 1000 < decoded.exp * 1000 - nowMs <= r.value * 1000
  {
    match decoded
    case NotAnObject => Err("Token inválido")
    case WithoutExp => Err("Token sin tiempo de expiración")
    case WithExp(exp) => Ok(exp - nowMs / 1000)
  }

  /** `isTokenExpiringSoon`: true when at most `thresholdSeconds` are left,
      and true whenever the expiry cannot be read. */
  function IsTokenExpiringSoon(decoded: Decoded, nowMs: int, thresholdSeconds: int := 300): (soon: bool)
    ensures !decoded.WithExp? ==> soon
    ensures decoded.WithExp? ==> (soon <==> GetExpirationTime(decoded, nowMs).value <= thresholdSeconds)
  {
    match GetExpirationTime(decoded, nowMs)
    case Ok(timeLeft) => timeLeft <= thresholdSeconds
    case Err(_) => true
  }

  /** In milliseconds: a token expires soon exactly when at most the
      threshold is left before its `exp`, counted to the millisecond. */
  lemma ExpiringSoonInMilliseconds(exp: int, nowMs: int, thresholdSeconds: int)
    ensures IsTokenExpiringSoon(WithExp(exp), nowMs, thresholdSeconds)
            <==> exp * 1000 - nowMs <= thresholdSeconds * 1000
  {
    var now := nowMs / 1000;
    assert now * 1000 <= nowMs < now * 1000 + 1000;
    if exp - now <= thresholdSeconds {
      assert exp * 1000 <= (thresholdSeconds + now) * 1000;
    } else {
      assert exp >= thresholdSeconds + now + 1;
      assert exp * 1000 >= (thresholdSeconds + now + 1) * 1000;
    }
  }

  /** Once a token expires soon it stays so as time passes. */
  lemma ExpiringSoonStays(decoded: Decoded, nowMs: int, laterMs: int, thresholdSeconds: int)
    requires nowMs <= laterMs
    requires IsTokenExpiringSoon(decoded, nowMs, thresholdSeconds)
    ensures IsTokenExpiringSoon(decoded, laterMs, thresholdSeconds)
  {
    if decoded.WithExp? {
      ExpiringSoonInMilliseconds(decoded.exp, nowMs, thresholdSeconds);
      ExpiringSoonInMilliseconds(decoded.exp, laterMs, thresholdSeconds);
    }
  }
}

=== FILE: qr_controller.dfy ===
/** `src/controllers/qr.controller.ts`: the QR code shown at a room's door.
    Each room keeps at most one active code, valid for 60 seconds; asking
    for a new one, or asking for the current one once it has expired,
    retires the room's active codes and issues a fresh one. */
module QrController {
  import opened Wrappers

  /** How long an environment code stays valid, in milliseconds. */
  const CodeLifetimeMs: int := 60 * 1000

  /** One row of the environment QR table. */
  datatype EnvironmentQR = EnvironmentQR(code: string, environmentId: string, expiresAt: int, isActive: bool)

  /** Why a request failed: an unknown room (404) or a store error (500). */
  datatype QRFailure = EnvironmentNotFound | ServerError

  function FailureStatus(f: QRFailure): (code: int)
    ensures f == EnvironmentNotFound <==> code == 404
    ensures f == ServerError <==> code == 500
  {
    match f
    case EnvironmentNotFound => 404
    case ServerError => 500
  }

  /** The codes in use. */
  function Codes(rows: seq<EnvironmentQR>): (codes: set<string>)
    ensures forall i :: 0 <= i < |rows| ==> rows[i].code in codes
    ensures forall c :: c in codes ==> exists i :: 0 <= i < |rows| && rows[i].code == c
  {
    set i | 0 <= i < |rows| :: rows[i].code
  }

  /** The row is the room's active code. */
  predicate ActiveFor(row: EnvironmentQR, environmentId: string) {
    row.environmentId == environmentId && row.isActive
  }

  /** Every row belongs to a known room, no room has two active rows, and
      no two rows share a code (the column is unique). */
  predicate WellKept(rooms: set<string>, rows: seq<EnvironmentQR>) {
    && (forall i :: 0 <= i < |rows| ==> rows[i].environmentId in rooms)
    && (forall i, j :: 0 <= i < j < |rows| && rows[i].isActive && rows[j].isActive
          ==> rows[i].environmentId != rows[j].environmentId)
    && (forall i, j :: 0 <= i < j < |rows| ==> rows[i].code != rows[j].code)
  }

  /** The `updateMany` that retires a room's codes: every active row of the
      room becomes inactive; every other row stays as it was. */
  function DeactivateIn(rows: seq<EnvironmentQR>, environmentId: string): (r: seq<EnvironmentQR>)
    ensures |r| == |rows|
    ensures forall i :: 0 <= i < |rows| && ActiveFor(rows[i], environmentId) ==>
      r[i] == rows[i].(isActive := false)
    ensures forall i :: 0 <= i < |rows| && !ActiveFor(rows[i], environmentId) ==> r[i] == rows[i]
    ensures forall i :: 0 <= i < |r| ==> !ActiveFor(r[i], environmentId)
    decreases |rows|
  {
    if rows == [] then []
    else
      var last := rows[|rows| - 1];
      DeactivateIn(rows[..|rows| - 1], environmentId)
        + [if ActiveFor(last, environmentId) then last.(isActive := false) else last]
  }

  /** Retiring the codes of a room that has no rows changes nothing. */
  lemma {:induction false} DeactivateUnknownRoom(rows: seq<EnvironmentQR>, environmentId: string)
    requires forall i :: 0 <= i < |rows| ==> rows[i].environmentId != environmentId
    ensures DeactivateIn(rows, environmentId) == rows
    decreases |rows|
  {
    if rows != [] {
      DeactivateUnknownRoom(rows[..|rows| - 1], environmentId);
      assert rows[..|rows| - 1] + [rows[|rows| - 1]] == rows;
    }
  }

  /** The table after a fresh code for the room: its codes retired, then
      the new row, active and expiring a minute from `now`. */
  function WithFreshCode(rows: seq<EnvironmentQR>, environmentId: string, code: string, now: int)
    : (r: seq<EnvironmentQR>)
    ensures |r| == |rows| + 1
    ensures r[|rows|] == EnvironmentQR(code, environmentId, now + CodeLifetimeMs, true)
    // the room has exactly one active code: the new one
    ensures forall i :: 0 <= i < |r| ==> (ActiveFor(r[i], environmentId) <==> i == |rows|)
    // other rooms' rows are untouched
    ensures forall i :: 0 <= i < |rows| && rows[i].environmentId != environmentId ==> r[i] == rows[i]
  {
    DeactivateIn(rows, environmentId) + [EnvironmentQR(code, environmentId, now + CodeLifetimeMs, true)]
  }

  /** A fresh code keeps the table well kept. */
  lemma WithFreshCodeKeepsTable(rooms: set<string>, rows: seq<EnvironmentQR>, environmentId: string,
                                code: string, now: int)
    requires WellKept(rooms, rows) && environmentId in rooms && code !in Codes(rows)
    ensures WellKept(rooms, WithFreshCode(rows, environmentId, code, now))
  {
    var r := WithFreshCode(rows, environmentId, code, now);
    forall i | 0 <= i < |rows| ensures r[i].code == rows[i].code {
      if ActiveFor(rows[i], environmentId) {
        assert r[i] == rows[i].(isActive := false);
      } else {
        assert r[i] == rows[i];
      }
    }
    forall i, j | 0 <= i < j < |r| && r[i].isActive && r[j].isActive
      ensures r[i].environmentId != r[j].environmentId
    {
    }
    forall i, j | 0 <= i < j < |r| ensures r[i].code != r[j].code {
      if j == |rows| {
        assert rows[i].code in Codes(rows);
      }
    }
  }

  datatype QROutcome = QROutcome(result: Result<EnvironmentQR, QRFailure>, rows: seq<EnvironmentQR>)

  /** What `generarQR` answers and writes. */
  function GenerarOutcome(rooms: set<string>, rows: seq<EnvironmentQR>, environmentId: string,
                          code: string, now: int): (o: QROutcome)
    requires WellKept(rooms, rows) && code !in Codes(rows)
    ensures WellKept(rooms, o.rows)
    ensures o.result == Err(EnvironmentNotFound) <==> environmentId !in rooms
    ensures o.result.Err? ==> o.rows == rows
    // a known room always gets its fresh code
    ensures o.result.Ok? <==> environmentId in rooms
    ensures o.result.Ok? ==>
      && o.result.value == EnvironmentQR(code, environmentId, now + CodeLifetimeMs, true)
      && o.rows == WithFreshCode(rows, environmentId, code, now)
  {
    if environmentId !in rooms then QROutcome(Err(EnvironmentNotFound), rows)
    else
      WithFreshCodeKeepsTable(rooms, rows, environmentId, code, now);
      QROutcome(Ok(EnvironmentQR(code, environmentId, now + CodeLifetimeMs, true)),
                WithFreshCode(rows, environmentId, code, now))
  }

  /** The row is the room's active code and has not expired at `now`
      (`expiresAt > now`: a code expiring exactly now is expired). */
  function Live(row: EnvironmentQR, environmentId: string, now: int): (live: bool)
    ensures live ==> row.isActive && row.environmentId == environmentId
    // a code expiring exactly now is no longer live
    ensures row.expiresAt <= now ==> !live
  {
    ActiveFor(row, environmentId) && row.expiresAt > now
  }

  /** `findFirst`: the first live row of the room, if any. */
  function FirstLive(rows: seq<EnvironmentQR>, environmentId: string, now: int): (r: Option<nat>)
    ensures r.Some? ==> r.value < |rows| && Live(rows[r.value], environmentId, now)
    ensures r.Some? ==> forall i :: 0 <= i < r.value ==> !Live(rows[i], environmentId, now)
    ensures r.None? ==> forall i :: 0 <= i < |rows| ==> !Live(rows[i], environmentId, now)
    decreases |rows|
  {
    if rows == [] then None
    else if Live(rows[0], environmentId, now) then Some(0)
    else
      match FirstLive(rows[1..], environmentId, now)
      case None => None
      case Some(i) => Some(i + 1)
  }

  /** What `getQRActivo` answers and writes. It does not look the room up:
      for an unknown room the retiring step finds nothing and the insert
      fails on the room's foreign key. */
  function GetActivoOutcome(rooms: set<string>, rows: seq<EnvironmentQR>, environmentId: string,
                            code: string, now: int): (o: QROutcome)
    requires WellKept(rooms, rows) && code !in Codes(rows)
    ensures WellKept(rooms, o.rows)
    // a live code is handed back and nothing is written
    ensures FirstLive(rows, environmentId, now).Some? ==>
      o.result == Ok(rows[FirstLive(rows, environmentId, now).value]) && o.rows == rows
    // otherwise a fresh code replaces the room's codes
    ensures FirstLive(rows, environmentId, now).None? && environmentId in rooms ==>
      && o.result == Ok(EnvironmentQR(code, environmentId, now + CodeLifetimeMs, true))
      && o.rows == WithFreshCode(rows, environmentId, code, now)
    ensures FirstLive(rows, environmentId, now).None? && environmentId !in rooms ==>
      o.result == Err(ServerError) && o.rows == rows
    // whatever is returned is live at `now`
    ensures o.result.Ok? ==> Live(o.result.value, environmentId, now)
  {
    match FirstLive(rows, environmentId, now)
    case Some(i) => QROutcome(Ok(rows[i]), rows)
    case None =>
      var retired := DeactivateIn(rows, environmentId);
      if environmentId !in rooms then
        DeactivateUnknownRoom(rows, environmentId);
        QROutcome(Err(ServerError), retired)
      else
        WithFreshCodeKeepsTable(rooms, rows, environmentId, code, now);
        QROutcome(Ok(EnvironmentQR(code, environmentId, now + CodeLifetimeMs, true)),
                  WithFreshCode(rows, environmentId, code, now))
  }

  /** A live code is the room's only active code, so whichever live row is
      found first, it is the same one. */
  lemma LiveCodeIsUnique(rooms: set<string>, rows: seq<EnvironmentQR>, environmentId: string,
                         now: int, i: int)
    requires WellKept(rooms, rows)
    requires 0 <= i < |rows| && Live(rows[i], environmentId, now)
    ensures FirstLive(rows, environmentId, now) == Some(i)
    ensures forall j :: 0 <= j < |rows| && j != i ==> !ActiveFor(rows[j], environmentId)
  {
  }

  /** Within a minute of `generarQR`, `getQRActivo` hands back the code
      just generated and writes nothing. */
  lemma GetActivoAfterGenerar(rooms: set<string>, rows: seq<EnvironmentQR>, environmentId: string,
                              code: string, now: int, code2: string, later: int)
    requires WellKept(rooms, rows) && environmentId in rooms
    requires code !in Codes(rows) && code2 !in Codes(rows) && code2 != code
    requires later < now + CodeLifetimeMs
    ensures var g := GenerarOutcome(rooms, rows, environmentId, code, now);
      var a := GetActivoOutcome(rooms, g.rows, environmentId, code2, later);
      a.result == g.result && a.rows == g.rows
  {
    var g := GenerarOutcome(rooms, rows, environmentId, code, now);
    assert code2 !in Codes(g.rows);
    LiveCodeIsUnique(rooms, g.rows, environmentId, later, |rows|);
  }

  /** The `environmentQR` table, with the rooms it refers to. */
  class EnvironmentQRTable {
    var rooms: set<string>
    var rows: seq<EnvironmentQR>

    predicate Valid()
      reads this
    {
      WellKept(rooms, rows)
    }

    constructor (knownRooms: set<string>)
      ensures Valid() && rooms == knownRooms && rows == []
    {
      rooms := knownRooms;
      rows := [];
    }

    /** `generarQR`: the room lookup, the `updateMany`, then the insert. */
    method GenerarQR(environmentId: string, code: string, now: int)
        returns (r: Result<EnvironmentQR, QRFailure>)
      requires Valid() && code !in Codes(rows)
      modifies this
      ensures Valid() && rooms == old(rooms)
      ensures QROutcome(r, rows) == GenerarOutcome(old(rooms), old(rows), environmentId, code, now)
    {
      if environmentId !in rooms {
        return Err(EnvironmentNotFound);
      }
      WithFreshCodeKeepsTable(rooms, rows, environmentId, code, now);
      rows := DeactivateIn(rows, environmentId);
      var created := EnvironmentQR(code, environmentId, now + CodeLifetimeMs, true);
      rows := rows + [created];
      r := Ok(created);
    }

    /** `getQRActivo`: the `findFirst`, and when it finds nothing, the
        `updateMany` and the insert. */
    method GetQRActivo(environmentId: string, code: string, now: int)
        returns (r: Result<EnvironmentQR, QRFailure>)
      requires Valid() && code !in Codes(rows)
      modifies this
      ensures Valid() && rooms == old(rooms)
      ensures QROutcome(r, rows) == GetActivoOutcome(old(rooms), old(rows), environmentId, code, now)
    {
      var found := FirstLive(rows, environmentId, now);
      if found.Some? {
        return Ok(rows[found.value]);
      }
      DeactivateUnknownRoomIfAbsent(environmentId);
      var before := rows;
      rows := DeactivateIn(rows, environmentId);
      if environmentId !in rooms {
        return Err(ServerError);
      }
      WithFreshCodeKeepsTable(rooms, before, environmentId, code, now);
      var created := EnvironmentQR(code, environmentId, now + CodeLifetimeMs, true);
      rows := rows + [created];
      r := Ok(created);
    }

    /** The rows of a room the store does not know: there are none. */
    lemma DeactivateUnknownRoomIfAbsent(environmentId: string)
      requires Valid()
      ensures environmentId !in rooms ==> DeactivateIn(rows, environmentId) == rows
    {
      if environmentId !in rooms {
        DeactivateUnknownRoom(rows, environmentId);
      }
    }
  }
}

=== FILE: session_controller.dfy ===
/** `src/controllers/session.controller.ts`: booking a session, rotating its
    QR code, closing, updating and deleting it. Each handler is a pure
    function from the store's tables before the request to the response and
    the tables after it (its contract states what the handler promises), and
    a method that performs the same writes step by step on a
    `Store.Database`. The fresh session id and QR code that the handler
    generates at random are parameters that must not be in use yet. */
module SessionController {
  import opened Wrappers
  import opened Store
  import DateHelpers
  import AttendanceQueries

  /** The authenticated caller: `req.user.userId` and `req.user.role`. */
  datatype Actor = Actor(userId: string, role: string)

  /** Why a handler refused, before writing anything. */
  datatype Failure =
    | EnvironmentUnavailable  // 'Ambiente no válido o inactivo'
    | ScheduleTaken           // 'El ambiente no está disponible en el horario especificado'
    | NewScheduleConflicts    // 'El nuevo horario entra en conflicto con otras sesiones'
    | SessionNotFound         // 'Sesión no encontrada'
    | NotPermitted            // 'No tienes permisos ...'
    | SessionNotActive        // 'La sesión no está activa'

  /** The HTTP status each refusal is sent with. */
  function FailureStatus(f: Failure): (code: int)
    ensures code == 404 <==> f == SessionNotFound
    ensures code == 403 <==> f == NotPermitted
    ensures code in {400, 403, 404}
  {
    match f
    case SessionNotFound => 404
    case NotPermitted => 403
    case _ => 400
  }

  /** Milliseconds in one rotation interval. */
  function RotationIntervalMs(s: Session): int {
    s.qrRotationMinutes * 60 * 1000
  }

  /** The host of the session, or an ADMIN. */
  function HostOrAdmin(s: Session, actor: Actor): (allowed: bool)
    // an ADMIN may act on every session; anyone else only on the sessions they host
    ensures actor.role == "ADMIN" ==> allowed
    ensures actor.role != "ADMIN" ==> (allowed <==> s.hostId == Some(actor.userId))
  {
    s.hostId == Some(actor.userId) || actor.role == "ADMIN"
  }

  // ---------------------------------------------------------------- booking

  /** The `createSession` availability query for one stored session: same
      room, active, and its start in [s, e), or its end in (s, e], or it
      spans the whole of [s, e]. For well-formed windows this is exactly
      the half-open overlap of `hasScheduleConflict`. */
  function BookingClash(existing: Session, environmentId: string, s: int, e: int): (clash: bool)
    ensures s < e && existing.startTime < existing.endTime ==>
      (clash <==> existing.environmentId == environmentId && existing.isActive
                  && DateHelpers.HasScheduleConflict(existing.startTime, existing.endTime, s, e))
  {
    && existing.environmentId == environmentId
    && existing.isActive
    && (|| (s <= existing.startTime < e)
        || (s < existing.endTime <= e)
        || (existing.startTime <= s && existing.endTime >= e))
  }

  /** The `updateSession` availability query: another session of the same
      room, active, whose start lies in [s, e) or whose end lies in (s, e].
      Unlike the booking query it has no clause for a session that encloses
      the new window, so it finds a clash only when the overlap also shows
      at one of the new window's ends. */
  function UpdateClash(existing: Session, sessionId: string, environmentId: string, s: int, e: int): (clash: bool)
    ensures clash ==> existing.id != sessionId && BookingClash(existing, environmentId, s, e)
    ensures s < e && existing.id != sessionId && BookingClash(existing, environmentId, s, e)
      && !(existing.startTime < s && existing.endTime > e)
      ==> clash
  {
    && existing.id != sessionId
    && existing.environmentId == environmentId
    && existing.isActive
    && (|| (s <= existing.startTime < e)
        || (s < existing.endTime <= e))
  }

  /** The booking request after validation: `allowExternals` and
      `qrRotationMinutes` may still be absent (the handler defaults them). */
  datatype CreateRequest = CreateRequest(
    environmentId: string,
    name: string,
    kind: SessionType,
    allowExternals: Option<bool>,
    hostName: Option<string>,
    startTime: int,
    endTime: int,
    qrRotationMinutes: Option<int>)

  datatype CreateOutcome = CreateOutcome(result: Result<Session, Failure>, post: Tables)

  /** Some stored session makes the requested window unavailable. */
  predicate RoomTaken(st: Tables, environmentId: string, s: int, e: int) {
    exists id :: id in st.sessions && BookingClash(st.sessions[id], environmentId, s, e)
  }

  /** `qrRotationMinutes || 3` */
  function RotationMinutesOrDefault(m: Option<int>): (r: int)
    ensures m.Some? && m.value != 0 ==> r == m.value
    ensures m.None? || m.value == 0 ==> r == 3
  {
    if m.Some? && m.value != 0 then m.value else 3
  }

  /** What `createSession` answers and writes. */
  function CreateOutcomeOf(st: Tables, req: CreateRequest, actor: Actor, newId: string,
                           code: string, now: int): (o: CreateOutcome)
    requires WellFormed(st) && newId !in st.sessions && code !in st.qrCodes
    ensures WellFormed(o.post)
    ensures o.result.Err? ==> o.post == st
    ensures o.result == Err(EnvironmentUnavailable) <==>
      req.environmentId !in st.environments || !st.environments[req.environmentId].isActive
    ensures o.result == Err(ScheduleTaken) <==>
      && req.environmentId in st.environments && st.environments[req.environmentId].isActive
      && RoomTaken(st, req.environmentId, req.startTime, req.endTime)
    // those are the only refusals: an active room with a free window is booked
    ensures o.result.Err? ==> o.result.error in {EnvironmentUnavailable, ScheduleTaken}
    ensures o.result.Ok? ==>
      var s := o.result.value;
      && s.id == newId && s.environmentId == req.environmentId
      && s.name == req.name && s.kind == req.kind
      && s.hostId == Some(actor.userId)
      && s.startTime == req.startTime && s.endTime == req.endTime
      && s.isActive && s.currentQRCode == Some(code) && s.lastQRRotation == Some(now)
      && s.qrRotationMinutes == RotationMinutesOrDefault(req.qrRotationMinutes)
      && (s.allowExternals <==> req.allowExternals == Some(true))
      && s.hostName == (if s.allowExternals then req.hostName else None)
      && o.post == st.(sessions := st.sessions[newId := s],
                       qrCodes := st.qrCodes[code := QRCodeRecord(newId, code, now, req.endTime, 0)])
  {
    if req.environmentId !in st.environments || !st.environments[req.environmentId].isActive then
      CreateOutcome(Err(EnvironmentUnavailable), st)
    else if RoomTaken(st, req.environmentId, req.startTime, req.endTime) then
      CreateOutcome(Err(ScheduleTaken), st)
    else
      var externals := req.allowExternals == Some(true);
      var s := Session(
        newId, req.environmentId, req.name, req.kind, externals,
        Some(actor.userId), if externals then req.hostName else None,
        req.startTime, req.endTime, RotationMinutesOrDefault(req.qrRotationMinutes),
        Some(code), Some(now), true);
      CreateOutcome(Ok(s), st.(sessions := st.sessions[newId := s],
                              qrCodes := st.qrCodes[code := QRCodeRecord(newId, code, now, req.endTime, 0)]))
  }

  /** No two distinct active sessions of one room have overlapping windows. */
  predicate NoDoubleBooking(st: Tables) {
    forall a, b :: a in st.sessions && b in st.sessions && a != b
      && st.sessions[a].isActive && st.sessions[b].isActive
      && st.sessions[a].environmentId == st.sessions[b].environmentId
      ==> !DateHelpers.HasScheduleConflict(st.sessions[a].startTime, st.sessions[a].endTime,
                                           st.sessions[b].startTime, st.sessions[b].endTime)
  }

  /** Every active session has a window that starts before it ends. */
  predicate ActiveWindowsWellFormed(st: Tables) {
    forall id :: id in st.sessions && st.sessions[id].isActive ==>
      st.sessions[id].startTime < st.sessions[id].endTime
  }

  /** Booking never double-books a room: when the requested window is
      well formed, `createSession` succeeds exactly when no active session of
      the room overlaps it, and what it stores keeps the rooms free of
      overlapping active sessions. */
  lemma CreateKeepsRoomsFree(st: Tables, req: CreateRequest, actor: Actor, newId: string,
                             code: string, now: int)
    requires WellFormed(st) && newId !in st.sessions && code !in st.qrCodes
    requires NoDoubleBooking(st) && ActiveWindowsWellFormed(st)
    requires req.startTime < req.endTime
    requires req.environmentId in st.environments && st.environments[req.environmentId].isActive
    ensures var o := CreateOutcomeOf(st, req, actor, newId, code, now);
      && (o.result.Ok? <==>
            forall id :: id in st.sessions && st.sessions[id].isActive
              && st.sessions[id].environmentId == req.environmentId
              ==> !DateHelpers.HasScheduleConflict(st.sessions[id].startTime, st.sessions[id].endTime,
                                                   req.startTime, req.endTime))
      && NoDoubleBooking(o.post) && ActiveWindowsWellFormed(o.post)
  {
    var o := CreateOutcomeOf(st, req, actor, newId, code, now);
    forall id | id in st.sessions && st.sessions[id].isActive
      ensures BookingClash(st.sessions[id], req.environmentId, req.startTime, req.endTime) <==>
        st.sessions[id].environmentId == req.environmentId
        && DateHelpers.HasScheduleConflict(st.sessions[id].startTime, st.sessions[id].endTime,
                                           req.startTime, req.endTime)
    {
    }
    if o.result.Ok? {
      var s := o.result.value;
      forall a, b | a in o.post.sessions && b in o.post.sessions && a != b
        && o.post.sessions[a].isActive && o.post.sessions[b].isActive
        && o.post.sessions[a].environmentId == o.post.sessions[b].environmentId
        ensures !DateHelpers.HasScheduleConflict(o.post.sessions[a].startTime, o.post.sessions[a].endTime,
                                                 o.post.sessions[b].startTime, o.post.sessions[b].endTime)
      {
        if a == newId {
          assert !BookingClash(st.sessions[b], req.environmentId, req.startTime, req.endTime);
        } else if b == newId {
          assert !BookingClash(st.sessions[a], req.environmentId, req.startTime, req.endTime);
        }
      }
    }
  }

  /** `createSession`, one write at a time: the session row, then its first
      QR history record. */
  method CreateSession(db: Database, req: CreateRequest, actor: Actor, newId: string,
                       code: string, now: int) returns (r: Result<Session, Failure>)
    requires db.Valid() && newId !in db.sessions && code !in db.qrCodes
    modifies db
    ensures db.Valid()
    ensures CreateOutcome(r, db.Contents()) == CreateOutcomeOf(old(db.Contents()), req, actor, newId, code, now)
  {
    if req.environmentId !in db.environments || !db.environments[req.environmentId].isActive {
      return Err(EnvironmentUnavailable);
    }
    if RoomTaken(db.Contents(), req.environmentId, req.startTime, req.endTime) {
      return Err(ScheduleTaken);
    }
    var externals := req.allowExternals == Some(true);
    var session := Session(
      newId, req.environmentId, req.name, req.kind, externals,
      Some(actor.userId), if externals then req.hostName else None,
      req.startTime, req.endTime, RotationMinutesOrDefault(req.qrRotationMinutes),
      Some(code), Some(now), true);
    db.sessions := db.sessions[newId := session];
    db.qrCodes := db.qrCodes[code := QRCodeRecord(newId, code, now, req.endTime, 0)];
    r := Ok(session);
  }

  // ------------------------------------------------------------- QR rotation

  /** `!session.currentQRCode`: no code, or the empty string. */
  predicate NoCurrentCode(s: Session) {
    !Truthy(s.currentQRCode)
  }

  /** `forceNew || !currentQRCode || now - (lastQRRotation || 0) >= interval` */
  function RotationDue(s: Session, forceNew: bool, now: int): (due: bool)
    ensures forceNew || NoCurrentCode(s) ==> due
    // an unforced request keeps the current code until the interval has elapsed
    ensures !forceNew && !NoCurrentCode(s) ==>
      (due <==> s.lastQRRotation.GetOr(0) + RotationIntervalMs(s) <= now)
  {
    forceNew || NoCurrentCode(s) || now - s.lastQRRotation.GetOr(0) >= RotationIntervalMs(s)
  }

  /** What `generateQRCode` returns: the current code and `now + interval`
      (computed from the request time, whether or not the code rotated). */
  datatype IssuedCode = IssuedCode(code: string, validUntil: int, rotated: bool)

  datatype RotationOutcome = RotationOutcome(result: Result<IssuedCode, Failure>, post: Tables)

  /** What `generateQRCode` answers and writes. */
  function RotationOutcomeOf(st: Tables, sessionId: string, actor: Actor, forceNew: bool,
                             freshCode: string, now: int): (o: RotationOutcome)
    requires WellFormed(st) && freshCode !in st.qrCodes
    ensures WellFormed(o.post)
    ensures o.result.Err? ==> o.post == st
    ensures o.result == Err(SessionNotFound) <==> sessionId !in st.sessions
    ensures o.result == Err(NotPermitted) <==>
      sessionId in st.sessions && !HostOrAdmin(st.sessions[sessionId], actor)
    ensures o.result == Err(SessionNotActive) <==>
      sessionId in st.sessions && HostOrAdmin(st.sessions[sessionId], actor)
      && !st.sessions[sessionId].isActive
    ensures o.result.Err? ==> o.result.error in {SessionNotFound, NotPermitted, SessionNotActive}
    ensures o.result.Ok? ==>
      var s := st.sessions[sessionId];
      && o.result.value.rotated == RotationDue(s, forceNew, now)
      && o.result.value.validUntil == now + RotationIntervalMs(s)
      && o.post.environments == st.environments && o.post.attendances == st.attendances
      && o.post.notifications == st.notifications
    // a rotation installs the fresh code and appends its history record,
    // open from now for one interval (not clamped to the session's end)
    ensures o.result.Ok? && o.result.value.rotated ==>
      var s := st.sessions[sessionId];
      && o.result.value.code == freshCode
      && o.post.sessions == st.sessions[sessionId := s.(currentQRCode := Some(freshCode), lastQRRotation := Some(now))]
      && o.post.qrCodes == st.qrCodes[freshCode := QRCodeRecord(sessionId, freshCode, now, now + RotationIntervalMs(s), 0)]
    // otherwise nothing is written and the same code comes back
    ensures o.result.Ok? && !o.result.value.rotated ==>
      o.post == st && Some(o.result.value.code) == st.sessions[sessionId].currentQRCode
  {
    if sessionId !in st.sessions then RotationOutcome(Err(SessionNotFound), st)
    else
      var s := st.sessions[sessionId];
      if !HostOrAdmin(s, actor) then RotationOutcome(Err(NotPermitted), st)
      else if !s.isActive then RotationOutcome(Err(SessionNotActive), st)
      else
        var interval := RotationIntervalMs(s);
        if RotationDue(s, forceNew, now) then
          var s' := s.(currentQRCode := Some(freshCode), lastQRRotation := Some(now));
          RotationOutcome(
            Ok(IssuedCode(freshCode, now + interval, true)),
            st.(sessions := st.sessions[sessionId := s'],
                qrCodes := st.qrCodes[freshCode := QRCodeRecord(sessionId, freshCode, now, now + interval, 0)]))
        else
          RotationOutcome(Ok(IssuedCode(s.currentQRCode.value, now + interval, false)), st)
  }

  /** A rotation keeps the whole history: every earlier record is still there,
      unchanged. */
  lemma RotationKeepsHistory(st: Tables, sessionId: string, actor: Actor, forceNew: bool,
                             freshCode: string, now: int)
    requires WellFormed(st) && freshCode !in st.qrCodes
    ensures var o := RotationOutcomeOf(st, sessionId, actor, forceNew, freshCode, now);
      && st.qrCodes.Keys <= o.post.qrCodes.Keys
      && (forall c :: c in st.qrCodes ==> o.post.qrCodes[c] == st.qrCodes[c])
      && |o.post.qrCodes| <= |st.qrCodes| + 1
  {
    var o := RotationOutcomeOf(st, sessionId, actor, forceNew, freshCode, now);
    if o.result.Ok? && o.result.value.rotated {
      var s := st.sessions[sessionId];
      var added := QRCodeRecord(sessionId, freshCode, now, now + RotationIntervalMs(s), 0);
      assert o.post.qrCodes == st.qrCodes[freshCode := added];
      ExtendedHistory(st.qrCodes, freshCode, added);
    } else {
      assert o.post.qrCodes == st.qrCodes;
    }
  }

  /** Recording a code not yet in the history keeps every earlier record and
      adds one. */
  lemma ExtendedHistory(history: map<string, QRCodeRecord>, code: string, added: QRCodeRecord)
    requires code !in history
    ensures history.Keys <= history[code := added].Keys
    ensures forall c :: c in history ==> history[code := added][c] == history[c]
    ensures |history[code := added]| == |history| + 1
  {
    assert history[code := added].Keys == history.Keys + {code};
  }

  /** Repeated calls inside one interval are idempotent: once a call has
      issued a code, a later call without `forceNew` that comes before the
      next rotation is due returns the same code and writes nothing. */
  lemma RepeatedRequestsWithinInterval(st: Tables, sessionId: string, actor: Actor, forceNew: bool,
                                       code1: string, now1: int, code2: string, now2: int)
    requires WellFormed(st) && code1 !in st.qrCodes && code1 != ""
    requires var o1 := RotationOutcomeOf(st, sessionId, actor, forceNew, code1, now1);
      && o1.result.Ok?
      && code2 !in o1.post.qrCodes
      && now2 < DateHelpers.GetNextQRRotation(o1.post.sessions[sessionId].lastQRRotation.GetOr(0),
                                              st.sessions[sessionId].qrRotationMinutes)
    ensures var o1 := RotationOutcomeOf(st, sessionId, actor, forceNew, code1, now1);
      var o2 := RotationOutcomeOf(o1.post, sessionId, actor, false, code2, now2);
      && o2.result.Ok? && !o2.result.value.rotated
      && o2.result.value.code == o1.result.value.code
      && o2.post == o1.post
  {
    var o1 := RotationOutcomeOf(st, sessionId, actor, forceNew, code1, now1);
    var s1 := o1.post.sessions[sessionId];
    assert s1.qrRotationMinutes == st.sessions[sessionId].qrRotationMinutes;
    assert !RotationDue(s1, false, now2);
  }

  /** `generateQRCode` up to the image rendering: the permission and state
      checks, then, when due, the session update and the history insert. */
  method GenerateQRCode(db: Database, sessionId: string, actor: Actor, forceNew: bool,
                        freshCode: string, now: int) returns (r: Result<IssuedCode, Failure>)
    requires db.Valid() && freshCode !in db.qrCodes
    modifies db
    ensures db.Valid()
    ensures RotationOutcome(r, db.Contents()) ==
            RotationOutcomeOf(old(db.Contents()), sessionId, actor, forceNew, freshCode, now)
  {
    if sessionId !in db.sessions {
      return Err(SessionNotFound);
    }
    var session := db.sessions[sessionId];
    if !HostOrAdmin(session, actor) {
      return Err(NotPermitted);
    }
    if !session.isActive {
      return Err(SessionNotActive);
    }
    var interval := RotationIntervalMs(session);
    var code: string;
    var rotated := RotationDue(session, forceNew, now);
    if rotated {
      code := freshCode;
      db.sessions := db.sessions[sessionId := session.(currentQRCode := Some(freshCode), lastQRRotation := Some(now))];
      db.qrCodes := db.qrCodes[freshCode := QRCodeRecord(sessionId, freshCode, now, now + interval, 0)];
    } else {
      code := session.currentQRCode.value;
    }
    r := Ok(IssuedCode(code, now + interval, rotated));
  }

  // ---------------------------------------------------------------- closing

  /** The auto-checkout of `closeSession`: an open row of the closed session
      gets `checkOutTime = now`; every other row is left alone. */
  function AutoCheckout(a: Attendance, sessionId: string, now: int): (r: Attendance)
    ensures a.sessionId == sessionId && a.checkOutTime.None? ==> r == a.(checkOutTime := Some(now))
    ensures !(a.sessionId == sessionId && a.checkOutTime.None?) ==> r == a
  {
    if a.sessionId == sessionId && a.checkOutTime.None? then a.(checkOutTime := Some(now)) else a
  }

  datatype CloseOutcome = CloseOutcome(result: Result<Session, Failure>, post: Tables)

  /** What `closeSession` answers and writes. */
  function CloseOutcomeOf(st: Tables, sessionId: string, actor: Actor, now: int): (o: CloseOutcome)
    requires WellFormed(st)
    ensures WellFormed(o.post)
    ensures o.result.Err? ==> o.post == st
    ensures o.result == Err(SessionNotFound) <==> sessionId !in st.sessions
    ensures o.result == Err(NotPermitted) <==>
      sessionId in st.sessions && !HostOrAdmin(st.sessions[sessionId], actor)
    ensures o.result.Err? ==> o.result.error in {SessionNotFound, NotPermitted}
    ensures o.result.Ok? ==>
      && o.result.value == st.sessions[sessionId].(isActive := false, endTime := now)
      && o.post.sessions == st.sessions[sessionId := o.result.value]
      && o.post.environments == st.environments && o.post.qrCodes == st.qrCodes
      && o.post.notifications == st.notifications
      && o.post.attendances.Keys == st.attendances.Keys
      // exactly the open rows of this session are checked out, at `now`
      && (forall k :: k in st.attendances && k.0 == sessionId && st.attendances[k].checkOutTime.None?
            ==> o.post.attendances[k] == st.attendances[k].(checkOutTime := Some(now)))
      && (forall k :: k in st.attendances && !(k.0 == sessionId && st.attendances[k].checkOutTime.None?)
            ==> o.post.attendances[k] == st.attendances[k])
      // so no row of the closed session is left open
      && (forall k :: k in o.post.attendances && k.0 == sessionId ==> o.post.attendances[k].checkOutTime.Some?)
  {
    if sessionId !in st.sessions then CloseOutcome(Err(SessionNotFound), st)
    else
      var s := st.sessions[sessionId];
      if !HostOrAdmin(s, actor) then CloseOutcome(Err(NotPermitted), st)
      else
        var closed := s.(isActive := false, endTime := now);
        var rows := map k | k in st.attendances :: AutoCheckout(st.attendances[k], sessionId, now);
        CloseOutcome(Ok(closed), st.(sessions := st.sessions[sessionId := closed], attendances := rows))
  }

  /** `closeSession`: the session update, then the bulk check-out. */
  method CloseSession(db: Database, sessionId: string, actor: Actor, now: int)
      returns (r: Result<Session, Failure>)
    requires db.Valid()
    modifies db
    ensures db.Valid()
    ensures CloseOutcome(r, db.Contents()) == CloseOutcomeOf(old(db.Contents()), sessionId, actor, now)
  {
    if sessionId !in db.sessions {
      return Err(SessionNotFound);
    }
    var session := db.sessions[sessionId];
    if !HostOrAdmin(session, actor) {
      return Err(NotPermitted);
    }
    var closed := session.(isActive := false, endTime := now);
    db.sessions := db.sessions[sessionId := closed];
    db.attendances := map k | k in db.attendances :: AutoCheckout(db.attendances[k], sessionId, now);
    r := Ok(closed);
  }

  // --------------------------------------------------------------- deleting

  /** The session has at least one attendance row. */
  predicate HasAttendance(st: Tables, sessionId: string) {
    exists k :: k in st.attendances && k.0 == sessionId
  }

  /** `deleteSession` either deactivates the session (it has attendance) or
      removes it. */
  datatype Deletion = Deactivated | Deleted

  datatype DeleteOutcome = DeleteOutcome(result: Result<Deletion, Failure>, post: Tables)

  /** The QR history without the records of one session. */
  function HistoryWithout(qrCodes: map<string, QRCodeRecord>, sessionId: string): (r: map<string, QRCodeRecord>)
    ensures forall c :: c in r <==> c in qrCodes && qrCodes[c].sessionId != sessionId
    ensures forall c :: c in r ==> r[c] == qrCodes[c]
  {
    map c | c in qrCodes && qrCodes[c].sessionId != sessionId :: qrCodes[c]
  }

  /** What `deleteSession` answers and writes. The history records of a
      removed session go with it (a cascading foreign key is assumed). */
  function DeleteOutcomeOf(st: Tables, sessionId: string, actor: Actor): (o: DeleteOutcome)
    requires WellFormed(st)
    ensures WellFormed(o.post)
    ensures o.result.Err? ==> o.post == st
    ensures o.result == Err(SessionNotFound) <==> sessionId !in st.sessions
    ensures o.result == Err(NotPermitted) <==>
      sessionId in st.sessions && !HostOrAdmin(st.sessions[sessionId], actor)
    ensures o.result == Ok(Deactivated) <==>
      sessionId in st.sessions && HostOrAdmin(st.sessions[sessionId], actor) && HasAttendance(st, sessionId)
    ensures o.result == Ok(Deleted) <==>
      sessionId in st.sessions && HostOrAdmin(st.sessions[sessionId], actor) && !HasAttendance(st, sessionId)
    ensures o.result == Ok(Deactivated) ==>
      o.post == st.(sessions := st.sessions[sessionId := st.sessions[sessionId].(isActive := false)])
    ensures o.result == Ok(Deleted) ==>
      && o.post.sessions == st.sessions - {sessionId}
      && o.post.qrCodes == HistoryWithout(st.qrCodes, sessionId)
      && o.post.attendances == st.attendances
      && o.post.environments == st.environments && o.post.notifications == st.notifications
    // attendance rows are never deleted
    ensures o.post.attendances == st.attendances
  {
    if sessionId !in st.sessions then DeleteOutcome(Err(SessionNotFound), st)
    else
      var s := st.sessions[sessionId];
      if !HostOrAdmin(s, actor) then DeleteOutcome(Err(NotPermitted), st)
      else if HasAttendance(st, sessionId) then
        DeleteOutcome(Ok(Deactivated), st.(sessions := st.sessions[sessionId := s.(isActive := false)]))
      else
        DeleteOutcome(Ok(Deleted), st.(sessions := st.sessions - {sessionId},
                                       qrCodes := HistoryWithout(st.qrCodes, sessionId)))
  }

  /** `deleteSession`. */
  method DeleteSession(db: Database, sessionId: string, actor: Actor) returns (r: Result<Deletion, Failure>)
    requires db.Valid()
    modifies db
    ensures db.Valid()
    ensures DeleteOutcome(r, db.Contents()) == DeleteOutcomeOf(old(db.Contents()), sessionId, actor)
  {
    if sessionId !in db.sessions {
      return Err(SessionNotFound);
    }
    var session := db.sessions[sessionId];
    if !HostOrAdmin(session, actor) {
      return Err(NotPermitted);
    }
    if HasAttendance(db.Contents(), sessionId) {
      db.sessions := db.sessions[sessionId := session.(isActive := false)];
      return Ok(Deactivated);
    }
    db.sessions := db.sessions - {sessionId};
    db.qrCodes := HistoryWithout(db.qrCodes, sessionId);
    r := Ok(Deleted);
  }

  // --------------------------------------------------------------- updating

  /** The fields `updateSession` may change; an absent field is left alone.
      `hostName` may be set to null. */
  datatype SessionUpdate = SessionUpdate(
    name: Option<string>,
    kind: Option<SessionType>,
    allowExternals: Option<bool>,
    hostName: Option<Option<string>>,
    startTime: Option<int>,
    endTime: Option<int>,
    qrRotationMinutes: Option<int>,
    isActive: Option<bool>)

  /** The session with the given fields written over it. */
  function Patched(s: Session, u: SessionUpdate): (r: Session)
    ensures r.id == s.id && r.environmentId == s.environmentId && r.hostId == s.hostId
    ensures r.currentQRCode == s.currentQRCode && r.lastQRRotation == s.lastQRRotation
    ensures r.startTime == u.startTime.GetOr(s.startTime) && r.endTime == u.endTime.GetOr(s.endTime)
    ensures r.isActive == u.isActive.GetOr(s.isActive)
    ensures r.name == u.name.GetOr(s.name) && r.kind == u.kind.GetOr(s.kind)
    ensures r.allowExternals == u.allowExternals.GetOr(s.allowExternals)
    ensures r.hostName == u.hostName.GetOr(s.hostName)
    ensures r.qrRotationMinutes == u.qrRotationMinutes.GetOr(s.qrRotationMinutes)
    ensures u == SessionUpdate(None, None, None, None, None, None, None, None) ==> r == s
  {
    s.(name := u.name.GetOr(s.name),
       kind := u.kind.GetOr(s.kind),
       allowExternals := u.allowExternals.GetOr(s.allowExternals),
       hostName := u.hostName.GetOr(s.hostName),
       startTime := u.startTime.GetOr(s.startTime),
       endTime := u.endTime.GetOr(s.endTime),
       qrRotationMinutes := u.qrRotationMinutes.GetOr(s.qrRotationMinutes),
       isActive := u.isActive.GetOr(s.isActive))
  }

  datatype UpdateOutcome = UpdateOutcome(result: Result<Session, Failure>, post: Tables)

  /** Some other stored session makes the new window unavailable. */
  predicate UpdateTaken(st: Tables, sessionId: string, environmentId: string, s: int, e: int) {
    exists id :: id in st.sessions && UpdateClash(st.sessions[id], sessionId, environmentId, s, e)
  }

  /** What `updateSession` answers and writes. */
  function UpdateOutcomeOf(st: Tables, sessionId: string, actor: Actor, u: SessionUpdate): (o: UpdateOutcome)
    requires WellFormed(st)
    ensures WellFormed(o.post)
    ensures o.result.Err? ==> o.post == st
    ensures o.result == Err(SessionNotFound) <==> sessionId !in st.sessions
    ensures o.result == Err(NotPermitted) <==>
      sessionId in st.sessions && !HostOrAdmin(st.sessions[sessionId], actor)
    // availability is checked only when a new start or end is given, and
    // refuses whenever the update query finds another session
    ensures o.result == Err(NewScheduleConflicts) <==>
      && sessionId in st.sessions && HostOrAdmin(st.sessions[sessionId], actor)
      && (u.startTime.Some? || u.endTime.Some?)
      && var s := st.sessions[sessionId];
         UpdateTaken(st, sessionId, s.environmentId, u.startTime.GetOr(s.startTime), u.endTime.GetOr(s.endTime))
    ensures o.result.Err? ==> o.result.error in {SessionNotFound, NotPermitted, NewScheduleConflicts}
    ensures o.result.Ok? ==>
      && o.result.value == Patched(st.sessions[sessionId], u)
      && o.post == st.(sessions := st.sessions[sessionId := o.result.value])
  {
    if sessionId !in st.sessions then UpdateOutcome(Err(SessionNotFound), st)
    else
      var s := st.sessions[sessionId];
      if !HostOrAdmin(s, actor) then UpdateOutcome(Err(NotPermitted), st)
      else if (u.startTime.Some? || u.endTime.Some?)
              && UpdateTaken(st, sessionId, s.environmentId, u.startTime.GetOr(s.startTime), u.endTime.GetOr(s.endTime))
      then UpdateOutcome(Err(NewScheduleConflicts), st)
      else
        var s' := Patched(s, u);
        UpdateOutcome(Ok(s'), st.(sessions := st.sessions[sessionId := s']))
  }

  /** The update query lets a new window through that lies strictly inside
      an active session of the same room: [10, 20) inside [0, 100). */
  lemma UpdateMissesEnclosingSession()
    ensures var existing := Session("a", "room", "Clase", Clase, false, None, None, 0, 100, 3,
                                    Some("QR-a"), Some(0), true);
      && !UpdateClash(existing, "b", "room", 10, 20)
      && BookingClash(existing, "room", 10, 20)
      && DateHelpers.HasScheduleConflict(0, 100, 10, 20)
  {
  }

  /** `updateSession`. */
  method UpdateSession(db: Database, sessionId: string, actor: Actor, u: SessionUpdate)
      returns (r: Result<Session, Failure>)
    requires db.Valid()
    modifies db
    ensures db.Valid()
    ensures UpdateOutcome(r, db.Contents()) == UpdateOutcomeOf(old(db.Contents()), sessionId, actor, u)
  {
    if sessionId !in db.sessions {
      return Err(SessionNotFound);
    }
    var session := db.sessions[sessionId];
    if !HostOrAdmin(session, actor) {
      return Err(NotPermitted);
    }
    if u.startTime.Some? || u.endTime.Some? {
      var newStart := u.startTime.GetOr(session.startTime);
      var newEnd := u.endTime.GetOr(session.endTime);
      if UpdateTaken(db.Contents(), sessionId, session.environmentId, newStart, newEnd) {
        return Err(NewScheduleConflicts);
      }
    }
    var updated := Patched(session, u);
    db.sessions := db.sessions[sessionId := updated];
    r := Ok(updated);
  }

  // ------------------------------------------------------------ statistics

  /** The `stats` block of `getSessionAttendance`. */
  datatype AttendanceStats = AttendanceStats(
    total: nat, students: nat, externals: nat, suspicious: nat, stillPresent: nat)

  function SessionAttendanceStats(rows: seq<Attendance>): (r: AttendanceStats)
    ensures r.total == |rows|
    ensures r.students + r.externals == r.total
    ensures r.suspicious <= r.total && r.stillPresent <= r.total
    ensures r.students == AttendanceQueries.Count(rows, AttendanceQueries.FromStudent)
    ensures r.externals == AttendanceQueries.Count(rows, AttendanceQueries.FromExternal)
    ensures r.suspicious == AttendanceQueries.Count(rows, AttendanceQueries.Suspicious)
    ensures r.stillPresent == AttendanceQueries.Count(rows, AttendanceQueries.StillPresent)
  {
    AttendanceQueries.StudentsAndExternalsPartition(rows);
    AttendanceStats(
      |rows|,
      AttendanceQueries.Count(rows, AttendanceQueries.FromStudent),
      AttendanceQueries.Count(rows, AttendanceQueries.FromExternal),
      AttendanceQueries.Count(rows, AttendanceQueries.Suspicious),
      AttendanceQueries.Count(rows, AttendanceQueries.StillPresent))
  }
}

=== FILE: session_validation.dfy ===
/** `src/validations/session.validation.ts`: the request schemas of the
    session routes, as predicates on the request as sent. */
module SessionValidation {
  import opened Wrappers
  import opened FieldRules
  import opened Store
  import SessionController

  /** The accepted values of `type`. */
  const SessionTypeNames: set<string> := {"CLASE", "CONFERENCIA", "CAPACITACION", "EVENTO"}

  /** The name a session type is sent and stored as. */
  function TypeName(k: SessionType): (s: string)
    ensures s in SessionTypeNames
  {
    match k
    case Clase => "CLASE"
    case Conferencia => "CONFERENCIA"
    case Capacitacion => "CAPACITACION"
    case Evento => "EVENTO"
  }

  /** The session type a name stands for, if any. */
  function ParseType(s: string): (k: Option<SessionType>)
    ensures k.Some? <==> s in SessionTypeNames
    ensures k.Some? ==> TypeName(k.value) == s
  {
    if s == "CLASE" then Some(Clase)
    else if s == "CONFERENCIA" then Some(Conferencia)
    else if s == "CAPACITACION" then Some(Capacitacion)
    else if s == "EVENTO" then Some(Evento)
    else None
  }

  /** Every type name reads back as the same type. */
  lemma ParseTypeName(k: SessionType)
    ensures ParseType(TypeName(k)) == Some(k)
  {
  }

  /** A session name: 3 to 200 characters. */
  predicate NameLengthOk(f: Field<string>) {
    f.Given? && 3 <= |f.value| <= 200
  }

  /** The body of `POST /sessions`. */
  datatype CreateSessionBody = CreateSessionBody(
    environmentId: Field<string>,
    name: Field<string>,
    kind: Field<string>,
    allowExternals: Field<bool>,
    hostName: Field<string>,
    startTime: Field<int>,
    endTime: Field<int>,
    qrRotationMinutes: Field<real>)

  /** `hostName` is allowed (and optional) only when `allowExternals` is
      true; otherwise it must be left out. */
  predicate HostNameAllowed(b: CreateSessionBody) {
    if b.allowExternals == Given(true) then OptionalString(b.hostName) else b.hostName.Absent?
  }

  /** `createSessionSchema` accepts the body. */
  function CreateSessionValid(b: CreateSessionBody): (valid: bool)
    ensures valid ==> b.startTime.Given? && b.endTime.Given? && b.startTime.value < b.endTime.value
    ensures valid ==> b.environmentId.Given? && b.environmentId.value != ""
    ensures valid ==> b.name.Given? && 3 <= |b.name.value| <= 200
    ensures valid && b.hostName.Given? ==> b.allowExternals == Given(true)
    ensures valid && b.qrRotationMinutes.Given? ==> 1.0 <= b.qrRotationMinutes.value <= 30.0
  {
    && RequiredString(b.environmentId)
    && NameLengthOk(b.name)
    && OneOf(b.kind, SessionTypeNames)
    && OptionalValue(b.allowExternals)
    && HostNameAllowed(b)
    && b.startTime.Given?
    && b.endTime.Given? && b.endTime.value > b.startTime.value
    && OptionalIntegerIn(b.qrRotationMinutes, 1, 30)
  }

  /** An accepted body as the booking handler reads it: absent fields stay
      absent (the handler supplies its own defaults). */
  function AsCreateRequest(b: CreateSessionBody): (req: SessionController.CreateRequest)
    requires CreateSessionValid(b)
    ensures req.startTime < req.endTime
    ensures 3 <= |req.name| <= 200
    ensures TypeName(req.kind) == b.kind.value
    ensures req.hostName.Some? ==> req.allowExternals == Some(true)
    ensures req.qrRotationMinutes.Some? ==> 1 <= req.qrRotationMinutes.value <= 30
    ensures req.qrRotationMinutes.None? <==> b.qrRotationMinutes.Absent?
  {
    SessionController.CreateRequest(
      b.environmentId.value,
      b.name.value,
      ParseType(b.kind.value).value,
      if b.allowExternals.Given? then Some(b.allowExternals.value) else None,
      if b.hostName.Given? then Some(b.hostName.value) else None,
      b.startTime.value,
      b.endTime.value,
      if b.qrRotationMinutes.Given? then Some(b.qrRotationMinutes.value.Floor) else None)
  }

  /** A session booked from an accepted body has a well-formed window, a
      rotation interval of 1 to 30 minutes (3 when none was sent) and a host
      name only when externals are allowed. */
  lemma AcceptedBookingIsWellFormed(st: Tables, b: CreateSessionBody, actor: SessionController.Actor,
                                    newId: string, code: string, now: int)
    requires CreateSessionValid(b)
    requires WellFormed(st) && newId !in st.sessions && code !in st.qrCodes
    ensures var o := SessionController.CreateOutcomeOf(st, AsCreateRequest(b), actor, newId, code, now);
      o.result.Ok? ==>
        var s := o.result.value;
        && s.startTime < s.endTime
        && 1 <= s.qrRotationMinutes <= 30
        && (b.qrRotationMinutes.Absent? ==> s.qrRotationMinutes == 3)
        && (s.hostName.Some? ==> s.allowExternals)
        && (s.allowExternals <==> b.allowExternals == Given(true))
  {
  }

  /** The path and body of `PUT /sessions/:sessionId`. */
  datatype UpdateSessionBody = UpdateSessionBody(
    sessionId: Field<string>,
    name: Field<string>,
    kind: Field<string>,
    allowExternals: Field<bool>,
    hostName: Field<string>,
    startTime: Field<int>,
    endTime: Field<int>,
    qrRotationMinutes: Field<real>,
    isActive: Field<bool>)

  /** The body sends at least one field (`.min(1)`). */
  predicate SendsSomeField(b: UpdateSessionBody) {
    || Present(b.name) || Present(b.kind) || Present(b.allowExternals) || Present(b.hostName)
    || Present(b.startTime) || Present(b.endTime) || Present(b.qrRotationMinutes) || Present(b.isActive)
  }

  /** `updateSessionSchema` accepts the request. */
  function UpdateSessionValid(b: UpdateSessionBody): (valid: bool)
    ensures valid ==> b.sessionId.Given? && b.sessionId.value != ""
    // a new start always comes with a new end
    ensures valid && b.startTime.Given? ==> b.endTime.Given?
    ensures valid && !b.name.Absent? ==> b.name.Given? && 3 <= |b.name.value| <= 200
    ensures valid && b.qrRotationMinutes.Given? ==> 1.0 <= b.qrRotationMinutes.value <= 30.0
    ensures valid ==> SendsSomeField(b)
  {
    && RequiredString(b.sessionId)
    && (b.name.Absent? || NameLengthOk(b.name))
    && (b.kind.Absent? || OneOf(b.kind, SessionTypeNames))
    && OptionalValue(b.allowExternals)
    && (b.hostName.Null? || OptionalString(b.hostName))
    && OptionalValue(b.startTime)
    && (if Present(b.startTime) then b.endTime.Given? else OptionalValue(b.endTime))
    && OptionalIntegerIn(b.qrRotationMinutes, 1, 30)
    && OptionalValue(b.isActive)
    && SendsSomeField(b)
  }

  function OptionOf<T>(f: Field<T>): (o: Option<T>)
    ensures o.Some? <==> f.Given?
    ensures o.Some? ==> o.value == f.value
  {
    if f.Given? then Some(f.value) else None
  }

  /** An accepted update as the handler applies it: the fields sent, with a
      null `hostName` clearing the host name. */
  function AsSessionUpdate(b: UpdateSessionBody): (u: SessionController.SessionUpdate)
    requires UpdateSessionValid(b)
    ensures u != SessionController.SessionUpdate(None, None, None, None, None, None, None, None)
    ensures u.startTime.Some? ==> u.endTime.Some?
    ensures u.qrRotationMinutes.Some? ==> 1 <= u.qrRotationMinutes.value <= 30
    ensures b.hostName.Null? ==> u.hostName == Some(None)
    ensures u.name.Some? ==> 3 <= |u.name.value| <= 200
  {
    SessionController.SessionUpdate(
      OptionOf(b.name),
      if b.kind.Given? then ParseType(b.kind.value) else None,
      OptionOf(b.allowExternals),
      if b.hostName.Null? then Some(None) else if b.hostName.Given? then Some(Some(b.hostName.value)) else None,
      OptionOf(b.startTime),
      OptionOf(b.endTime),
      if b.qrRotationMinutes.Given? then Some(b.qrRotationMinutes.value.Floor) else None,
      OptionOf(b.isActive))
  }

  /** Unlike the create schema, the update schema does not compare the two
      times: an end before the start is accepted. */
  lemma UpdateAcceptsInvertedWindow()
    ensures var b := UpdateSessionBody(Given("s1"), Absent, Absent, Absent, Absent,
                                       Given(2000), Given(1000), Absent, Absent);
      UpdateSessionValid(b) && AsSessionUpdate(b).endTime.value < AsSessionUpdate(b).startTime.value
  {
  }

  /** A boolean field of a JSON body as sent: a JSON boolean, or a string,
      which `Joi.boolean()` accepts when it reads `true` or `false` in any
      letter case. */
  datatype SentBoolean = Literal(b: bool) | Text(s: string)

  /** `Joi.boolean()` accepts the value. */
  predicate BooleanLike(v: SentBoolean) {
    v.Literal? || BooleanText(v.s)
  }

  /** The handler's truth test of the raw value: a non-empty string is
      truthy, whatever it says. */
  predicate JsTruthy(v: SentBoolean) {
    if v.Literal? then v.b else v.s != ""
  }

  /** `generateQRSchema` accepts the body; then the session id and whether
      the handler forces a rotation. The handler reads the raw body
      (`forceNew = false` when left out), so the string `"false"`, which the
      schema accepts, forces a rotation. */
  function GenerateQRRequest(sessionId: Field<string>, forceNew: Field<SentBoolean>): (r: Option<(string, bool)>)
    ensures r.Some? <==> RequiredString(sessionId) && (forceNew.Absent? || (forceNew.Given? && BooleanLike(forceNew.value)))
    ensures r.Some? ==> r.value.0 == sessionId.value
    ensures r.Some? ==> (r.value.1 <==> forceNew == Given(Literal(true)) || (forceNew.Given? && forceNew.value.Text?))
  {
    if RequiredString(sessionId) && (forceNew.Absent? || (forceNew.Given? && BooleanLike(forceNew.value))) then
      Some((sessionId.value, forceNew.Given? && JsTruthy(forceNew.value)))
    else None
  }

  /** The string `"false"` passes the schema and still forces a rotation. */
  lemma TextFalseForcesRotation()
    ensures GenerateQRRequest(Given("s1"), Given(Text("false"))) == Some(("s1", true))
    ensures GenerateQRRequest(Given("s1"), Given(Literal(false))) == Some(("s1", false))
    ensures GenerateQRRequest(Given("s1"), Given(Text("FALSE"))) == Some(("s1", true))
  {
  }

  /** The query string of `GET /sessions`. */
  datatype SessionQuery = SessionQuery(
    environmentId: Field<string>,
    kind: Field<string>,
    isActive: Field<bool>,
    hostId: Field<string>,
    date: Field<int>,
    startDate: Field<int>,
    endDate: Field<int>,
    page: Field<real>,
    limit: Field<real>,
    search: Field<string>)

  /** `sessionQuerySchema` accepts the query; the page and limit it stands
      for, defaults included. */
  function SessionQueryPaging(q: SessionQuery): (r: Option<(int, int)>)
    ensures r.Some? <==>
      && OptionalString(q.environmentId) && (q.kind.Absent? || OneOf(q.kind, SessionTypeNames))
      && OptionalValue(q.isActive) && OptionalString(q.hostId) && OptionalValue(q.date)
      && DateRange(q.startDate, q.endDate) && OptionalValue(q.search)
      && OptionalIntegerFrom(q.page, 1) && OptionalIntegerIn(q.limit, 1, 100)
    ensures r.Some? ==> r == Pagination(q.page, q.limit)
    ensures r.Some? ==> r.value.0 >= 1 && 1 <= r.value.1 <= 100
    ensures r.Some? && q.page.Absent? ==> r.value.0 == 1
    ensures r.Some? && q.limit.Absent? ==> r.value.1 == 20
    ensures q.startDate.Given? && q.endDate.Given? && q.endDate.value <= q.startDate.value ==> r.None?
    ensures r.Some? ==> q.kind.Absent? || OneOf(q.kind, SessionTypeNames)
    // an empty search string is allowed, a null one is not
    ensures q.search.Null? ==> r.None?
  {
    if && OptionalString(q.environmentId)
       && (q.kind.Absent? || OneOf(q.kind, SessionTypeNames))
       && OptionalValue(q.isActive)
       && OptionalString(q.hostId)
       && OptionalValue(q.date)
       && DateRange(q.startDate, q.endDate)
       && OptionalValue(q.search)
    then Pagination(q.page, q.limit)
    else None
  }

  /** An empty search string is accepted. */
  lemma EmptySearchAccepted()
    ensures SessionQueryPaging(SessionQuery(Absent, Absent, Absent, Absent, Absent, Absent, Absent,
                                            Absent, Absent, Given(""))) == Some((1, 20))
  {
  }
}

=== FILE: sets.dfy ===
/** Facts about finite sets that the counting handlers share. */
module Sets {

  /** A subset is no larger than the set that holds it. */
  lemma SubsetCardinality<T>(s: set<T>, t: set<T>)
    requires s <= t
    ensures |s| <= |t|
  {
    assert t == s + (t - s);
  }
}

=== FILE: store.dfy ===
/** The persistent rows the session, QR and attendance controllers read and
    write, and the store that holds them. Times are integer milliseconds. */
module Store {
  import opened Wrappers

  /** The four values of the `type` column of a session. */
  datatype SessionType = Clase | Conferencia | Capacitacion | Evento

  /** A bookable room. */
  datatype Environment = Environment(name: string, isActive: bool)

  datatype Session = Session(
    id: string,
    environmentId: string,
    name: string,
    kind: SessionType,
    allowExternals: bool,
    hostId: Option<string>,
    hostName: Option<string>,
    startTime: int,
    endTime: int,
    qrRotationMinutes: int,
    currentQRCode: Option<string>,
    lastQRRotation: Option<int>,
    isActive: bool)

  /** One row of the QR history: a code and the window it was issued for. */
  datatype QRCodeRecord = QRCodeRecord(
    sessionId: string,
    code: string,
    validFrom: int,
    validUntil: int,
    scanCount: nat)

  /** Who an attendance row belongs to: a registered user or an external
      person (the two nullable foreign keys of the row, exactly one set). */
  datatype Attendee = Student(userId: string) | External(personId: string)

  datatype Attendance = Attendance(
    sessionId: string,
    attendee: Attendee,
    checkInTime: int,
    checkOutTime: Option<int>,
    isSuspicious: bool,
    suspiciousReason: Option<string>,
    ipAddress: string,
    deviceInfo: string)

  /** The unique key of an attendance row: (sessionId, attendee). */
  type AttendanceKey = (string, Attendee)

  /** A SUSPICIOUS_ATTENDANCE notification for a session's host. */
  datatype Notification = Notification(userId: string, sessionId: string, attendee: Attendee)

  /** The tables the protocol touches, as one value. */
  datatype Tables = Tables(
    environments: map<string, Environment>,
    sessions: map<string, Session>,
    qrCodes: map<string, QRCodeRecord>,
    attendances: map<AttendanceKey, Attendance>,
    notifications: seq<Notification>)

  /** Keys agree with the rows they index, and every QR record and attendance
      row belongs to a stored session (the foreign keys of the schema). */
  predicate WellFormed(st: Tables) {
    && (forall id :: id in st.sessions ==> st.sessions[id].id == id)
    && (forall c :: c in st.qrCodes ==>
          st.qrCodes[c].code == c && st.qrCodes[c].sessionId in st.sessions)
    && (forall k :: k in st.attendances ==>
          st.attendances[k].sessionId == k.0 && st.attendances[k].attendee == k.1
          && k.0 in st.sessions)
  }

  /** The database the controllers share. Each table is a field that the
      controller methods reassign. */
  class Database {
    var environments: map<string, Environment>
    var sessions: map<string, Session>
    var qrCodes: map<string, QRCodeRecord>
    var attendances: map<AttendanceKey, Attendance>
    var notifications: seq<Notification>

    function Contents(): Tables
      reads this
    {
      Tables(environments, sessions, qrCodes, attendances, notifications)
    }

    predicate Valid()
      reads this
    {
      WellFormed(Contents())
    }

    /** A store with the given rooms and no sessions yet. */
    constructor (rooms: map<string, Environment>)
      ensures Valid()
      ensures Contents() == Tables(rooms, map[], map[], map[], [])
    {
      environments := rooms;
      sessions := map[];
      qrCodes := map[];
      attendances := map[];
      notifications := [];
    }
  }
}

=== FILE: strings.dfy ===
/** The JavaScript string operations the core relies on: `split` on one
    separator character, `trim`, `startsWith` and `endsWith`. */
module Strings {

  /** `s.split(sep)` for a one-character separator: the pieces between
      separators, in order; an empty string gives one empty piece. */
  function Split(s: string, sep: char): (parts: seq<string>)
    ensures |parts| >= 1
    decreases |s|
  {
    if |s| == 0 then [""]
    else if s[0] == sep then [""] + Split(s[1..], sep)
    else
      var rest := Split(s[1..], sep);
      [[s[0]] + rest[0]] + rest[1..]
  }

  /** `parts.join(sep)`. */
  function Join(parts: seq<string>, sep: char): string
    requires |parts| >= 1
    decreases |parts|
  {
    if |parts| == 1 then parts[0] else parts[0] + [sep] + Join(parts[1..], sep)
  }

  /** Joining the pieces of a split gives back the original string. */
  lemma {:induction false} JoinSplit(s: string, sep: char)
    ensures Join(Split(s, sep), sep) == s
    decreases |s|
  {
    if |s| == 0 {
    } else if s[0] == sep {
      JoinSplit(s[1..], sep);
      assert Split(s, sep)[1..] == Split(s[1..], sep);
      assert s == [sep] + s[1..];
    } else {
      var rest := Split(s[1..], sep);
      JoinSplit(s[1..], sep);
      var parts := Split(s, sep);
      assert parts[0] == [s[0]] + rest[0];
      assert parts[1..] == rest[1..];
      if |rest| == 1 {
        assert Join(parts, sep) == [s[0]] + rest[0];
      } else {
        assert Join(parts, sep) == [s[0]] + rest[0] + [sep] + Join(rest[1..], sep);
        assert Join(rest, sep) == rest[0] + [sep] + Join(rest[1..], sep);
      }
      assert s == [s[0]] + s[1..];
    }
  }

  /** Splitting a join gives back the pieces, when no piece contains the
      separator. */
  lemma {:induction false} SplitJoin(parts: seq<string>, sep: char)
    requires |parts| >= 1
    requires forall i :: 0 <= i < |parts| ==> sep !in parts[i]
    ensures Split(Join(parts, sep), sep) == parts
    decreases |parts|
  {
    if |parts| == 1 {
      SplitWithoutSeparator(parts[0], sep);
    } else {
      SplitJoin(parts[1..], sep);
      SplitAtFirstSeparator(parts[0], Join(parts[1..], sep), sep);
      assert parts == [parts[0]] + parts[1..];
    }
  }

  /** No piece of a split contains the separator. */
  lemma {:induction false} SplitPartsHaveNoSeparator(s: string, sep: char)
    ensures forall i :: 0 <= i < |Split(s, sep)| ==> sep !in Split(s, sep)[i]
    decreases |s|
  {
    if |s| > 0 {
      SplitPartsHaveNoSeparator(s[1..], sep);
      var rest := Split(s[1..], sep);
      if s[0] != sep {
        assert sep !in rest[0];
        assert sep !in [s[0]] + rest[0];
      }
    }
  }

  /** A string without the separator splits into itself alone. */
  lemma {:induction false} SplitWithoutSeparator(s: string, sep: char)
    requires sep !in s
    ensures Split(s, sep) == [s]
    decreases |s|
  {
    if |s| > 0 {
      assert sep !in s[1..];
      SplitWithoutSeparator(s[1..], sep);
      assert s == [s[0]] + s[1..];
    }
  }

  /** Splitting `a + [sep] + b`, where `a` holds no separator, yields `a`
      followed by the pieces of `b`. */
  lemma {:induction false} SplitAtFirstSeparator(a: string, b: string, sep: char)
    requires sep !in a
    ensures Split(a + [sep] + b, sep) == [a] + Split(b, sep)
    decreases |a|
  {
    if |a| == 0 {
      assert a + [sep] + b == [sep] + b;
      assert ([sep] + b)[1..] == b;
    } else {
      assert sep !in a[1..];
      SplitAtFirstSeparator(a[1..], b, sep);
      assert (a + [sep] + b)[1..] == a[1..] + [sep] + b;
      assert a == [a[0]] + a[1..];
    }
  }

  /** `s.startsWith(prefix)`. */
  predicate StartsWith(s: string, prefix: string) {
    |prefix| <= |s| && s[..|prefix|] == prefix
  }

  /** `s.endsWith(suffix)`. */
  predicate EndsWith(s: string, suffix: string) {
    |suffix| <= |s| && s[|s| - |suffix|..] == suffix
  }

  /** The characters ECMAScript's `trim` removes: white space (including the
      space separators of Unicode category Zs and the byte order mark) and
      line terminators. */
  predicate IsTrimmable(c: char) {
    c == '\t' || c == '\n' || c == '\U{000B}' || c == '\U{000C}' || c == '\r' || c == ' '
    || c == '\U{00A0}' || c == '\U{1680}' || ('\U{2000}' <= c <= '\U{200A}')
    || c == '\U{2028}' || c == '\U{2029}' || c == '\U{202F}' || c == '\U{205F}'
    || c == '\U{3000}' || c == '\U{FEFF}'
  }

  function TrimStart(s: string): (r: string)
    ensures |r| <= |s| && r == s[|s| - |r|..]
    ensures r == [] || !IsTrimmable(r[0])
    ensures forall i :: 0 <= i < |s| - |r| ==> IsTrimmable(s[i])
    decreases |s|
  {
    if |s| > 0 && IsTrimmable(s[0]) then TrimStart(s[1..]) else s
  }

  function TrimEnd(s: string): (r: string)
    ensures |r| <= |s| && r == s[..|r|]
    ensures r == [] || !IsTrimmable(r[|r| - 1])
    ensures forall i :: |r| <= i < |s| ==> IsTrimmable(s[i])
    decreases |s|
  {
    if |s| > 0 && IsTrimmable(s[|s| - 1]) then TrimEnd(s[..|s| - 1]) else s
  }

  /** Every character of `s[lo..hi]` is trimmable. */
  predicate AllTrimmable(s: string, lo: int, hi: int)
    requires 0 <= lo <= hi <= |s|
  {
    forall k :: lo <= k < hi ==> IsTrimmable(s[k])
  }

  /** `s.trim()`: drops the trimmable characters at both ends and keeps
      everything between them. */
  function Trim(s: string): (r: string)
    ensures |r| <= |s|
    ensures r == [] || (!IsTrimmable(r[0]) && !IsTrimmable(r[|r| - 1]))
    ensures r == [] <==> forall i :: 0 <= i < |s| ==> IsTrimmable(s[i])
    ensures |s| > 0 && !IsTrimmable(s[0]) && !IsTrimmable(s[|s| - 1]) ==> r == s
    ensures exists i, j ::
      && 0 <= i <= j <= |s| && r == s[i..j]
      && AllTrimmable(s, 0, i) && AllTrimmable(s, j, |s|)
  {
    var t := TrimEnd(s);
    var r := TrimStart(t);
    TrimIsSlice(s);
    TrimEmptyWhenAllTrimmable(s);
    TrimKeepsTrimmed(s);
    assert 0 <= |t| - |r| <= |t| <= |s| && r == s[|t| - |r|..|t|];
    r
  }

  /** A string with no trimmable character at either end is kept whole. */
  lemma TrimKeepsTrimmed(s: string)
    ensures |s| > 0 && !IsTrimmable(s[0]) && !IsTrimmable(s[|s| - 1]) ==> TrimStart(TrimEnd(s)) == s
  {
  }

  /** Trimming keeps the slice between the trimmable ends. */
  lemma TrimIsSlice(s: string)
    ensures var r := TrimStart(TrimEnd(s));
      && AllTrimmable(s, 0, |TrimEnd(s)| - |r|) && AllTrimmable(s, |TrimEnd(s)|, |s|)
      && r == s[|TrimEnd(s)| - |r|..|TrimEnd(s)|]
  {
    var t := TrimEnd(s);
    var r := TrimStart(t);
    var i, j := |t| - |r|, |t|;
    assert t == s[..j];
    forall k | 0 <= k < i ensures IsTrimmable(s[k]) { assert s[k] == t[k]; }
  }

  /** Trimming leaves nothing exactly when every character is trimmable. */
  lemma TrimEmptyWhenAllTrimmable(s: string)
    ensures TrimStart(TrimEnd(s)) == [] <==> forall i :: 0 <= i < |s| ==> IsTrimmable(s[i])
  {
    var t := TrimEnd(s);
    if TrimStart(t) == [] {
      forall i | 0 <= i < |s| ensures IsTrimmable(s[i]) {
        if i < |t| { assert IsTrimmable(t[i]); }
      }
    }
  }
}

=== FILE: user_controller.dfy ===
/** `src/controllers/user.controller.ts`: the guards of user administration
    (a caller may not deactivate themself, and the last administrator may
    not be deactivated), the partial update, and the pagination and
    counting arithmetic of the listings. */
module UserController {
  import opened Wrappers
  import Sets

  /** The name of the administrator role. */
  const Admin: string := "ADMIN"

  datatype StudentProfile = StudentProfile(fullName: string, phoneNumber: Option<string>, careerId: string)

  datatype User = User(
    id: string,
    username: string,
    name: string,
    email: string,
    roleId: string,
    isActive: bool,
    profile: Option<StudentProfile>)

  /** The users, the roles by id (each role's name) and the ids of the
      careers a student profile may point to. */
  datatype Accounts = Accounts(users: map<string, User>, roles: map<string, string>, careers: set<string>)

  /** Keys agree with the rows, every user has a stored role, and every
      student profile names a stored career. */
  predicate WellFormed(a: Accounts) {
    forall id :: id in a.users ==>
      && a.users[id].id == id && a.users[id].roleId in a.roles
      && (a.users[id].profile.Some? ==> a.users[id].profile.value.careerId in a.careers)
  }

  /** The user's role is ADMIN. */
  predicate IsAdmin(a: Accounts, u: User) {
    u.roleId in a.roles && a.roles[u.roleId] == Admin
  }

  /** The active administrators (what `user.count` with role ADMIN and
      `isActive: true` counts). */
  function ActiveAdmins(a: Accounts): (ids: set<string>)
    ensures forall id :: id in ids <==> id in a.users && a.users[id].isActive && IsAdmin(a, a.users[id])
  {
    set id | id in a.users && a.users[id].isActive && IsAdmin(a, a.users[id])
  }

  /** Why an administration request was refused. */
  datatype Refusal =
    | UserNotFound     // 404 'Usuario no encontrado'
    | OwnAccount       // 400 'No puedes eliminar/desactivar tu propio usuario'
    | LastAdmin        // 400 'No se puede eliminar/desactivar el último administrador ...'
    | ServerError      // 500, e.g. a role id that does not exist

  function RefusalStatus(r: Refusal): (code: int)
    ensures code == 404 <==> r == UserNotFound
    ensures code == 500 <==> r == ServerError
    ensures code == 400 <==> r == OwnAccount || r == LastAdmin
  {
    match r
    case UserNotFound => 404
    case OwnAccount => 400
    case LastAdmin => 400
    case ServerError => 500
  }

  datatype AdminOutcome = AdminOutcome(result: Result<User, Refusal>, post: Accounts)

  /** Deactivating one user: only its `isActive` changes. */
  function Deactivated(a: Accounts, id: string): (post: Accounts)
    requires id in a.users
    ensures post.roles == a.roles && post.careers == a.careers && post.users.Keys == a.users.Keys
    ensures post.users[id] == a.users[id].(isActive := false)
    ensures forall other :: other in a.users && other != id ==> post.users[other] == a.users[other]
  {
    a.(users := a.users[id := a.users[id].(isActive := false)])
  }

  /** What `deleteUser` answers and writes: a soft delete. */
  function DeleteOutcomeOf(a: Accounts, id: string, callerId: string): (o: AdminOutcome)
    requires WellFormed(a)
    ensures WellFormed(o.post)
    ensures o.result.Err? ==> o.post == a
    ensures o.result == Err(UserNotFound) <==> id !in a.users
    ensures o.result == Err(OwnAccount) <==> id in a.users && id == callerId
    // an ADMIN target is refused while at most one admin is active, even
    // when the target itself is inactive
    ensures o.result == Err(LastAdmin) <==>
      id in a.users && id != callerId && IsAdmin(a, a.users[id]) && |ActiveAdmins(a)| <= 1
    // those are the only refusals: every other delete succeeds
    ensures o.result.Err? ==> o.result.error in {UserNotFound, OwnAccount, LastAdmin}
    ensures o.result.Ok? ==> o.post == Deactivated(a, id) && o.result.value == o.post.users[id]
    // the row is kept
    ensures o.post.users.Keys == a.users.Keys
  {
    if id !in a.users then AdminOutcome(Err(UserNotFound), a)
    else if id == callerId then AdminOutcome(Err(OwnAccount), a)
    else if IsAdmin(a, a.users[id]) && |ActiveAdmins(a)| <= 1 then AdminOutcome(Err(LastAdmin), a)
    else
      var post := Deactivated(a, id);
      AdminOutcome(Ok(post.users[id]), post)
  }

  /** What `toggleUserStatus` answers and writes. */
  function ToggleOutcomeOf(a: Accounts, id: string, callerId: string): (o: AdminOutcome)
    requires WellFormed(a)
    ensures WellFormed(o.post)
    ensures o.result.Err? ==> o.post == a
    ensures o.result == Err(UserNotFound) <==> id !in a.users
    ensures o.result == Err(OwnAccount) <==> id in a.users && id == callerId
    ensures o.result == Err(LastAdmin) <==>
      && id in a.users && id != callerId
      && IsAdmin(a, a.users[id]) && a.users[id].isActive && |ActiveAdmins(a)| <= 1
    ensures o.result.Err? ==> o.result.error in {UserNotFound, OwnAccount, LastAdmin}
    // the status flips and nothing else changes
    ensures o.result.Ok? ==>
      && o.result.value == a.users[id].(isActive := !a.users[id].isActive)
      && o.post == a.(users := a.users[id := o.result.value])
  {
    if id !in a.users then AdminOutcome(Err(UserNotFound), a)
    else if id == callerId then AdminOutcome(Err(OwnAccount), a)
    else
      var u := a.users[id];
      if IsAdmin(a, u) && u.isActive && |ActiveAdmins(a)| <= 1 then AdminOutcome(Err(LastAdmin), a)
      else
        var flipped := u.(isActive := !u.isActive);
        AdminOutcome(Ok(flipped), a.(users := a.users[id := flipped]))
  }

  /** Deactivating a user removes it, and only it, from the active admins. */
  lemma DeactivatedActiveAdmins(a: Accounts, id: string)
    requires id in a.users
    ensures ActiveAdmins(Deactivated(a, id)) == ActiveAdmins(a) - {id}
  {
  }

  /** `deleteUser` never leaves the system without an active
      administrator when it had one. */
  lemma DeleteKeepsAnAdmin(a: Accounts, id: string, callerId: string)
    requires WellFormed(a) && |ActiveAdmins(a)| >= 1
    ensures |ActiveAdmins(DeleteOutcomeOf(a, id, callerId).post)| >= 1
  {
    var o := DeleteOutcomeOf(a, id, callerId);
    if o.result.Ok? {
      DeactivatedActiveAdmins(a, id);
      if id in ActiveAdmins(a) {
        assert |ActiveAdmins(a) - {id}| == |ActiveAdmins(a)| - 1;
      } else {
        assert ActiveAdmins(a) - {id} == ActiveAdmins(a);
      }
    }
  }

  /** `toggleUserStatus` never leaves the system without an active
      administrator when it had one. */
  lemma ToggleKeepsAnAdmin(a: Accounts, id: string, callerId: string)
    requires WellFormed(a) && |ActiveAdmins(a)| >= 1
    ensures |ActiveAdmins(ToggleOutcomeOf(a, id, callerId).post)| >= 1
  {
    var o := ToggleOutcomeOf(a, id, callerId);
    if o.result.Ok? {
      if a.users[id].isActive {
        assert o.post == Deactivated(a, id);
        DeactivatedActiveAdmins(a, id);
        if id in ActiveAdmins(a) {
          assert |ActiveAdmins(a) - {id}| == |ActiveAdmins(a)| - 1;
        } else {
          assert ActiveAdmins(a) - {id} == ActiveAdmins(a);
        }
      } else {
        assert ActiveAdmins(a) <= ActiveAdmins(o.post);
        Sets.SubsetCardinality(ActiveAdmins(a), ActiveAdmins(o.post));
      }
    }
  }

  /** The fields of `updateUser`'s body; `None` stands for a field left
      undefined. */
  datatype UserChanges = UserChanges(
    name: Option<string>,
    email: Option<string>,
    isActive: Option<bool>,
    roleId: Option<string>,
    fullName: Option<string>,
    phoneNumber: Option<string>,
    careerId: Option<string>)

  /** The student profile after `updateUser`: it is written only when the
      user has one and one of `fullName`, `phoneNumber`, `careerId` is
      truthy; then `fullName` and `careerId` are copied when truthy and
      `phoneNumber` whenever it is sent (even empty). */
  function UpdatedProfile(p: Option<StudentProfile>, c: UserChanges): (r: Option<StudentProfile>)
    ensures r.Some? <==> p.Some?
    ensures !(Truthy(c.fullName) || Truthy(c.phoneNumber) || Truthy(c.careerId)) ==> r == p
    ensures p.Some? && (Truthy(c.fullName) || Truthy(c.phoneNumber) || Truthy(c.careerId)) ==>
      && r.value.fullName == (if Truthy(c.fullName) then c.fullName.value else p.value.fullName)
      && r.value.careerId == (if Truthy(c.careerId) then c.careerId.value else p.value.careerId)
      && r.value.phoneNumber == (if c.phoneNumber.Some? then c.phoneNumber else p.value.phoneNumber)
  {
    if p.Some? && (Truthy(c.fullName) || Truthy(c.phoneNumber) || Truthy(c.careerId)) then
      var q := p.value;
      Some(q.(fullName := if Truthy(c.fullName) then c.fullName.value else q.fullName,
              phoneNumber := if c.phoneNumber.Some? then c.phoneNumber else q.phoneNumber,
              careerId := if Truthy(c.careerId) then c.careerId.value else q.careerId))
    else p
  }

  /** The user row after the first write of `updateUser`: the fields sent
      replace the stored ones, the profile is not touched yet. */
  function WithUserFields(u: User, c: UserChanges): (v: User)
    ensures v.id == u.id && v.username == u.username && v.profile == u.profile
    ensures v.name == c.name.GetOr(u.name) && v.email == c.email.GetOr(u.email)
    ensures v.isActive == c.isActive.GetOr(u.isActive) && v.roleId == c.roleId.GetOr(u.roleId)
  {
    u.(name := c.name.GetOr(u.name), email := c.email.GetOr(u.email),
       isActive := c.isActive.GetOr(u.isActive), roleId := c.roleId.GetOr(u.roleId))
  }

  /** The role sent does not exist, so the user update fails on its
      foreign key. */
  predicate RoleUnknown(a: Accounts, c: UserChanges) {
    c.roleId.Some? && c.roleId.value !in a.roles
  }

  /** The profile update would point a student at a career that does not
      exist, so it fails on its foreign key. */
  predicate CareerUnknown(a: Accounts, u: User, c: UserChanges) {
    u.profile.Some? && Truthy(c.careerId) && c.careerId.value !in a.careers
  }

  /** What `updateUser` answers and writes. It has no guard: an
      administrator may deactivate or demote anyone, themself included. The
      user row and the profile are two writes, so a profile write that fails
      leaves the user row already changed. */
  function UpdateOutcomeOf(a: Accounts, id: string, c: UserChanges): (o: AdminOutcome)
    requires WellFormed(a)
    ensures WellFormed(o.post)
    ensures o.result == Err(UserNotFound) <==> id !in a.users
    ensures o.result == Err(ServerError) <==>
      id in a.users && (RoleUnknown(a, c) || CareerUnknown(a, a.users[id], c))
    ensures o.result.Err? ==> o.result.error in {UserNotFound, ServerError}
    // a refusal before the first write changes nothing
    ensures id !in a.users || RoleUnknown(a, c) ==> o.post == a
    // a failed profile write keeps the user row's changes: the answer is 500
    // but name, e-mail, status and role are already written
    ensures id in a.users && !RoleUnknown(a, c) && CareerUnknown(a, a.users[id], c) ==>
      o.post == a.(users := a.users[id := WithUserFields(a.users[id], c)])
    ensures o.result.Ok? ==>
      var u := a.users[id];
      var v := o.result.value;
      && o.post == a.(users := a.users[id := v])
      && v.id == u.id && v.username == u.username
      && v.name == c.name.GetOr(u.name) && v.email == c.email.GetOr(u.email)
      && v.isActive == c.isActive.GetOr(u.isActive) && v.roleId == c.roleId.GetOr(u.roleId)
      && v.profile == UpdatedProfile(u.profile, c)
  {
    if id !in a.users then AdminOutcome(Err(UserNotFound), a)
    else if RoleUnknown(a, c) then AdminOutcome(Err(ServerError), a)
    else
      var u := a.users[id];
      var fields := WithUserFields(u, c);
      if CareerUnknown(a, u, c) then AdminOutcome(Err(ServerError), a.(users := a.users[id := fields]))
      else
        var v := fields.(profile := UpdatedProfile(u.profile, c));
        AdminOutcome(Ok(v), a.(users := a.users[id := v]))
  }

  /** Unlike the two guarded handlers, `updateUser` can deactivate the only
      active administrator. */
  lemma UpdateCanRemoveLastAdmin()
    ensures var a := Accounts(map["u1" := User("u1", "admin", "Admin", "a@x", "r1", true, None)],
                              map["r1" := Admin], {});
      && WellFormed(a) && |ActiveAdmins(a)| == 1
      && |ActiveAdmins(UpdateOutcomeOf(a, "u1", UserChanges(None, None, Some(false), None, None, None, None)).post)| == 0
      && DeleteOutcomeOf(a, "u1", "u2").result == Err(LastAdmin)
  {
    var a := Accounts(map["u1" := User("u1", "admin", "Admin", "a@x", "r1", true, None)], map["r1" := Admin], {});
    assert ActiveAdmins(a) == {"u1"};
    var post := UpdateOutcomeOf(a, "u1", UserChanges(None, None, Some(false), None, None, None, None)).post;
    assert ActiveAdmins(post) == {};
  }

  /** The user table the administration handlers share. */
  class UserTable {
    var users: map<string, User>
    var roles: map<string, string>
    var careers: set<string>

    function Contents(): Accounts
      reads this
    {
      Accounts(users, roles, careers)
    }

    predicate Valid()
      reads this
    {
      WellFormed(Contents())
    }

    constructor (roleNames: map<string, string>, careerIds: set<string>)
      ensures Valid() && Contents() == Accounts(map[], roleNames, careerIds)
    {
      users := map[];
      roles := roleNames;
      careers := careerIds;
    }

    /** `deleteUser`. */
    method DeleteUser(id: string, callerId: string) returns (r: Result<User, Refusal>)
      requires Valid()
      modifies this
      ensures Valid()
      ensures AdminOutcome(r, Contents()) == DeleteOutcomeOf(old(Contents()), id, callerId)
    {
      if id !in users {
        return Err(UserNotFound);
      }
      if id == callerId {
        return Err(OwnAccount);
      }
      var user := users[id];
      if roles[user.roleId] == Admin {
        var adminCount := |ActiveAdmins(Contents())|;
        if adminCount <= 1 {
          return Err(LastAdmin);
        }
      }
      users := users[id := user.(isActive := false)];
      r := Ok(users[id]);
    }

    /** `toggleUserStatus`. */
    method ToggleUserStatus(id: string, callerId: string) returns (r: Result<User, Refusal>)
      requires Valid()
      modifies this
      ensures Valid()
      ensures AdminOutcome(r, Contents()) == ToggleOutcomeOf(old(Contents()), id, callerId)
    {
      if id !in users {
        return Err(UserNotFound);
      }
      if id == callerId {
        return Err(OwnAccount);
      }
      var user := users[id];
      if roles[user.roleId] == Admin && user.isActive {
        var activeAdminCount := |ActiveAdmins(Contents())|;
        if activeAdminCount <= 1 {
          return Err(LastAdmin);
        }
      }
      var flipped := user.(isActive := !user.isActive);
      users := users[id := flipped];
      r := Ok(flipped);
    }

    /** `updateUser`: the user fields sent, then the profile fields. */
    method UpdateUser(id: string, c: UserChanges) returns (r: Result<User, Refusal>)
      requires Valid()
      modifies this
      ensures Valid()
      ensures AdminOutcome(r, Contents()) == UpdateOutcomeOf(old(Contents()), id, c)
    {
      if id !in users {
        return Err(UserNotFound);
      }
      if c.roleId.Some? && c.roleId.value !in roles {
        return Err(ServerError);
      }
      var user := users[id];
      var updated := WithUserFields(user, c);
      users := users[id := updated];
      if user.profile.Some? && (Truthy(c.fullName) || Truthy(c.phoneNumber) || Truthy(c.careerId)) {
        if Truthy(c.careerId) && c.careerId.value !in careers {
          return Err(ServerError);
        }
        updated := updated.(profile := UpdatedProfile(user.profile, c));
        users := users[id := updated];
      } else {
        assert UpdatedProfile(user.profile, c) == user.profile;
      }
      r := Ok(updated);
    }
  }

  // ------------------------------------------------------------ arithmetic

  /** `skip = (page - 1) * limit`. */
  function Skip(page: int, limit: int): (s: int)
    requires page >= 1 && limit >= 1
    ensures s >= 0
    ensures s == (page - 1) * limit
  {
    (page - 1) * limit
  }

  /** `Math.ceil(total / limit)`. */
  function TotalPages(total: nat, limit: int): (pages: nat)
    requires limit >= 1
    ensures (pages - 1) * limit < total <= pages * limit || (total == 0 && pages == 0)
  {
    (total + limit - 1) / limit
  }

  /** Every page up to `totalPages` starts inside the listing, and the page
      after it starts past the end. */
  lemma PagesCoverListing(total: nat, limit: int, page: int)
    requires limit >= 1 && 1 <= page
    ensures page <= TotalPages(total, limit) ==> Skip(page, limit) < total
    ensures page > TotalPages(total, limit) ==> Skip(page, limit) >= total
  {
    var tp := TotalPages(total, limit);
    if page <= tp {
      assert (page - 1) * limit <= (tp - 1) * limit by {
        MultiplyMonotone(page - 1, tp - 1, limit);
      }
    } else {
      assert tp * limit <= (page - 1) * limit by {
        MultiplyMonotone(tp, page - 1, limit);
      }
    }
  }

  lemma MultiplyMonotone(x: int, y: int, k: int)
    requires x <= y && k >= 0
    ensures x * k <= y * k
  {
  }

  /** `inactiveUsers = totalUsers - activeUsers` is the number of inactive
      users. */
  function InactiveUsers(users: map<string, User>): (n: int)
    ensures n == |set id | id in users && !users[id].isActive|
  {
    var active := set id | id in users && users[id].isActive;
    var inactive := set id | id in users && !users[id].isActive;
    assert users.Keys == active + inactive && active !! inactive;
    |users| - |active|
  }
}

=== FILE: wrappers.dfy ===
/** Option and Result, the two shapes the controllers use for "maybe absent"
    (a nullable column, an optional request field) and "value or error". */
module Wrappers {

  datatype Option<+T> = None | Some(value: T) {
    function GetOr(default: T): T {
      match this
      case Some(v) => v
      case None => default
    }
  }

  datatype Result<+T, +E> = Ok(value: T) | Err(error: E)

  /** A nullable JavaScript string is truthy when present and non-empty. */
  predicate Truthy(o: Option<string>) {
    o.Some? && o.value != ""
  }
}
